=== FILE: README.md ===
# mini-gluon core in Dafny

mini-gluon is a project scaffolder. A FastAPI backend renders a code
template, creates a GitHub repository for it, uploads the rendered files
and records the project in MongoDB. It also keeps status-check records and
a health probe. A React hook validates the frontend's forms. This project
models that core as pure Dafny functions over immutable state:

- a MongoDB collection (`Repository.Collection`: entries of store key and
  document, plus an `online` flag for an unreachable server);
- the hosting account (`GitHubService.Hub`: repositories, refused names,
  uploads and deletions, an outage status and the log of calls made);
- the template service, which is an abstract collaborator
  (`Templates.TemplateService`: each operation returns or raises).

Every handler returns the new state with its reply. Each module follows one
source file:

| module | source |
|---|---|
| `Exceptions` | `backend/app/core/exceptions.py` |
| `Validators` | `backend/app/utils/validators.py` |
| `ProjectModels`, `StatusModels`, `Templates` | `backend/app/models/` |
| `Repository`, `ProjectRepository`, `StatusRepository` | `backend/app/repositories/` |
| `GitHubService`, `ProjectService` | `backend/app/services/` |
| `ProjectsRouter`, `TemplatesRouter`, `StatusRouter`, `Http` | `backend/app/routers/` |
| `Settings` | `backend/app/config/settings.py` |
| `UseValidation` | `frontend/src/hooks/useValidation.js` |

`Wrappers`, `Text`, `Dicts` and `Documents` hold the shared vocabulary:
- `Option` and `Result`;
- Python and JavaScript string primitives (lower-casing, strip, split,
  ASCII whitespace);
- insertion-ordered dictionaries with distinct keys;
- BSON-like values and filters.

Conventions that matter when reading the contracts:

- Generated values are parameters: the uuid `id`, the ObjectId `oid` and
  the current time `now` (an integer count of microseconds).
- An ObjectId is valid iff it has exactly 24 hexadecimal digits. Its text
  form is lower-case.
- pymongo's cursor window: a negative skip raises. A limit of 0 means no
  limit. A negative limit counts as its absolute value.
- Python's `re.match` with a `$` anchor also accepts one trailing newline.
  The model keeps that, so `"user\n"` is a valid username.
- A handler's `except Exception` also catches the `HTTPException(404)`
  raised inside its own `try`. So "not found" reaches the client as 500
  "Internal server error", never 404 (`Http.NotFoundInsideTryIs500`).
- The project service raises `ValidationError` for an unknown status or a
  missing project. Its own `except Exception` rewraps that as a
  `DatabaseError`. So the routers' 400 branches for those cases are never
  taken.

## Model

| member | source | states |
|---|---|---|
| Exceptions.NewBaseError | backend/app/core/exceptions.py:10-18 | the base exception keeps the message and status code; absent details become an empty map |
| Exceptions.NewError | backend/app/core/exceptions.py:22-54 | each subclass fixes its status: validation 400, not found 404, hosting 502, template 422, database 500 |
| Exceptions.StatusIdentifiesKind | backend/app/core/exceptions.py:22-54 | two subclass errors with the same status code are of the same subclass |
| Exceptions.Raise | backend/app/core/exceptions.py:22-54 | a raised subclass error is an instance of that subclass and prints its message |
| Validators.ValidateProjectName | backend/app/utils/validators.py:9-24 | an accepted name has 1..100 characters; a name of at most 100 characters that matches the pattern outright is accepted |
| Validators.ProjectNameCharacterization | backend/app/utils/validators.py:9-24 | a project name is valid iff it has 1..100 characters, each a letter, digit, whitespace, hyphen or underscore (a trailing newline is whitespace, so the `$` quirk adds nothing) |
| Validators.ValidateGithubUsername | backend/app/utils/validators.py:27-42 | an accepted username has 1..39 characters; one of at most 39 characters that matches the pattern outright is accepted |
| Validators.UsernamePatternIsShape | backend/app/utils/validators.py:27-42 | the username regex accepts exactly the documented shape: alphanumerics and inner hyphens, not starting or ending with a hyphen |
| Validators.UsernameCharacterization | backend/app/utils/validators.py:27-42 | a username is valid iff it has 1..39 characters and has that shape, apart from one allowed trailing newline |
| Validators.UsernameRejectsUnderscore | backend/app/utils/validators.py:37-42 | a username containing an underscore anywhere is invalid |
| Validators.ValidateRepositoryName | backend/app/utils/validators.py:45-60 | an accepted repository name has 1..100 characters; one of at most 100 characters that matches the pattern outright is accepted |
| Validators.UsernameIsRepositoryName | backend/app/utils/validators.py:27-60 | every valid username is also a valid repository name |
| Validators.NameExamples | backend/tests/unit/test_utils.py:20-108 | the accepted and rejected names of the unit tests, including the 100/101 length boundary |
| Validators.Underscored | backend/app/utils/validators.py:91-95 | every dangerous character becomes `_`; every other character and the length are kept |
| Validators.ReplaceEachIsUnderscored | backend/app/utils/validators.py:91-95 | replacing the dangerous characters one after the other equals the character-wise substitution, and none of them remains |
| Validators.StripOrUnnamed | backend/app/utils/validators.py:97-104 | after stripping spaces and dots, the result is non-empty, has no dangerous character and does not start or end with a space or dot |
| Validators.SanitizeFilename | backend/app/utils/validators.py:80-104 | the sanitised name is non-empty, has no dangerous character and does not start or end with a space or dot |
| Validators.SanitizeFixedPoints | backend/app/utils/validators.py:80-104 | sanitising leaves a name alone iff it is non-empty, has no dangerous character and has no space or dot at either end |
| Validators.SanitizeIdempotent | backend/app/utils/validators.py:80-104 | sanitising a sanitised name changes nothing |
| Validators.SanitizeIsReplaceLoop | backend/app/utils/validators.py:80-104 | sanitising is the replacement loop over the dangerous characters followed by the strip, as written |
| Validators.SanitizeKeepsCleanName | backend/tests/unit/test_utils.py:145 | `normal-file.txt` is kept |
| Validators.SanitizeReplacesReserved | backend/tests/unit/test_utils.py:146 | `file<with>bad:chars` becomes `file_with_bad_chars` |
| Validators.SanitizeReplacesSlashes | backend/tests/unit/test_utils.py:147 | `file/with\slashes` (one backslash) becomes `file_with_slashes` |
| Validators.SanitizeStripsSpaces | backend/tests/unit/test_utils.py:148 | a clean name padded with any number of spaces on either side sanitises to the name, which covers `"  spaced  "` |
| Validators.SanitizeExamples | backend/tests/unit/test_utils.py:149-150 | the empty name and a name of dots become `unnamed` |
| Validators.CheckValue | backend/app/utils/validators.py:139-144 | a declared variable's value passes iff it is a string of 1..1000 characters |
| Validators.ValueErrors | backend/app/utils/validators.py:136-144 | value errors name only declared variables that were provided; there is at most one per provided variable |
| Validators.ValueErrorsEmpty | backend/app/utils/validators.py:136-144 | there is no value error iff every provided declared variable has a valid value |
| Validators.ValueErrorsOncePerName | backend/app/utils/validators.py:136-144 | with distinct provided names, no name gets two value errors |
| Validators.ValueErrorsSound | backend/app/utils/validators.py:136-144 | every reported value error names a provided, declared variable whose value fails its check with exactly the reported problem |
| Validators.ValueErrorsComplete | backend/app/utils/validators.py:136-144 | every provided, declared variable whose value is not a string of 1..1000 characters is reported with its problem |
| Validators.ValueErrorsInOrder | backend/app/utils/validators.py:136-144 | the errors of two bad variables both occur, in the order the variables were provided |
| Validators.ValidateTemplateVariables | backend/app/utils/validators.py:107-146 | "missing" is reported iff a declared variable is not provided, and then first and only there; "unknown" iff a provided one is not declared, and then right after the set-valued errors and only there; the errors past those are exactly the value errors, which concern declared, provided names |
| Validators.Assemble | backend/app/utils/validators.py:126-146 | the missing-names error, when there is one, is first and the only one of its kind; the unknown-names error, when there is one, closes the set-valued errors and is the only one of its kind; the value errors follow, unchanged |
| Validators.TemplateVariableErrorsGrouped | backend/app/utils/validators.py:126-144 | an entry is a value error iff it comes after the set-valued errors |
| Validators.TemplateVariableErrorsOrdered | backend/app/utils/validators.py:136-144 | the value errors of two bad variables both occur after the set-valued errors, in the order the variables were provided |
| Validators.TemplateVariableErrorsComplete | backend/app/utils/validators.py:136-144 | every provided, declared variable with a bad value is reported, after the set-valued errors |
| Validators.TemplateVariablesAccepted | backend/app/utils/validators.py:107-146 | no error iff the provided names are exactly the declared ones and every value is a string of 1..1000 characters |
| Validators.TemplateVariableValueErrorsUnique | backend/app/utils/validators.py:136-144 | each declared name gets at most one value error |
| Validators.ValidatePaginationParams | backend/app/utils/validators.py:149-171 | no error iff skip >= 0 and 1 <= limit <= 1000; each of the three messages appears iff its bound is broken; there are at most two errors |
| ProjectModels.ValidateName | backend/app/models/project.py:20-25 | a rejected name reports the fixed alphanumeric-format message |
| ProjectModels.NameAccepted | backend/app/models/project.py:20-25 | a name is accepted iff it consists only of letters, digits, hyphens and underscores, with at least one letter or digit |
| ProjectModels.AcceptedNameIsLowered | backend/app/models/project.py:23-25 | an accepted name has no space, so the space replacement never fires; the result is the lower-cased name, of the same length |
| ProjectModels.ValidateNameIdempotent | backend/app/models/project.py:20-25 | validating an accepted name again gives the same value |
| ProjectModels.ValidateLanguage | backend/app/models/project.py:27-33 | a language is accepted iff its lower-case form is supported; the stored value is that lower-case form |
| ProjectModels.ValidateLanguageIdempotent | backend/app/models/project.py:27-33 | validating an accepted language again gives the same value |
| ProjectModels.ParseProjectRequest | backend/app/models/project.py:11-33 | a request is accepted iff each field meets its bounds and its validator; an accepted request holds the validated values; a refused one names the failing fields |
| ProjectModels.FailedFields | backend/app/models/project.py:11-33 | a field is named in the 422 list iff its check failed |
| ProjectModels.SpacedNameRejected | backend/app/models/project.py:20-25 | a request whose name contains a space is always refused |
| ProjectModels.NewProject | backend/app/models/project.py:45-55 | a constructed project carries exactly the given fields |
| ProjectModels.NewProjectDefaults | backend/app/models/project.py:45-55 | a new project defaults to status `created`, empty metadata and no update time |
| ProjectModels.ProjectFromDoc | backend/app/models/project.py:45-55 | a decoded project's id, name and language are the document's string fields |
| ProjectModels.ProjectDocRoundTrip | backend/app/models/project.py:45-55 | decoding the written document gives the same project back |
| ProjectModels.ProjectDocRoundTripWithId | backend/app/repositories/base.py:44-48 | decoding a written document whose `id` was overwritten gives the project with that id |
| StatusModels.ParseStatusCheckCreate | backend/app/models/status.py:11-15 | a request is accepted iff the client name has 1..100 characters; absent metadata defaults to an empty map |
| StatusModels.StatusCheckFromDoc | backend/app/models/status.py:18-22 | a decoded check's client name and creation time are the document's fields |
| StatusModels.StatusCheckDocRoundTrip | backend/app/models/status.py:18-22 | decoding the written document gives the same check back, also with an overwritten id |
| Templates.ProjectVariables | backend/app/services/project_service.py:48-51 | the rendering variables are exactly `project_name` and `project_description`, holding the request's name and description |
| Repository.ParseObjectId | backend/app/repositories/base.py:42-51 | an id parses iff it has exactly 24 hexadecimal digits; the parsed form is its lower-case text |
| Repository.ParseObjectIdCanonical | backend/app/repositories/base.py:42-51 | the canonical text of an ObjectId parses to itself |
| Repository.UuidIsNotObjectId | backend/app/models/base.py:13 | a 36-character uuid string never parses as an ObjectId |
| Repository.Select | backend/app/repositories/base.py:64-80 | the selection holds matching entries of the collection only, and every matching entry |
| Repository.SelectAll | backend/app/repositories/base.py:64-80 | the empty filter selects every document |
| Repository.SelectConcat | backend/app/repositories/base.py:64-80 | filtering on a conjunction is filtering twice |
| Repository.ReadDoc | backend/app/repositories/base.py:44-48 | a read document has `id` set to the store key and every other field unchanged |
| Repository.DecodeAll | backend/app/repositories/base.py:72-78 | a listing decodes iff every document decodes; the result keeps their order |
| Repository.Window | backend/app/repositories/base.py:73 | skip then limit: the window is the slice starting at skip, of at most the absolute value of limit (0 meaning no limit), empty past the end |
| Repository.DbError | backend/app/repositories/base.py:39-40 | a wrapped error is a database error whose message is the operation's prefix followed by the wrapped message (the service wraps repository failures the same way) |
| Repository.Create | backend/app/repositories/base.py:32-40 | an offline store or a duplicate key fails as a database error and leaves the store alone; otherwise the document is appended under the key |
| Repository.CreateKeepsUniqueKeys | backend/app/repositories/base.py:32-40 | creating keeps store keys unique |
| Repository.CreateStored | backend/app/repositories/base.py:32-40 | corrected `create`: same store effect; it succeeds iff the store is online and the key is fresh; the returned model is the document as a read returns it, so its id is the store key |
| Repository.CreatedIsFound | backend/app/repositories/base.py:32-51 | what the corrected `create` returns is what `get_by_id` finds under the returned id |
| Repository.FindKey | backend/app/repositories/base.py:45-46 | finds the position of an entry with the key, or reports that there is none |
| Repository.GetById | backend/app/repositories/base.py:42-51 | a non-ObjectId id and an offline store are database errors; a missing key gives None; a present key gives the decoded entry with the canonical key, or the model-validation error when it does not decode |
| Repository.GetByField | backend/app/repositories/base.py:53-62 | None iff no document has the field equal to the value; otherwise the first matching entry, decoded, or the model-validation error when it does not decode |
| Repository.GetAll | backend/app/repositories/base.py:64-80 | a negative skip is a database error even when the store is unreachable, an unreachable store is one otherwise; it succeeds iff every entry of the window of the filtered documents decodes, giving them in order, one per entry of the window |
| Repository.UpdateFields | backend/app/repositories/base.py:86-88 | the update sets every non-None field given and `updated_at := now`, and nothing else |
| Repository.SetFields | backend/app/repositories/base.py:90-93 | `$set` gives the named fields their new values and keeps every other field |
| Repository.ApplySet | backend/app/repositories/base.py:90-93 | only the first entry with the key changes, and keys and positions are kept |
| Repository.Update | backend/app/repositories/base.py:82-98 | an invalid id, an unreachable store, or an `_id` update of a stored key fails without effect; otherwise the `$set` is applied to the entries; None iff nothing changed; an update that changed the store answers what `get_by_id` reads from it by the id, a failure of that read wrapped as an update failure |
| Repository.WriteSet | backend/app/repositories/base.py:89-96 | the `$set` is applied to the entries; None iff no document changed; otherwise the re-read by the id, as `Reread` gives it |
| Repository.SetFieldsUpdates | backend/app/repositories/base.py:86-93 | the updated document carries the new non-None values and `updated_at`, and every other field is unchanged |
| Repository.UpdateEffect | backend/app/repositories/base.py:82-98 | an update of a stored key on a reachable store changes the first entry with that key as `UpdatedFrom` describes and no other entry |
| Repository.Delete | backend/app/repositories/base.py:100-106 | true iff an entry with the canonical key existed; it is then removed and the others are kept; errors leave the store alone |
| Repository.DeleteRemovesKey | backend/app/repositories/base.py:100-106 | with unique keys, a successful delete leaves no entry with that key and one entry fewer |
| Repository.Count | backend/app/repositories/base.py:108-114 | the count is the number of matching documents; offline is a database error |
| Repository.Exists | backend/app/repositories/base.py:116-122 | a failure is a database error |
| Repository.ExistsIffCountPositive | backend/app/repositories/base.py:108-122 | `exists` succeeds iff `count` does, and holds iff the count is positive |
| Repository.ExistsIffMatch | backend/app/repositories/base.py:116-122 | on an online store `exists` holds iff some document matches |
| Repository.DistinctValues | backend/app/repositories/project.py:40 | the distinct values are repetition-free and are exactly the values the field takes |
| Repository.Distinct | backend/app/repositories/project.py:40 | `distinct` fails only offline and then yields the distinct values |
| Repository.DeleteMany | backend/app/repositories/status.py:32-35 | removes exactly the matching documents and reports how many there were |
| Repository.Reject | backend/app/repositories/status.py:32-35 | the kept entries are exactly those that do not match |
| Repository.SelectRejectPartition | backend/app/repositories/status.py:32-35 | matching and non-matching entries together account for the whole collection |
| ProjectRepository.GetByName | backend/app/repositories/project.py:17-19 | a found project has that name; None iff no document has it; otherwise the first match decoded, as the generic field lookup gives it |
| ProjectRepository.ReadMatchesField | backend/app/repositories/project.py:17-27 | a project read from a document matching `field == v` has that value in the field |
| ProjectRepository.GetByLanguage | backend/app/repositories/project.py:25-27 | exactly min(matches, 100) projects, all of that language; an offline store is the database error; when every match decodes the lookup succeeds |
| ProjectRepository.GetByGithubUsername | backend/app/repositories/project.py:21-23 | exactly min(matches, 100) projects, all of that user; an offline store is the database error; when every match decodes the lookup succeeds |
| ProjectRepository.UsernameRead | backend/app/repositories/project.py:21-23 | a project read from a document with that user name has it |
| ProjectRepository.GetRecentProjects | backend/app/repositories/project.py:29-31 | exactly min(|store|, limit) projects (all of them for limit 0), each decoded from the entry at the same position of the collection; an offline store is the database error; when every entry decodes the listing succeeds |
| ProjectRepository.UpdateStatus | backend/app/repositories/project.py:33-35 | with a valid id on a reachable store the status `$set` is applied to the entries, and None iff that changed nothing; an invalid id or an unreachable store fails without effect; a changed store answers the project re-read by its id (`Reread`); failures are database errors |
| ProjectRepository.StatusUpdateDoc | backend/app/repositories/project.py:33-35 | a status update changes only `status` and `updated_at` |
| ProjectRepository.UpdateStatusChangesOnlyStatus | backend/app/repositories/project.py:33-35 | a status update of a stored project on a reachable store gives that entry the new status and `updated_at`, keeps its other fields, and leaves all other entries unchanged |
| ProjectRepository.Breakdown | backend/app/repositories/project.py:48-50 | each language's count is the number of documents with that language |
| ProjectRepository.DistinctCardinality | backend/app/repositories/project.py:40-44 | a repetition-free list has as many elements as its set, so the language count equals the distinct languages |
| ProjectRepository.StatsOf | backend/app/repositories/project.py:37-52 | total = number of documents; languages = distinct languages = breakdown length; the breakdown covers each language once with its count |
| ProjectRepository.GetProjectStats | backend/app/repositories/project.py:37-52 | offline fails as the count's database error; otherwise the stats, whose total agrees with `count` |
| StatusRepository.GetRecentChecks | backend/app/repositories/status.py:17-19 | exactly min(|store|, limit) checks (all of them for limit 0), each decoded from the entry at the same position; an offline store is the database error; when every entry decodes the listing succeeds |
| StatusRepository.GetByClient | backend/app/repositories/status.py:21-23 | exactly min(matches, 100) checks, all of that client, each decoded from the matching entry at the same position; an offline store is the database error; when every match decodes the lookup succeeds |
| StatusRepository.GetChecksSince | backend/app/repositories/status.py:25-27 | exactly min(matches, 100) checks, none created before `since`, each decoded from the matching entry at the same position; an offline store is the database error; when every match decodes the lookup succeeds |
| StatusRepository.CleanupOldChecks | backend/app/repositories/status.py:29-35 | removes exactly the checks created before `now - days`, keeps all others, and reports how many it removed |
| StatusRepository.Later | backend/app/repositories/status.py:44 | `$max` over dates: the later of two dates; a date beats null |
| StatusRepository.NoChecks | backend/app/repositories/status.py:39-46 | a client with no checks has count 0 and no last check |
| StatusRepository.FindClient | backend/app/repositories/status.py:39-46 | finds a group by client name, or reports that there is none |
| StatusRepository.Record | backend/app/repositories/status.py:39-46 | adding a check to a grouping of a collection gives the grouping of the extended collection |
| StatusRepository.Group | backend/app/repositories/status.py:39-46 | `$group`: one group per distinct client with its check count and last check, covering every document |
| StatusRepository.Insert | backend/app/repositories/status.py:47-49 | insertion adds exactly one element |
| StatusRepository.InsertSorted | backend/app/repositories/status.py:47-49 | inserting into a list sorted by descending count keeps it sorted |
| StatusRepository.InsertDistinct | backend/app/repositories/status.py:47-49 | inserting a new client keeps names distinct |
| StatusRepository.SortByCount | backend/app/repositories/status.py:47-49 | `$sort` by count descending: a sorted permutation of the groups |
| StatusRepository.SortKeepsNamesDistinct | backend/app/repositories/status.py:47-49 | sorting keeps client names distinct |
| StatusRepository.GetClientStats | backend/app/repositories/status.py:37-63 | online: one entry per distinct client name, sorted by count, with the true count and last check, covering every check; total = number of clients |
| GitHubService.GetRepoCall | backend/app/services/github_service.py:56 | `get_repo` finds a repository iff there is no outage and it exists; a missing one raises status 404 |
| GitHubService.LoadLogin | backend/app/services/github_service.py:24-31 | the `user` property makes no request and cannot fail; the `/user` request is made when the login is first needed, fails iff the service is down, and is not repeated once it succeeded |
| GitHubService.LoginFetchedOnce | backend/app/services/github_service.py:24-31 | after a successful login request, loading it again makes no call; at most one call is made |
| GitHubService.UserGetRepo | backend/app/services/github_service.py:106 | `self.user.get_repo(name)` finds the repository iff there is no outage and it exists; otherwise it raises the outage status, from the login request or the lookup, or 404; only the call log changes |
| GitHubService.CleanName | backend/app/services/github_service.py:52 | the repository name has the same length, with spaces and underscores as hyphens and everything lower-cased |
| GitHubService.CleanNameIdempotent | backend/app/services/github_service.py:52 | cleaning a cleaned name changes nothing |
| GitHubService.CleanNameKeepsValidCharacters | backend/app/services/github_service.py:52 | letters, digits and hyphens stay letters, digits and hyphens |
| GitHubService.NewRepo | backend/tests/conftest.py:47-53 | a new repository is empty and its URL is `https://github.com/<login>/<name>` |
| GitHubService.CreateRepository | backend/app/services/github_service.py:33-86 | success iff there is no outage and the cleaned name is new and acceptable, adding exactly that repository; an existing name fails as "already exists" without a creation call; an outage, whose probe failure is swallowed, fails as "Failed to create repository" with the outage status; a refused name fails with 422; failures change no repository |
| GitHubService.CreateRepositoryCalls | backend/app/services/github_service.py:33-86 | a success makes the login request the first time, then the probe and exactly one creation call for the cleaned name |
| GitHubService.Uploads | backend/app/services/github_service.py:108-124 | one upload call per file, in order, on `main` |
| GitHubService.CreateFileCall | backend/app/services/github_service.py:109-124 | one upload adds that file iff the service accepts it, and touches nothing else |
| GitHubService.CreateFiles | backend/app/services/github_service.py:88-134 | it succeeds, with true, iff there is no outage and the repository exists; every file is uploaded once, in order; the repository gains exactly the accepted files; the others are untouched; a failure is "Failed to create files" with the lookup's exception |
| GitHubService.UploadsAppend | backend/app/services/github_service.py:108-124 | the uploads of a list extended by one file are the old uploads followed by that file's upload |
| GitHubService.GetRepository | backend/app/services/github_service.py:136-160 | never raises: the details iff there is no outage and the repository exists, None otherwise; the details are the repository's; only the call log changes |
| GitHubService.DeleteRepository | backend/app/services/github_service.py:162-179 | it succeeds, with true, iff there is no outage, the repository exists and its deletion is not refused, and then removes exactly that repository; a failure is "Failed to delete repository" with the lookup's exception, or the 403 refusal when the lookup succeeded, and removes nothing; the deletion call is made iff the lookup found the repository |
| GitHubService.TestConnection | backend/app/services/github_service.py:181-197 | the test passes iff the service is up or its outage answers 404 (a 404 from the login request counts too); only the call log changes, by at most the login request and one probe of `test` |
| ProjectService.Classify | backend/app/services/project_service.py:100-111 | validation, hosting and database errors pass unchanged; anything else becomes a validation error "Failed to create project: …" |
| ProjectService.CreatedProject | backend/app/services/project_service.py:74-87 | the saved record is `created`, has the request's fields and the repository URL, and its metadata records the template, the number of files and the repository name |
| ProjectService.CreateProject | backend/app/services/project_service.py:31-111 | the steps run in order and stop at the first failure; each step is reached iff the earlier ones succeed, and a failing step's classified error is the result; it succeeds iff template, validation, rendering and repository creation succeed and the store takes the fresh key; under the constant-outage abstraction (see ## Left out) the upload step is never the failing one; earlier effects are not undone; success appends the record and reports the store key, which `get_by_id` finds; this is the corrected `create` (see ## Findings), not the uuid the code as written reports |
| ProjectService.SaveCreated | backend/app/services/project_service.py:89-98 | the save succeeds iff the store is online and the key is fresh; it appends the record and reports the store key as the project id, following the corrected `create` (see ## Findings) |
| ProjectService.AsWrittenIdNotFound | backend/app/repositories/base.py:32-51 | as written, `create` returns the record's uuid as its id, and `get_project_by_id` of that id fails |
| ProjectService.UploadedKeys | backend/app/services/github_service.py:108-127 | a new repository ends up holding exactly the rendered paths the service did not refuse |
| ProjectService.ProjectsFilter | backend/app/services/project_service.py:133-137 | a document passes iff it has the language when one is given (non-empty) and the user name when one is given |
| ProjectService.GetProjects | backend/app/services/project_service.py:113-149 | succeeds iff the store is online, skip is non-negative and the generic listing succeeds, giving its projects: one per document of the filtered window, at most `limit`, all passing the filter; failures are wrapped database errors, the negative-skip one taking precedence over an unreachable store |
| ProjectService.ListedProjectsMatch | backend/app/services/project_service.py:132-145 | every listed project has the requested language and user name |
| ProjectService.ReadSatisfiesFilter | backend/app/services/project_service.py:132-145 | a project read from a document passing the filter has the filtered values |
| ProjectService.GetProjectById | backend/app/services/project_service.py:151-157 | succeeds iff the generic lookup does and then gives its result; a stored project that decodes is found, with the canonical id asked for; a missing key gives None; failures are wrapped database errors |
| ProjectService.GetProjectByName | backend/app/services/project_service.py:159-165 | a found project has that name; None iff no document has it; otherwise the first match is found when it decodes; an offline store gives the wrapped database error |
| ProjectService.GetRecent | backend/app/services/project_service.py:167-173 | succeeds iff the repository listing does and gives its projects: exactly min(|store|, limit), in store order; succeeds whenever the store is online and every entry decodes; failures are wrapped database errors |
| ProjectService.UpdateProjectStatus | backend/app/services/project_service.py:175-185 | an unknown status leaves the store alone and fails as a database error; a valid one is written by the repository's status update, with None iff it changed nothing on a reachable store and a valid id; a changed store answers the project re-read by its id, a failed read wrapped in the service's prefix; a reported update changes only one entry's status and update time |
| ProjectService.GetProjectStatistics | backend/app/services/project_service.py:187-193 | succeeds iff online, with exactly the statistics of the stored entries: the total, one breakdown row per distinct language with its count; offline gives the wrapped count error |
| ProjectService.DeleteProject | backend/app/services/project_service.py:195-217 | a failed lookup is reported under the deletion prefix; a missing project fails "Project not found"; for a found project, its named repository is deleted remotely iff the metadata names one, a failed remote deletion keeps the record and reports that failure, and once the repository is gone (or none is named) the record is deleted with true |
| ProjectService.DeleteFound | backend/app/services/project_service.py:202-213 | for a found project: absent metadata or a non-string repository fails; no named repository leaves the account alone; a named one is deleted first and its failure keeps the record; otherwise the record is deleted with true |
| Http.Fail | backend/app/routers/projects.py:155-178 | the handlers' except chain: a caught validation error gives 400 with its message, a caught database error 500 with its message, anything else 500 "Internal server error" |
| Http.NotFoundInsideTryIs500 | backend/app/routers/projects.py:102-111 | a 404 raised inside a handler's `try` reaches the client as 500 "Internal server error" |
| ProjectsRouter.CreateEndpoint | backend/app/routers/projects.py:30-50 | a malformed body gives 422 naming the fields, with no effect; 201 iff the body parses and the creation succeeds, answering the success response with the new repository's URL and the store key (the corrected `create`, see ## Findings) and one more record; a missing template answers as its classified error, a hosting failure the generic 500; failures keep the store; the status is one of 201, 400, 422, 500 |
| ProjectsRouter.PageViolations | backend/app/routers/projects.py:55-56 | a query parameter is reported iff it breaks its bound: skip >= 0, 1 <= limit <= 100 |
| ProjectsRouter.PageOf | backend/app/routers/projects.py:82 | the reported page is the 1-based page of `limit` entries that holds entry `skip` |
| ProjectsRouter.ListEndpoint | backend/app/routers/projects.py:53-89 | bad paging gives 422; 200 iff paging is valid and the service listing succeeds, answering exactly its projects with `total` counting every project, filtered or not, the 1-based page and the page size; a listing failure answers 500 with its message |
| ProjectsRouter.GetEndpoint | backend/app/routers/projects.py:92-111 | 200 iff the service finds the project, answering exactly it, with the canonical id; a stored project that decodes is answered; a service failure answers 500 with its message; a missing one gives 500, never 404 |
| ProjectsRouter.GetByNameEndpoint | backend/app/routers/projects.py:114-133 | 200 iff the service finds a project of that name, answering exactly it; the first stored match that decodes is answered; a service failure answers 500 with its message; a missing one gives 500, never 404 |
| ProjectsRouter.RecentEndpoint | backend/app/routers/projects.py:136-152 | a limit outside 1..50 gives 422; 200 iff the limit is valid and the service listing succeeds, answering exactly its min(|store|, limit) projects; an online store whose entries all decode is answered; failures answer 500 with their message |
| ProjectsRouter.UpdateStatusEndpoint | backend/app/routers/projects.py:155-178 | the store is the service's; 200 iff the service reports an updated project, answering it with the message naming the status (the service re-reads it from the updated store); service failures answer 500 with their message; an unknown status gives 500 with the wrapped message and no effect; a write that changed the store answers 200 with the project re-read by its id, and one that changed nothing answers the swallowed 404 as 500 "Internal server error"; the reply is never 400 or 404 |
| ProjectsRouter.StatsEndpoint | backend/app/routers/projects.py:181-194 | 200 iff online, answering exactly the statistics of the stored entries; a failure answers 500 with the service's message |
| ProjectsRouter.DeleteEndpoint | backend/app/routers/projects.py:197-218 | the store and hosting account are the service's; 200 iff the service deletes, removing a record; every failure is 500 with the service's message and keeps the store; a missing project gives the wrapped "Project not found"; a found project whose named repository is removed, or which names none, answers 200 and is deleted |
| TemplatesRouter.LanguagesEndpoint | backend/app/routers/templates.py:24-41 | the languages with their count; any failure gives 500 |
| TemplatesRouter.TemplatesEndpoint | backend/app/routers/templates.py:44-67 | 200 iff the service lists the language's templates, answering exactly them with their count and the language; a failure answers as its error does: 400 with the message iff it is a validation error, else 500 |
| TemplatesRouter.DetailsEndpoint | backend/app/routers/templates.py:70-97 | the template with its variables, dependencies, setup notes and file count; a validation error answers 400 with its message, any other failure 500 "Internal server error" |
| TemplatesRouter.Truncate | backend/app/routers/templates.py:134-139 | content of at most 1000 characters is kept; longer content keeps its first 1000 characters and gains the marker |
| TemplatesRouter.TruncateUnchanged | backend/app/routers/templates.py:134-139 | truncation leaves content alone iff it is at most 1000 characters long or is already a truncated preview |
| TemplatesRouter.PreviewFiles | backend/app/routers/templates.py:134-139 | the preview has the same paths in the same order, each content truncated |
| TemplatesRouter.PreviewEndpoint | backend/app/routers/templates.py:100-153 | succeeds iff lookup, validation and rendering succeed with the sample variables; the files are the rendered files truncated, and `total_files` counts them; a failure answers for the first failing step (lookup, then validation, then rendering): 400 with a validation error's message, 500 "Internal server error" otherwise |
| StatusRouter.HealthEndpoint | backend/app/routers/status.py:35-76 | the database is connected iff its ping answers, the hosting API iff the connection test passes; healthy iff both are connected |
| StatusRouter.CreateCheckEndpoint | backend/app/routers/status.py:79-102 | a bad client name gives 422; success iff online with a fresh key, answering 201 with the stored check under its store key (the corrected `create`, see ## Findings); failure gives 500 "Failed to create status check" with no effect |
| StatusRouter.ChecksEndpoint | backend/app/routers/status.py:105-122 | 200 iff the repository listing succeeds, answering exactly its checks, min(|store|, limit) of them; an online store whose entries all decode is answered; failures give 500 with the database message |
| StatusRouter.ClientChecksEndpoint | backend/app/routers/status.py:125-142 | 200 iff the repository lookup succeeds, answering exactly its checks: min(matches, 100), all of that client; failures give 500 with the database message |
| StatusRouter.ClientStatsEndpoint | backend/app/routers/status.py:145-161 | succeeds iff online, answering exactly the repository's statistics: every client with a check, once, sorted by count, with its count and latest check; a failure is the generic 500, since the driver error is not a database error |
| StatusRouter.CleanupEndpoint | backend/app/routers/status.py:164-188 | removes exactly the old checks and reports how many in the message |
| Settings.CorsOriginsList | backend/app/config/settings.py:54-59 | `*` gives `["*"]`; otherwise one entry per comma-separated segment, stripped, with no comma and no surrounding whitespace |
| Settings.DefaultAllowsAll | backend/app/config/settings.py:27-30 | the default setting allows every origin |
| Settings.CorsOriginsRoundTrip | backend/app/config/settings.py:54-59 | for segments without surrounding whitespace, joining the entries with commas gives the setting back |
| UseValidation.ValidateField | frontend/src/hooks/useValidation.js:7-39 | one non-empty message per failing check, in the order required, minimum length, maximum length, pattern, custom: each failing check's message (the pattern's own or default message, the custom check's result) sits right after those of the earlier failing checks; an absent value yields only the required message |
| UseValidation.CollectPositions | frontend/src/hooks/useValidation.js:7-39 | in the collected list, a failing check's message sits at the position given by the number of earlier failing checks |
| UseValidation.LengthWithinBounds | frontend/src/hooks/useValidation.js:16-25 | a value within both length bounds gets at most three messages |
| UseValidation.GetError | frontend/src/hooks/useValidation.js:84-86 | a message iff the field has one |
| UseValidation.ClearError | frontend/src/hooks/useValidation.js:69-74 | the field has no error afterwards; every other field is kept |
| UseValidation.ClearAllErrors | frontend/src/hooks/useValidation.js:76-78 | no field has an error |
| UseValidation.ValidateSingleField | frontend/src/hooks/useValidation.js:58-67 | true iff the value passes; the field then has an error iff it failed, namely its first message; other fields are kept |
| UseValidation.FormErrors | frontend/src/hooks/useValidation.js:41-56 | the error map has an entry for exactly the fields whose recorded first message is present, holding that message |
| UseValidation.ValidateForm | frontend/src/hooks/useValidation.js:41-56 | each ruled field has an error iff it fails, namely its first message; the form is valid iff no field fails |
| UseValidation.SingleFieldAgreesWithForm | frontend/src/hooks/useValidation.js:41-67 | checking one field alone and checking the whole form give that field the same verdict and message |

## Left out

- Logging, async scheduling, and the database and GitHub client construction (`core/database.py`, dependency providers): the model takes the collection and account as values.
- `validate_url` and `main.py` (application wiring, middleware, route order): outside the modelled core.
- The template service's implementation (placeholder syntax, template catalogue) is not part of this model. Its operations are oracle functions; the model states what the callers do with their outcomes.
- The health check's `uptime` (a float of wall-clock seconds) and the outer `except` ("Health check failed"): the modelled probes cannot raise, so that branch is unreachable in the model.
- StatusRouter.HealthEndpoint: the database ping is the parameter `databaseUp`, because it is I/O.
- Time: an abstract integer (microseconds). BSON's millisecond truncation and `timedelta` overflow for huge `days` are not modelled.
- MongoDB specifics: dotted `$set` paths, tie order of `$sort` and `distinct` (the model takes order of first appearance; the contracts hold for any order), the cursor batch size of a negative limit, and the `$max` of non-date values (the last check considers only dates).
- Decoding a stored document requires its string `id` and its `created_at`; other pydantic coercions are not modelled.
- ProjectService.DeleteProject: a truthy `github_repo` that is not a string fails with an error whose exact text is not modelled.
- A hosting outage is a constant status for the whole call: the model does not interleave failures between the calls of one operation.
- ProjectService.CreateProject: because an outage is constant, a repository the model has just created is always found again, so the model never reaches the source's "Failed to create files" failure after creation (github_service.py:106, 129-131), which a transient failure or a lookup lagging behind the creation would cause; the contract `|o.trace| != 5` holds only under that abstraction.
- UseValidation.ValidateField: lengths count characters, not UTF-16 code units. A length bound of 0 and an empty message or custom result are treated as absent, as JavaScript's falsiness does. Form values are strings or absent.
- ProjectModels.ValidateName, ProjectModels.ValidateLanguage, Validators.ValidateProjectName, GitHubService.CleanName, Settings.CorsOriginsList: `str.isalnum`, `str.lower`, `str.strip()` and the regex class `\s` are taken over ASCII only (the regex ranges `[a-zA-Z0-9]` are ASCII in the source too); Python's Unicode letters, digits and spaces are treated as other characters, so the model rejects `"Café"`, a name the source accepts.
- UseValidation.ValidateField: JavaScript's `trim` is likewise taken over ASCII whitespace only.
- Repository.Update: setting `_id` of a stored document is always refused, also when the new value equals the stored one, which the server would accept.
- UseValidation.ValidateForm: the order of `Object.keys` is taken to be the order of the rules.
- The routers' `Depends(...)` construction failures (for example a missing GitHub token) are not modelled.

## Findings

| source | as written | input that shows it | evidently intended | confidence | as-written member | corrected member |
|---|---|---|---|---|---|---|
| backend/app/repositories/base.py:32-40 | `create` stores the document under a fresh ObjectId but returns the model built from the document it was given, so the `id` is the model's uuid; `create_project` reports that id | any created project: its reported id has 36 characters, and `get_by_id` (base.py:42-51) rejects it as an ObjectId, so the project can never be fetched or deleted by that id | return the id the store generated, as every read does (`id = str(_id)`) | not executed | ProjectService.AsWrittenIdNotFound | Repository.CreatedIsFound |

=== FILE: dicts.dfy ===
/** Python's insertion-ordered `dict`: a sequence of key/value pairs whose
    keys are pairwise distinct. Iteration order (`items()`) is sequence order. */
module Dicts {
  import opened Wrappers

  ghost predicate DistinctKeys<K, V>(d: seq<(K, V)>) {
    forall i, j :: 0 <= i < j < |d| ==> d[i].0 != d[j].0
  }

  type Dict<K, V> = d: seq<(K, V)> | DistinctKeys(d) witness []

  /** The key set (`d.keys()` as a set). */
  function Keys<K, V>(d: seq<(K, V)>): (ks: set<K>)
    ensures forall i :: 0 <= i < |d| ==> d[i].0 in ks
    ensures forall k :: k in ks ==> exists i :: 0 <= i < |d| && d[i].0 == k
  {
    set i | 0 <= i < |d| :: d[i].0
  }

  /** `d.get(k)`: the value stored under `k`, if any. */
  function Get<K(==), V>(d: Dict<K, V>, k: K): (r: Option<V>)
    ensures r.None? <==> k !in Keys(d)
    ensures r.Some? ==> exists i :: 0 <= i < |d| && d[i] == (k, r.value)
  {
    if |d| == 0 then None
    else if d[0].0 == k then Some(d[0].1)
    else
      var r := Get(d[1..], k);
      assert forall i :: 0 <= i < |d| - 1 ==> d[1..][i] == d[i + 1];
      r
  }

  /** Looking up the key of an entry finds that entry's value. */
  lemma GetAt<K, V>(d: Dict<K, V>, i: nat)
    requires i < |d|
    ensures Get(d, d[i].0) == Some(d[i].1)
  {
    var r := Get(d, d[i].0);
    var j :| 0 <= j < |d| && d[j] == (d[i].0, r.value);
    assert i == j;
  }
}

=== FILE: documents.dfy ===
/** JSON-like values as stored in the document store, documents as field maps,
    and the small filter language the repositories use (`{"f": v}`,
    `{"f": {"$gte": t}}`, `{"f": {"$lt": t}}`). Times are abstract integer ticks. */
module Documents {

  datatype Value =
    | Null
    | Bool(b: bool)
    | Int(n: int)
    | Str(s: string)
    | Date(t: int)
    | Object(fields: map<string, Value>)

  /** A stored document without its `_id`; the store keeps `_id` beside it. */
  type Doc = map<string, Value>

  /** Python truthiness of a value (`if value:`). */
  predicate Truthy(v: Value) {
    match v
    case Null => false
    case Bool(b) => b
    case Int(n) => n != 0
    case Str(s) => s != ""
    case Date(_) => true
    case Object(m) => m != map[]
  }

  /** A field as the store's query engine sees it: missing reads as null. */
  function FieldOf(d: Doc, f: string): Value {
    if f in d then d[f] else Null
  }

  datatype Cond =
    | Eq(field: string, value: Value)
    | Gte(field: string, bound: int)
    | Lt(field: string, bound: int)

  /** A query filter: the conjunction of its conditions (`{}` is the empty filter). */
  type Filter = seq<Cond>

  /** Equality matches a missing field only when compared with null; range
      conditions on a date bound match only date values. */
  predicate Holds(d: Doc, c: Cond) {
    match c
    case Eq(f, v) => FieldOf(d, f) == v
    case Gte(f, b) => FieldOf(d, f).Date? && FieldOf(d, f).t >= b
    case Lt(f, b) => FieldOf(d, f).Date? && FieldOf(d, f).t < b
  }

  predicate Matches(d: Doc, f: Filter) {
    forall i :: 0 <= i < |f| ==> Holds(d, f[i])
  }
}

=== FILE: exceptions.dfy ===
/** The application's exception hierarchy with its fixed HTTP status codes,
    and the universe of exceptions that can be raised inside a request. */
module Exceptions {
  import opened Wrappers
  import opened Documents
  import opened Text

  /** The base exception and its five subclasses. */
  datatype Kind = Base | Validation | NotFound | GitHub | Template | Database

  datatype AppError = AppError(kind: Kind, message: string, details: map<string, Value>, statusCode: int)

  /** The status code each subclass passes to the base constructor. */
  function FixedStatus(kind: Kind): int
    requires kind != Base
  {
    match kind
    case Validation => 400
    case NotFound => 404
    case GitHub => 502
    case Template => 422
    case Database => 500
  }

  /** The base constructor: the message is kept, absent details become an
      empty map, and the status code defaults to 500. */
  function NewBaseError(message: string, details: Option<map<string, Value>> := None, statusCode: int := 500): (e: AppError)
    ensures e.kind == Base && e.message == message && e.statusCode == statusCode
    ensures e.details == (if details.Some? then details.value else map[])
  {
    AppError(Base, message, details.GetOr(map[]), statusCode)
  }

  /** A subclass constructor: the status code is fixed by the subclass. */
  function NewError(kind: Kind, message: string, details: Option<map<string, Value>> := None): (e: AppError)
    requires kind != Base
    ensures e.kind == kind && e.message == message
    ensures e.details == (if details.Some? then details.value else map[])
    ensures kind == Validation ==> e.statusCode == 400
    ensures kind == NotFound ==> e.statusCode == 404
    ensures kind == GitHub ==> e.statusCode == 502
    ensures kind == Template ==> e.statusCode == 422
    ensures kind == Database ==> e.statusCode == 500
  {
    var base := NewBaseError(message, details, FixedStatus(kind));
    base.(kind := kind)
  }

  /** The status code of an error identifies its subclass, except that the
      base default and the database error share 500. */
  lemma StatusIdentifiesKind(k1: Kind, k2: Kind, m1: string, m2: string)
    requires k1 != Base && k2 != Base
    requires NewError(k1, m1).statusCode == NewError(k2, m2).statusCode
    ensures k1 == k2
  {
  }

  /** Anything a request can raise. */
  datatype Exc =
    | App(error: AppError)                        // an application exception
    | GithubException(status: int, data: string)  // raised by the hosting-API client
    | HttpException(statusCode: int, detail: string)
    | Other(text: string)                         // any other exception (driver, ValueError, ...)

  /** `str(e)`; a hosting-API exception prints its status before its data. */
  function Message(e: Exc): string {
    match e
    case App(err) => err.message
    case GithubException(status, data) => IntToString(status) + " " + data
    case HttpException(_, detail) => detail
    case Other(text) => text
  }

  /** `isinstance(e, K)` for an application subclass `K`. */
  predicate IsA(e: Exc, kind: Kind) {
    e.App? && e.error.kind == kind
  }

  /** `raise K(message)`. */
  function Raise(kind: Kind, message: string): (e: Exc)
    requires kind != Base
    ensures IsA(e, kind) && Message(e) == message
  {
    App(NewError(kind, message))
  }
}

=== FILE: github_service.dfy ===
/** The gateway to the code-hosting service. The remote account is abstract
    state (`Hub`): its repositories, the names and files it refuses, an
    optional outage status that makes every call fail, and the log of the
    calls made to it. The gateway itself only records whether the lazily
    built authenticated user has loaded its login yet. */
module GitHubService {
  import opened Wrappers
  import opened Text
  import opened Dicts
  import opened Exceptions

  datatype Repo = Repo(
    name: string,
    fullName: string,
    htmlUrl: string,
    cloneUrl: string,
    sshUrl: string,
    description: string,
    private: bool,
    createdAt: int,
    updatedAt: int,
    files: map<string, string>)

  /** Calls reaching the remote account, in order. */
  datatype Call =
    | GetUser
    | GetRepo(repoName: string)
    | CreateRepo(repoName: string, description: string, private: bool)
    | CreateFile(repoName: string, path: string, message: string, content: string, branch: string)
    | DeleteRepo(repoName: string)

  datatype Hub = Hub(
    outage: Option<int>,                  // Some(status): every call raises with that status
    login: string,
    repos: map<string, Repo>,
    rejectedNames: set<string>,           // names the service refuses to create
    rejectedFiles: set<(string, string)>, // (repository, path) uploads the service refuses
    rejectedDeletes: set<string>,         // repositories the token may not delete
    log: seq<Call>)

  /** The gateway: the remote account, and whether the authenticated
      user's `login` has been fetched. */
  datatype Gateway = Gateway(hub: Hub, loginLoaded: bool)

  const NotFound := "Not Found"

  // ---------------------------------------------------------------------
  // Remote calls.
  // ---------------------------------------------------------------------

  function Outage(status: int): Exc { GithubException(status, "Service unavailable") }

  /** `get_repo(name)`: a missing repository raises with status 404. */
  function GetRepoCall(h: Hub, repoName: string): (r: (Hub, Result<Repo, Exc>))
    ensures r.0 == h.(log := h.log + [GetRepo(repoName)])
    ensures r.1.Ok? <==> h.outage.None? && repoName in h.repos
    ensures r.1.Ok? ==> r.1.value == h.repos[repoName]
    ensures r.1.Err? ==> r.1.error.GithubException?
    ensures r.1.Err? && h.outage.None? ==> r.1.error.status == 404
  {
    var h' := h.(log := h.log + [GetRepo(repoName)]);
    if h.outage.Some? then (h', Err(Outage(h.outage.value)))
    else if repoName !in h.repos then (h', Err(GithubException(404, NotFound)))
    else (h', Ok(h.repos[repoName]))
  }

  /** The exception a failed repository lookup raises: the outage status,
      or 404 for a missing repository. */
  function LookupFailure(h: Hub): Exc {
    if h.outage.Some? then Outage(h.outage.value) else GithubException(404, NotFound)
  }

  /** The `user` property hands out a lazy user object without any request,
      so it never fails. The account's `/user` is requested the first time
      the object's `login` is read, and its failure is the hosting exception
      of that request; once loaded, the login is not requested again. */
  function LoadLogin(g: Gateway): (r: (Gateway, Result<(), Exc>))
    ensures g.loginLoaded ==> r == (g, Ok(()))
    ensures !g.loginLoaded ==> r.0.hub == g.hub.(log := g.hub.log + [GetUser])
    ensures r.1.Ok? <==> g.loginLoaded || g.hub.outage.None?
    ensures r.0.loginLoaded <==> r.1.Ok?
    ensures r.1.Err? ==> g.hub.outage.Some? && r.1.error == Outage(g.hub.outage.value)
  {
    if g.loginLoaded then (g, Ok(()))
    else
      var h := g.hub.(log := g.hub.log + [GetUser]);
      if g.hub.outage.Some? then (Gateway(h, false), Err(Outage(g.hub.outage.value)))
      else (Gateway(h, true), Ok(()))
  }

  /** The login is fetched at most once: loading it again makes no call. */
  lemma LoginFetchedOnce(g: Gateway)
    requires LoadLogin(g).1.Ok?
    ensures LoadLogin(LoadLogin(g).0) == (LoadLogin(g).0, Ok(()))
    ensures |LoadLogin(g).0.hub.log| <= |g.hub.log| + 1
  {
  }

  /** `user.get_repo(name)`: the repository path needs the login, so the
      login is loaded first; then the repository is looked up. */
  function UserGetRepo(g: Gateway, repoName: string): (r: (Gateway, Result<Repo, Exc>))
    ensures r.0.hub == g.hub.(log := r.0.hub.log)
    ensures r.0.loginLoaded == LoadLogin(g).0.loginLoaded
    ensures r.0.hub.log == LoadLogin(g).0.hub.log + (if LoadLogin(g).1.Ok? then [GetRepo(repoName)] else [])
    ensures r.1.Ok? <==> g.hub.outage.None? && repoName in g.hub.repos
    ensures r.1.Ok? ==> r.1.value == g.hub.repos[repoName]
    ensures r.1.Err? ==> r.1.error == LookupFailure(g.hub)
  {
    var (g1, u) := LoadLogin(g);
    if u.Err? then (g1, Err(u.error))
    else
      var (h, found) := GetRepoCall(g1.hub, repoName);
      (g1.(hub := h), found)
  }

  // ---------------------------------------------------------------------
  // Repository names.
  // ---------------------------------------------------------------------

  /** The repository name derived from a project name. */
  function CleanName(name: string): (r: string)
    ensures |r| == |name|
    ensures forall i :: 0 <= i < |r| ==> r[i] != ' ' && r[i] != '_' && !IsUpper(r[i])
    ensures forall i :: 0 <= i < |r| ==> r[i] == (if name[i] == ' ' || name[i] == '_' then '-' else LowerChar(name[i]))
  {
    ReplaceChar(ReplaceChar(Lower(name), ' ', '-'), '_', '-')
  }

  /** Cleaning a clean name changes nothing. */
  lemma CleanNameIdempotent(name: string)
    ensures CleanName(CleanName(name)) == CleanName(name)
  {
  }

  /** Cleaning leaves letters, digits and hyphens in place, lower-cased. */
  lemma CleanNameKeepsValidCharacters(name: string, i: nat)
    requires i < |name| && (IsAlnum(name[i]) || name[i] == '-')
    ensures IsAlnum(CleanName(name)[i]) || CleanName(name)[i] == '-'
  {
  }

  // ---------------------------------------------------------------------
  // Operations.
  // ---------------------------------------------------------------------

  /** The five keys a created repository is reported with. */
  datatype RepositoryInfo = RepositoryInfo(name: string, fullName: string, htmlUrl: string, cloneUrl: string, sshUrl: string)

  function InfoOf(r: Repo): RepositoryInfo {
    RepositoryInfo(r.name, r.fullName, r.htmlUrl, r.cloneUrl, r.sshUrl)
  }

  /** The repository the service creates under a login. */
  function NewRepo(login: string, name: string, description: string, private: bool, now: int): (r: Repo)
    ensures r.name == name && r.files == map[]
    ensures r.htmlUrl == "https://github.com/" + login + "/" + name
  {
    Repo(name, login + "/" + name, "https://github.com/" + login + "/" + name,
         "https://github.com/" + login + "/" + name + ".git", "git@github.com:" + login + "/" + name + ".git",
         description, private, now, now, map[])
  }

  const UnexpectedCreate := "Unexpected error creating repository: "
  const FailedCreate := "Failed to create repository: "

  /** `create_repository`: the existence probe must not find the cleaned
      name (any hosting failure of the probe, the login request's included,
      counts as "not found"); then the repository is created, a request
      that needs no login. A found repository surfaces as an unexpected
      error, a hosting failure of the creation as a failed creation. */
  function CreateRepository(g: Gateway, name: string, description: string, private: bool, now: int): (r: (Gateway, Result<RepositoryInfo, Exc>))
    ensures r.1.Err? ==> IsA(r.1.error, GitHub)
    ensures r.1.Ok? <==> g.hub.outage.None? && CleanName(name) !in g.hub.repos && CleanName(name) !in g.hub.rejectedNames
    ensures r.1.Ok? ==> (var repoName := CleanName(name);
              && r.0.hub.repos == g.hub.repos[repoName := NewRepo(g.hub.login, repoName, description, private, now)]
              && r.1.value == InfoOf(NewRepo(g.hub.login, repoName, description, private, now)))
    ensures g.hub.outage.None? && CleanName(name) in g.hub.repos ==>
              r.1 == Err(Raise(GitHub, UnexpectedCreate + "Repository '" + CleanName(name) + "' already exists"))
              && r.0.hub.repos == g.hub.repos
              && forall i :: 0 <= i < |r.0.hub.log| ==> !r.0.hub.log[i].CreateRepo?
                                                        || (i < |g.hub.log| && r.0.hub.log[i] == g.hub.log[i])
    ensures g.hub.outage.Some? ==> r.1 == Err(Raise(GitHub, FailedCreate + Message(Outage(g.hub.outage.value))))
    ensures g.hub.outage.None? && CleanName(name) !in g.hub.repos && CleanName(name) in g.hub.rejectedNames ==>
              r.1 == Err(Raise(GitHub, FailedCreate + Message(GithubException(422, "Validation Failed"))))
    ensures r.1.Err? ==> r.0.hub.repos == g.hub.repos
  {
    var repoName := CleanName(name);
    var (g1, probe) := UserGetRepo(g, repoName);
    if probe.Ok? then
      (g1, Err(Raise(GitHub, UnexpectedCreate + "Repository '" + repoName + "' already exists")))
    else
      var h := g1.hub.(log := g1.hub.log + [CreateRepo(repoName, description, private)]);
      if h.outage.Some? then
        (g1.(hub := h), Err(Raise(GitHub, FailedCreate + Message(Outage(h.outage.value)))))
      else if repoName in h.rejectedNames then
        (g1.(hub := h), Err(Raise(GitHub, FailedCreate + Message(GithubException(422, "Validation Failed")))))
      else
        var repo := NewRepo(h.login, repoName, description, private, now);
        (g1.(hub := h.(repos := h.repos[repoName := repo])), Ok(InfoOf(repo)))
  }

  /** A successful creation makes exactly one creation call, for the
      cleaned name, after the probe for that name and, the first time, the
      login request. */
  lemma CreateRepositoryCalls(g: Gateway, name: string, description: string, private: bool, now: int)
    requires CreateRepository(g, name, description, private, now).1.Ok?
    ensures CreateRepository(g, name, description, private, now).0.hub.log ==
              g.hub.log + (if g.loginLoaded then [] else [GetUser])
              + [GetRepo(CleanName(name)), CreateRepo(CleanName(name), description, private)]
  {
  }

  /** The commit message of one uploaded file. */
  function CommitMessage(commitMessage: string, path: string): string {
    commitMessage + ": Add " + path
  }

  /** The upload calls for `files`, one per file, in map order. */
  function Uploads(repoName: string, files: seq<(string, string)>, commitMessage: string): (calls: seq<Call>)
    ensures |calls| == |files|
    ensures forall i :: 0 <= i < |files| ==>
              calls[i] == CreateFile(repoName, files[i].0, CommitMessage(commitMessage, files[i].0), files[i].1, "main")
  {
    if |files| == 0 then []
    else [CreateFile(repoName, files[0].0, CommitMessage(commitMessage, files[0].0), files[0].1, "main")]
         + Uploads(repoName, files[1..], commitMessage)
  }

  /** Whether the service accepts one upload into a repository. */
  predicate UploadAccepted(h: Hub, repoName: string, path: string) {
    repoName in h.repos && (repoName, path) !in h.rejectedFiles && path !in h.repos[repoName].files
  }

  /** `create_file`: a refused upload raises; an accepted one adds the file. */
  function CreateFileCall(h: Hub, repoName: string, path: string, message: string, content: string): (r: (Hub, bool))
    requires h.outage.None? && repoName in h.repos
    ensures r.0.log == h.log + [CreateFile(repoName, path, message, content, "main")]
    ensures r.1 <==> UploadAccepted(h, repoName, path)
    ensures r.0.outage == h.outage && r.0.login == h.login
    ensures r.0.rejectedNames == h.rejectedNames && r.0.rejectedFiles == h.rejectedFiles
    ensures r.0.repos.Keys == h.repos.Keys
    ensures forall n :: n in h.repos && n != repoName ==> r.0.repos[n] == h.repos[n]
    ensures r.0.repos[repoName] == (if r.1 then h.repos[repoName].(files := h.repos[repoName].files[path := content])
                                    else h.repos[repoName])
  {
    var h' := h.(log := h.log + [CreateFile(repoName, path, message, content, "main")]);
    if UploadAccepted(h, repoName, path) then
      var repo := h.repos[repoName];
      (h'.(repos := h.repos[repoName := repo.(files := repo.files[path := content])]), true)
    else (h', false)
  }

  const FailedFiles := "Failed to create files: "

  /** `h` is the account `h0` after the uploads of `files[..k]` into
      `repoName`: only the log and that repository's files changed, and
      the repository gained exactly the accepted paths. */
  ghost predicate UploadedUpTo(h: Hub, h0: Hub, repoName: string, files: Dict<string, string>, k: nat, commitMessage: string)
    requires k <= |files|
  {
    && h.outage.None? && h.login == h0.login && repoName in h0.repos
    && h.rejectedNames == h0.rejectedNames && h.rejectedFiles == h0.rejectedFiles
    && h.repos.Keys == h0.repos.Keys
    && (forall n :: n in h0.repos && n != repoName ==> h.repos[n] == h0.repos[n])
    && h.log == h0.log + Uploads(repoName, files[..k], commitMessage)
    && (forall p :: p in h.repos[repoName].files <==>
          p in h0.repos[repoName].files || exists i :: 0 <= i < k && files[i].0 == p && (repoName, p) !in h0.rejectedFiles)
    && (forall p :: p in h0.repos[repoName].files ==> h.repos[repoName].files[p] == h0.repos[repoName].files[p])
    && (forall i :: 0 <= i < k && UploadAccepted(h0, repoName, files[i].0) ==>
          h.repos[repoName].files[files[i].0] == files[i].1)
  }

  /** One more upload extends the uploaded prefix by one file. */
  lemma UploadStep(h: Hub, h0: Hub, repoName: string, files: Dict<string, string>, k: nat, commitMessage: string)
    requires k < |files| && UploadedUpTo(h, h0, repoName, files, k, commitMessage)
    ensures h.outage.None? && repoName in h.repos
    ensures UploadedUpTo(CreateFileCall(h, repoName, files[k].0, CommitMessage(commitMessage, files[k].0), files[k].1).0,
                         h0, repoName, files, k + 1, commitMessage)
  {
    var path, content := files[k].0, files[k].1;
    assert forall i :: 0 <= i < k ==> files[i].0 != path;
    var (h', accepted) := CreateFileCall(h, repoName, path, CommitMessage(commitMessage, path), content);
    assert files[..k + 1] == files[..k] + [files[k]];
    UploadsAppend(repoName, files[..k], files[k], commitMessage);
    assert accepted <==> UploadAccepted(h0, repoName, path);
  }

  /** `create_files`: after the repository is found, every file is uploaded
      once, in map order, on `main`; refused uploads are skipped and the
      result is true however many were refused. Only the lookup, with the
      login request it may make, can fail. */
  method CreateFiles(g: Gateway, repoName: string, files: Dict<string, string>, commitMessage: string := "Initial commit")
    returns (g': Gateway, r: Result<bool, Exc>)
    ensures r.Ok? <==> g.hub.outage.None? && repoName in g.hub.repos
    ensures r.Err? ==> r.error == Raise(GitHub, FailedFiles + Message(LookupFailure(g.hub))) && g'.hub.repos == g.hub.repos
    ensures r.Ok? ==> r.value
    ensures r.Ok? ==> g'.hub.log == LoadLogin(g).0.hub.log + [GetRepo(repoName)] + Uploads(repoName, files, commitMessage)
    ensures r.Ok? ==>
              && g'.hub.repos.Keys == g.hub.repos.Keys
              && (forall n :: n in g.hub.repos && n != repoName ==> g'.hub.repos[n] == g.hub.repos[n])
              && (forall p :: p in g'.hub.repos[repoName].files <==>
                    p in g.hub.repos[repoName].files || exists i :: 0 <= i < |files| && files[i].0 == p && (repoName, p) !in g.hub.rejectedFiles)
              && (forall p :: p in g.hub.repos[repoName].files ==> g'.hub.repos[repoName].files[p] == g.hub.repos[repoName].files[p])
              && (forall i :: 0 <= i < |files| && UploadAccepted(g.hub, repoName, files[i].0) ==>
                    g'.hub.repos[repoName].files[files[i].0] == files[i].1)
  {
    var g1, found := UserGetRepo(g, repoName).0, UserGetRepo(g, repoName).1;
    if found.Err? {
      return g1, Err(Raise(GitHub, FailedFiles + Message(found.error)));
    }
    var h0 := g1.hub;
    assert h0 == g.hub.(log := h0.log);
    var h := h0;
    var k := 0;
    assert files[..0] == [];
    while k < |files|
      invariant 0 <= k <= |files|
      invariant UploadedUpTo(h, h0, repoName, files, k, commitMessage)
    {
      UploadStep(h, h0, repoName, files, k, commitMessage);
      h := CreateFileCall(h, repoName, files[k].0, CommitMessage(commitMessage, files[k].0), files[k].1).0;
      k := k + 1;
    }
    assert files[..k] == files;
    return g1.(hub := h), Ok(true);
  }

  lemma {:induction false} UploadsAppend(repoName: string, files: seq<(string, string)>, f: (string, string), commitMessage: string)
    ensures Uploads(repoName, files + [f], commitMessage) == Uploads(repoName, files, commitMessage) + Uploads(repoName, [f], commitMessage)
  {
    if |files| > 0 {
      assert (files + [f])[1..] == files[1..] + [f];
      UploadsAppend(repoName, files[1..], f, commitMessage);
    } else {
      assert files + [f] == [f];
    }
  }

  /** The details `get_repository` reports. */
  datatype RepositoryDetails = RepositoryDetails(
    info: RepositoryInfo, description: string, private: bool, createdAt: int, updatedAt: int)

  /** `get_repository`: any hosting failure of the lookup, the login
      request's included, and a missing repository give None. */
  function GetRepository(g: Gateway, repoName: string): (r: (Gateway, Option<RepositoryDetails>))
    ensures r.1.Some? <==> g.hub.outage.None? && repoName in g.hub.repos
    ensures r.1.Some? ==>
              var repo := g.hub.repos[repoName];
              && r.1.value.info == InfoOf(repo) && r.1.value.description == repo.description
              && r.1.value.private == repo.private
              && r.1.value.createdAt == repo.createdAt && r.1.value.updatedAt == repo.updatedAt
    ensures r.0.hub == g.hub.(log := r.0.hub.log)
  {
    var (g1, found) := UserGetRepo(g, repoName);
    if found.Err? then (g1, None)
    else
      var repo := found.value;
      (g1, Some(RepositoryDetails(InfoOf(repo), repo.description, repo.private, repo.createdAt, repo.updatedAt)))
  }

  const FailedDelete := "Failed to delete repository: "

  /** The refusal of `repo.delete()` for a repository the token may not
      delete. */
  const RefusedDelete := GithubException(403, "Must have admin rights to Repository.")

  /** `delete_repository`: looks the repository up and deletes it; a
      hosting failure of the lookup, the login request's included, or a
      refused deletion becomes a hosting error. */
  function DeleteRepository(g: Gateway, repoName: string): (r: (Gateway, Result<bool, Exc>))
    ensures r.1.Ok? <==> g.hub.outage.None? && repoName in g.hub.repos && repoName !in g.hub.rejectedDeletes
    ensures r.1.Ok? ==> r.1.value && r.0.hub.repos == g.hub.repos - {repoName}
    ensures r.1.Err? ==>
              r.1.error == Raise(GitHub, FailedDelete + Message(if g.hub.outage.None? && repoName in g.hub.repos
                                                                then RefusedDelete else LookupFailure(g.hub)))
    ensures r.1.Err? ==> r.0.hub.repos == g.hub.repos
    // the deletion is requested iff the lookup found the repository
    ensures r.0.hub.log == g.hub.log + (if g.loginLoaded then [] else [GetUser])
              + (if g.loginLoaded || g.hub.outage.None? then [GetRepo(repoName)] else [])
              + (if g.hub.outage.None? && repoName in g.hub.repos then [DeleteRepo(repoName)] else [])
  {
    var (g1, found) := UserGetRepo(g, repoName);
    if found.Err? then (g1, Err(Raise(GitHub, FailedDelete + Message(found.error))))
    else
      var h := g1.hub.(log := g1.hub.log + [DeleteRepo(repoName)]);
      if repoName in h.rejectedDeletes then (g1.(hub := h), Err(Raise(GitHub, FailedDelete + Message(RefusedDelete))))
      else (g1.(hub := h.(repos := h.repos - {repoName})), Ok(true))
  }

  /** `test_connection`: probes a repository called `test`. The probe finds
      it, or fails with status 404, iff the service is up or its outage
      answers 404; only the call log changes. */
  function TestConnection(g: Gateway): (r: (Gateway, bool))
    ensures r.1 <==> g.hub.outage.None? || g.hub.outage == Some(404)
    ensures r.0.hub == g.hub.(log := r.0.hub.log)
    ensures r.0.hub.log == g.hub.log + (if g.loginLoaded then [] else [GetUser])
                           + (if g.loginLoaded || g.hub.outage.None? then [GetRepo("test")] else [])
  {
    var (g1, probe) := UserGetRepo(g, "test");
    if probe.Ok? then (g1, true)
    else (g1, probe.error.status == 404)
  }
}

=== FILE: http.dfy ===
/** HTTP replies and the handlers' exception-to-status mapping. */
module Http {
  import opened Exceptions

  /** A handler's reply: a body with its status, an error status with a
      detail message, or the framework's rejection of a request whose
      parameters or body break their declared constraints (the fields
      named), before the handler runs. */
  datatype Reply<T> = Reply(status: int, body: T) | Failure(status: int, detail: string) | Invalid(fields: seq<string>) {

    /** The HTTP status code sent. */
    function Code(): int {
      match this
      case Reply(status, _) => status
      case Failure(status, _) => status
      case Invalid(_) => Unprocessable
    }
  }

  const InternalServerError := "Internal server error"

  const Unprocessable := 422

  /** The `except` chain shared by the handlers: an application validation
      error gives 400 with its message when the handler catches it, a
      database error gives 500 with its message when the handler catches it,
      and anything else (an `HTTPException` raised inside the `try`
      included) gives 500 with a generic detail. */
  function Fail<T>(e: Exc, catchesValidation: bool, catchesDatabase: bool): (r: Reply<T>)
    ensures r.Failure?
    ensures catchesValidation && IsA(e, Validation) ==> r == Failure(400, Message(e))
    ensures catchesDatabase && IsA(e, Database) ==> r == Failure(500, Message(e))
    ensures !(catchesValidation && IsA(e, Validation)) && !(catchesDatabase && IsA(e, Database)) ==>
              r == Failure(500, InternalServerError)
    ensures r.status == 400 <==> catchesValidation && IsA(e, Validation)
  {
    if catchesValidation && IsA(e, Validation) then Failure(400, Message(e))
    else if catchesDatabase && IsA(e, Database) then Failure(500, Message(e))
    else Failure(500, InternalServerError)
  }

  /** A 404 raised inside a handler's `try` never reaches the client as a
      404: the handler's generic `except` turns it into a 500. */
  lemma NotFoundInsideTryIs500<T>(catchesValidation: bool, catchesDatabase: bool, detail: string)
    ensures Fail<T>(HttpException(404, detail), catchesValidation, catchesDatabase) == Failure(500, InternalServerError)
  {
  }
}

=== FILE: project_models.dfy ===
/** The project request schema with its field validators, and the persisted
    project document (common document fields plus project fields), with its
    conversion to and from a stored document. */
module ProjectModels {
  import opened Wrappers
  import opened Text
  import opened Documents

  // ---------------------------------------------------------------------
  // Request validation.
  // ---------------------------------------------------------------------

  const NameFormatMessage := "Project name must contain only alphanumeric characters, hyphens, and underscores"

  const SupportedLanguages: seq<string> := ["java", "dotnet", "python", "javascript", "typescript"]

  predicate NameChar(c: char) { IsAlnum(c) || c == '-' || c == '_' }

  /** The `name` validator: hyphens and underscores are removed and what is
      left must be non-empty and alphanumeric; the accepted name is returned
      lower-cased with spaces turned into hyphens. */
  function ValidateName(v: string): (r: Result<string, string>)
    ensures r.Err? ==> r.error == NameFormatMessage
  {
    if !IsAlnumString(DeleteChar(DeleteChar(v, '-'), '_')) then Err(NameFormatMessage)
    else Ok(ReplaceChar(Lower(v), ' ', '-'))
  }

  /** A name is accepted iff it is made of letters, digits, hyphens and
      underscores and contains at least one letter or digit. */
  lemma NameAccepted(v: string)
    ensures ValidateName(v).Ok? <==>
              (forall i :: 0 <= i < |v| ==> NameChar(v[i])) && (exists i :: 0 <= i < |v| && IsAlnum(v[i]))
  {
    var stripped := DeleteChar(DeleteChar(v, '-'), '_');
    if IsAlnumString(stripped) {
      forall i | 0 <= i < |v|
        ensures NameChar(v[i])
      {
        if v[i] != '-' && v[i] != '_' {
          assert v[i] in v;
          assert v[i] in stripped;
        }
      }
      assert stripped[0] in stripped;
    }
    if (forall i :: 0 <= i < |v| ==> NameChar(v[i])) && (exists i :: 0 <= i < |v| && IsAlnum(v[i])) {
      var k :| 0 <= k < |v| && IsAlnum(v[k]);
      assert v[k] in v;
      assert v[k] in stripped;
      forall i | 0 <= i < |stripped|
        ensures IsAlnum(stripped[i])
      {
        assert stripped[i] in stripped;
        assert stripped[i] in v;
      }
    }
  }

  /** Names with a space are rejected, so the space-to-hyphen replacement
      never fires: an accepted name comes back exactly lower-cased. */
  lemma AcceptedNameIsLowered(v: string)
    requires ValidateName(v).Ok?
    ensures ' ' !in v
    ensures ValidateName(v).value == Lower(v)
    ensures |ValidateName(v).value| == |v|
  {
    NameAccepted(v);
    assert forall i :: 0 <= i < |v| ==> v[i] != ' ';
    assert ReplaceChar(Lower(v), ' ', '-') == Lower(v);
  }

  /** Validating an accepted name again returns it unchanged. */
  lemma ValidateNameIdempotent(v: string)
    requires ValidateName(v).Ok?
    ensures ValidateName(ValidateName(v).value) == ValidateName(v)
  {
    AcceptedNameIsLowered(v);
    NameAccepted(v);
    var w := Lower(v);
    var k :| 0 <= k < |v| && IsAlnum(v[k]);
    assert IsAlnum(w[k]);
    assert forall i :: 0 <= i < |w| ==> NameChar(w[i]);
    NameAccepted(w);
    AcceptedNameIsLowered(w);
    LowerIdempotent(v);
  }

  /** The `language` validator. */
  function ValidateLanguage(v: string): (r: Result<string, string>)
    ensures r.Ok? <==> Lower(v) in SupportedLanguages
    ensures r.Ok? ==> r.value == Lower(v) && r.value in SupportedLanguages
  {
    if Lower(v) !in SupportedLanguages then Err("Language must be one of: java, dotnet, python, javascript, typescript")
    else Ok(Lower(v))
  }

  /** Validating an accepted language again returns it unchanged. */
  lemma ValidateLanguageIdempotent(v: string)
    requires ValidateLanguage(v).Ok?
    ensures ValidateLanguage(ValidateLanguage(v).value) == ValidateLanguage(v)
  {
    LowerIdempotent(v);
  }

  /** The request as received, before validation. */
  datatype RawRequest = RawRequest(name: string, description: string, language: string, templateId: string, githubUsername: string)

  /** A validated request. */
  datatype ProjectRequest = ProjectRequest(name: string, description: string, language: string, templateId: string, githubUsername: string)

  const MaxNameLength := 100
  const MaxDescriptionLength := 500

  /** Schema validation: the length bounds of a field are checked first and
      its validator only runs on a value within them; every failing field is
      reported, in declaration order. */
  function ParseProjectRequest(raw: RawRequest): (r: Result<ProjectRequest, seq<string>>)
    ensures r.Ok? <==>
              && 1 <= |raw.name| <= MaxNameLength && ValidateName(raw.name).Ok?
              && 1 <= |raw.description| <= MaxDescriptionLength
              && Lower(raw.language) in SupportedLanguages
    ensures r.Ok? ==>
              && r.value.name == Lower(raw.name) && 1 <= |r.value.name| <= MaxNameLength
              && r.value.description == raw.description
              && r.value.language == Lower(raw.language) && r.value.language in SupportedLanguages
              && r.value.templateId == raw.templateId && r.value.githubUsername == raw.githubUsername
    ensures r.Err? ==>
              && ("name" in r.error <==> !(1 <= |raw.name| <= MaxNameLength && ValidateName(raw.name).Ok?))
              && ("description" in r.error <==> !(1 <= |raw.description| <= MaxDescriptionLength))
              && ("language" in r.error <==> Lower(raw.language) !in SupportedLanguages)
  {
    var name := if 1 <= |raw.name| <= MaxNameLength then ValidateName(raw.name) else Err("length");
    var description: Result<string, string> :=
      if 1 <= |raw.description| <= MaxDescriptionLength then Ok(raw.description) else Err("length");
    var language := ValidateLanguage(raw.language);
    if name.Ok? && description.Ok? && language.Ok? then
      AcceptedNameIsLowered(raw.name);
      Ok(ProjectRequest(name.value, description.value, language.value, raw.templateId, raw.githubUsername))
    else
      Err(FailedFields(name.Ok?, description.Ok?, language.Ok?))
  }

  /** The names of the failing fields, in declaration order. */
  function FailedFields(nameOk: bool, descriptionOk: bool, languageOk: bool): (fields: seq<string>)
    ensures "name" in fields <==> !nameOk
    ensures "description" in fields <==> !descriptionOk
    ensures "language" in fields <==> !languageOk
  {
    (if nameOk then [] else ["name"])
    + (if descriptionOk then [] else ["description"])
    + (if languageOk then [] else ["language"])
  }

  /** A request name with a space never gets through, whatever its length. */
  lemma SpacedNameRejected(raw: RawRequest)
    requires ' ' in raw.name
    ensures ParseProjectRequest(raw).Err?
  {
    if ValidateName(raw.name).Ok? {
      AcceptedNameIsLowered(raw.name);
    }
  }

  // ---------------------------------------------------------------------
  // The persisted project.
  // ---------------------------------------------------------------------

  datatype Project = Project(
    id: string,
    createdAt: int,
    updatedAt: Option<int>,
    name: string,
    description: string,
    language: string,
    templateId: string,
    githubUsername: string,
    repositoryUrl: string,
    status: string,
    metadata: Option<map<string, Value>>)

  const DefaultStatus := "created"

  /** Constructing a project; `id` and `createdAt` are the generated uuid and
      creation time. Omitted fields take the model's defaults. */
  function NewProject(
    id: string, createdAt: int, name: string, description: string, language: string,
    templateId: string, githubUsername: string, repositoryUrl: string,
    status: string := DefaultStatus, metadata: Option<map<string, Value>> := Some(map[])): (p: Project)
    ensures p.id == id && p.createdAt == createdAt && p.updatedAt == None
    ensures p.name == name && p.description == description && p.language == language
    ensures p.templateId == templateId && p.githubUsername == githubUsername
    ensures p.repositoryUrl == repositoryUrl && p.status == status && p.metadata == metadata
  {
    Project(id, createdAt, None, name, description, language, templateId, githubUsername, repositoryUrl, status, metadata)
  }

  /** A new project is `created`, with an empty metadata map and no update time. */
  lemma NewProjectDefaults(id: string, createdAt: int, name: string, description: string, language: string,
                           templateId: string, githubUsername: string, repositoryUrl: string)
    ensures NewProject(id, createdAt, name, description, language, templateId, githubUsername, repositoryUrl).status == "created"
    ensures NewProject(id, createdAt, name, description, language, templateId, githubUsername, repositoryUrl).metadata == Some(map[])
    ensures NewProject(id, createdAt, name, description, language, templateId, githubUsername, repositoryUrl).updatedAt == None
  {
  }

  function OptionalTime(t: Option<int>): Value {
    if t.Some? then Date(t.value) else Null
  }

  function OptionalObject(m: Option<map<string, Value>>): Value {
    if m.Some? then Object(m.value) else Null
  }

  /** `project.dict()`: the document written to the store. */
  function ProjectToDoc(p: Project): Doc {
    map[
      "id" := Str(p.id),
      "created_at" := Date(p.createdAt),
      "updated_at" := OptionalTime(p.updatedAt),
      "name" := Str(p.name),
      "description" := Str(p.description),
      "language" := Str(p.language),
      "template_id" := Str(p.templateId),
      "github_username" := Str(p.githubUsername),
      "repository_url" := Str(p.repositoryUrl),
      "status" := Str(p.status),
      "metadata" := OptionalObject(p.metadata)]
  }

  predicate StrField(d: Doc, f: string) { f in d && d[f].Str? }

  /** `Project(**document)`: required string fields must be present as
      strings; `status`, `metadata` and `updated_at` fall back to their
      defaults when absent. Extra fields (such as `_id`) are ignored. */
  function ProjectFromDoc(d: Doc): (r: Option<Project>)
    ensures r.Some? ==> StrField(d, "id") && r.value.id == d["id"].s
    ensures r.Some? ==> StrField(d, "name") && r.value.name == d["name"].s
    ensures r.Some? ==> StrField(d, "language") && r.value.language == d["language"].s
  {
    if !(&& StrField(d, "id") && "created_at" in d && d["created_at"].Date?
         && StrField(d, "name") && StrField(d, "description") && StrField(d, "language")
         && StrField(d, "template_id") && StrField(d, "github_username") && StrField(d, "repository_url"))
    then None
    else if "status" in d && !d["status"].Str? then None
    else if "updated_at" in d && !(d["updated_at"].Date? || d["updated_at"].Null?) then None
    else if "metadata" in d && !(d["metadata"].Object? || d["metadata"].Null?) then None
    else
      var updated := if "updated_at" in d && d["updated_at"].Date? then Some(d["updated_at"].t) else None;
      var status := if "status" in d then d["status"].s else DefaultStatus;
      var metadata :=
        if "metadata" !in d then Some(map[])
        else if d["metadata"].Object? then Some(d["metadata"].fields)
        else None;
      Some(Project(d["id"].s, d["created_at"].t, updated, d["name"].s, d["description"].s, d["language"].s,
                   d["template_id"].s, d["github_username"].s, d["repository_url"].s, status, metadata))
  }

  /** Reading back a written project gives the same project. */
  lemma ProjectDocRoundTrip(p: Project)
    ensures ProjectFromDoc(ProjectToDoc(p)) == Some(p)
  {
  }

  /** Reading back a written project whose `id` the store overwrote gives the
      same project under the new id. */
  lemma ProjectDocRoundTripWithId(p: Project, id: string)
    ensures ProjectFromDoc(ProjectToDoc(p)["id" := Str(id)]) == Some(p.(id := id))
  {
  }
}

=== FILE: project_repository.dfy ===
/** The project repository: the generic repository over the `projects`
    collection with `Project` as its model, plus project-specific queries. */
module ProjectRepository {
  import opened Wrappers
  import opened Documents
  import opened Exceptions
  import opened ProjectModels
  import opened Repository
  import Text

  /** `get_by_name`. */
  function GetByName(c: Collection, name: string): (r: Result<Option<Project>, Exc>)
    ensures r.Ok? && r.value.Some? ==> r.value.value.name == name
    ensures c.online ==> (r == Ok(None) <==> Select(c.entries, [Eq("name", Str(name))]) == [])
    ensures r == GetByField(c, "name", Str(name), ProjectFromDoc)
    ensures r.Err? ==> IsA(r.error, Database)
  {
    var r := GetByField(c, "name", Str(name), ProjectFromDoc);
    if r.Ok? && r.value.Some? then
      var sel := Select(c.entries, [Eq("name", Str(name))]);
      assert ReadDoc(sel[0])["name"] == Str(name);
      r
    else r
  }

  /** The projects read from a window of `Select(entries, [Eq(field, v)])`
      all have `v` in that field. */
  lemma ReadMatchesField(e: Entry, field: string, v: string, p: Project)
    requires field != "id" && Matches(e.doc, [Eq(field, Str(v))])
    requires ProjectFromDoc(ReadDoc(e)) == Some(p)
    ensures field == "language" ==> p.language == v
    ensures field == "name" ==> p.name == v
    ensures field in ReadDoc(e) && ReadDoc(e)[field] == Str(v)
  {
    assert Holds(e.doc, [Eq(field, Str(v))][0]);
  }

  /** `get_by_language`: the first 100 projects (the default page) in
      that language. */
  function GetByLanguage(c: Collection, language: string): (r: Result<seq<Project>, Exc>)
    ensures r.Ok? ==> |r.value| <= 100
    ensures r.Ok? ==> forall i :: 0 <= i < |r.value| ==> r.value[i].language == language
    ensures r.Ok? ==> |r.value| == (var n := |Select(c.entries, [Eq("language", Str(language))])|; if n < 100 then n else 100)
    ensures !c.online ==> r == Err(DbError("Failed to get documents: ", ConnectionFailure))
    ensures c.online && AllDecode(Select(c.entries, [Eq("language", Str(language))]), ProjectFromDoc) ==> r.Ok?
    ensures r.Err? ==> IsA(r.error, Database)
  {
    var f := [Eq("language", Str(language))];
    FirstPage(Select(c.entries, f), DefaultLimit, ProjectFromDoc);
    var r := GetAll(c, 0, DefaultLimit, f, ProjectFromDoc);
    if r.Ok? then
      var sel := Select(c.entries, f);
      forall i | 0 <= i < |r.value|
        ensures r.value[i].language == language
      {
        ReadMatchesField(sel[i], "language", language, r.value[i]);
      }
      r
    else r
  }

  /** `get_by_github_username`: the first 100 projects of that user, in
      natural order. */
  function GetByGithubUsername(c: Collection, username: string): (r: Result<seq<Project>, Exc>)
    ensures r.Ok? ==> |r.value| == (var n := |Select(c.entries, [Eq("github_username", Str(username))])|; if n < 100 then n else 100)
    ensures r.Ok? ==> forall i :: 0 <= i < |r.value| ==>
              var sel := Select(c.entries, [Eq("github_username", Str(username))]);
              i < |sel| && FieldOf(sel[i].doc, "github_username") == Str(username)
              && ProjectFromDoc(ReadDoc(sel[i])) == Some(r.value[i])
    ensures !c.online ==> r == Err(DbError("Failed to get documents: ", ConnectionFailure))
    ensures c.online && AllDecode(Select(c.entries, [Eq("github_username", Str(username))]), ProjectFromDoc) ==> r.Ok?
    ensures r.Err? ==> IsA(r.error, Database)
  {
    var f := [Eq("github_username", Str(username))];
    FirstPage(Select(c.entries, f), DefaultLimit, ProjectFromDoc);
    var r := GetAll(c, 0, DefaultLimit, f, ProjectFromDoc);
    if r.Ok? then
      var sel := Select(c.entries, f);
      assert forall i :: 0 <= i < |r.value| ==> Holds(sel[i].doc, f[0]);
      r
    else r
  }

  /** A project read from a document whose `github_username` is a string
      carries that user name. */
  lemma UsernameRead(d: Doc, username: string, p: Project)
    requires FieldOf(d, "github_username") == Str(username)
    requires ProjectFromDoc(d["id" := Str(p.id)]) == Some(p)
    ensures p.githubUsername == username
  {
  }

  /** `get_recent_projects`: the first `limit` projects in natural order
      (all of them for a limit of 0, `|limit|` for a negative one); no
      ordering by creation time is applied. */
  function GetRecentProjects(c: Collection, limit: int := 10): (r: Result<seq<Project>, Exc>)
    ensures r.Ok? ==> |r.value| == if limit == 0 || |c.entries| <= Abs(limit) then |c.entries| else Abs(limit)
    ensures r.Ok? ==> forall i :: 0 <= i < |r.value| ==>
              i < |c.entries| && ProjectFromDoc(ReadDoc(c.entries[i])) == Some(r.value[i])
    ensures !c.online ==> r == Err(DbError("Failed to get documents: ", ConnectionFailure))
    ensures c.online && AllDecode(c.entries, ProjectFromDoc) ==> r.Ok?
    ensures r.Err? ==> IsA(r.error, Database)
  {
    SelectAll(c.entries);
    GetAll(c, 0, limit, [], ProjectFromDoc)
  }

  /** `update_status`. */
  function UpdateStatus(c: Collection, id: string, status: string, now: int): (r: (Collection, Result<Option<Project>, Exc>))
    ensures r.1.Err? ==> IsA(r.1.error, Database)
    ensures r.1 == Ok(None) ==> r.0 == c
    // the project returned is the updated record, re-read by its id
    ensures r.1.Ok? && r.1.value.Some? ==> r.0 != c && r.1 == GetById(r.0, id, ProjectFromDoc)
    // a valid id on a reachable store always runs the `$set`; nothing is
    // returned exactly when it modified nothing
    ensures c.online && ParseObjectId(id).Some? ==>
              r.0.entries == ApplySet(c.entries, Text.Lower(id), UpdateFields(map["status" := Str(status)], now))
    ensures r.1 == Ok(None) <==> c.online && ParseObjectId(id).Some? && r.0 == c
    ensures !c.online || ParseObjectId(id).None? ==> r.0 == c && r.1.Err?
    // a modified record is returned as re-read by its id
    ensures r.0 != c ==> r.1 == Reread(r.0, id, ProjectFromDoc)
  {
    var data := map["status" := Str(status)];
    assert "_id" !in UpdateFields(data, now) by {
      assert "_id" !in data;
    }
    Update(c, id, data, now, ProjectFromDoc)
  }

  /** `d'` differs from `d` at most in `status`, now `status`, and
      `updated_at`, now `now`. */
  predicate OnlyStatusChanged(d': Doc, d: Doc, status: string, now: int) {
    && "status" in d' && d'["status"] == Str(status)
    && "updated_at" in d' && d'["updated_at"] == Date(now)
    && forall k :: k in d && k != "status" && k != "updated_at" ==> k in d' && d'[k] == d[k]
  }

  lemma StatusUpdateDoc(d': Doc, d: Doc, status: string, now: int)
    requires UpdatedFrom(d', d, map["status" := Str(status)], now)
    ensures OnlyStatusChanged(d', d, status, now)
  {
    var data := map["status" := Str(status)];
    assert "status" in data && data["status"] != Null;
  }

  /** A status update of a stored project on a reachable store changes only
      `status` and `updated_at` of that project's document, and no other
      document. */
  lemma UpdateStatusChangesOnlyStatus(c: Collection, id: string, status: string, now: int)
    requires c.online && ParseObjectId(id).Some?
    requires exists i :: 0 <= i < |c.entries| && c.entries[i].oid == Text.Lower(id)
    ensures var c' := UpdateStatus(c, id, status, now).0;
            && |c'.entries| == |c.entries|
            && exists i :: 0 <= i < |c.entries| && c.entries[i].oid == c'.entries[i].oid
                           && OnlyStatusChanged(c'.entries[i].doc, c.entries[i].doc, status, now)
                           && (forall j :: 0 <= j < |c.entries| && j != i ==> c'.entries[j] == c.entries[j])
  {
    var data := map["status" := Str(status)];
    var c' := UpdateStatus(c, id, status, now).0;
    assert c' == Update(c, id, data, now, ProjectFromDoc).0;
    assert "_id" !in UpdateFields(data, now);
    UpdateEffect(c, id, data, now, ProjectFromDoc);
    var i :| 0 <= i < |c.entries| && c.entries[i].oid == Text.Lower(id) && c'.entries[i].oid == Text.Lower(id)
             && UpdatedFrom(c'.entries[i].doc, c.entries[i].doc, data, now)
             && (forall j :: 0 <= j < |c.entries| && j != i ==> c'.entries[j] == c.entries[j]);
    StatusUpdateDoc(c'.entries[i].doc, c.entries[i].doc, status, now);
  }

  datatype ProjectStats = ProjectStats(totalProjects: nat, languages: nat, languageBreakdown: seq<(Value, nat)>)

  /** The documents' `language` values. */
  function LanguagesIn(es: seq<Entry>): set<Value> {
    set i | 0 <= i < |es| && "language" in es[i].doc :: es[i].doc["language"]
  }

  /** One count per language, in the given order. */
  function Breakdown(es: seq<Entry>, langs: seq<Value>): (b: seq<(Value, nat)>)
    ensures |b| == |langs|
    ensures forall i :: 0 <= i < |b| ==> b[i].0 == langs[i] && b[i].1 == |Select(es, [Eq("language", langs[i])])|
  {
    if |langs| == 0 then [] else [(langs[0], |Select(es, [Eq("language", langs[0])])|)] + Breakdown(es, langs[1..])
  }

  /** A sequence without repetitions has as many elements as its set. */
  lemma {:induction false} DistinctCardinality<T>(s: seq<T>)
    requires forall i, j :: 0 <= i < j < |s| ==> s[i] != s[j]
    ensures |set x | x in s| == |s|
  {
    if |s| > 0 {
      var rest := s[1..];
      DistinctCardinality(rest);
      assert (set x | x in s) == {s[0]} + (set x | x in rest);
      assert forall j :: 0 <= j < |rest| ==> rest[j] == s[j + 1] && rest[j] != s[0];
      assert s[0] !in (set x | x in rest);
    }
  }

  /** The statistics of a collection's documents. */
  function StatsOf(es: seq<Entry>): (s: ProjectStats)
    ensures s.totalProjects == |es|
    ensures s.languages == |LanguagesIn(es)| == |s.languageBreakdown|
    ensures forall i, j :: 0 <= i < j < |s.languageBreakdown| ==> s.languageBreakdown[i].0 != s.languageBreakdown[j].0
    ensures forall v :: v in LanguagesIn(es) <==> exists i :: 0 <= i < |s.languageBreakdown| && s.languageBreakdown[i].0 == v
    ensures forall i :: 0 <= i < |s.languageBreakdown| ==>
              s.languageBreakdown[i].1 == |Select(es, [Eq("language", s.languageBreakdown[i].0)])|
  {
    var ls := DistinctValues(es, "language");
    DistinctCardinality(ls);
    assert (set x | x in ls) == LanguagesIn(es);
    ProjectStats(|es|, |ls|, Breakdown(es, ls))
  }

  /** `get_project_stats`: the unfiltered count, the number of distinct
      languages, and each language's count as `count` reports it. */
  function GetProjectStats(c: Collection): (r: Result<ProjectStats, Exc>)
    ensures !c.online ==> r == Err(DbError("Failed to count documents: ", ConnectionFailure))
    ensures c.online ==> r == Ok(StatsOf(c.entries))
    ensures r.Ok? ==> Count(c, []) == Ok(r.value.totalProjects)
    ensures r.Ok? ==> forall i :: 0 <= i < |r.value.languageBreakdown| ==>
              Count(c, [Eq("language", r.value.languageBreakdown[i].0)]) == Ok(r.value.languageBreakdown[i].1)
  {
    var total := Count(c, []);
    if total.Err? then Err(total.error)
    else
      match Distinct(c, "language")
      case Err(e) => Err(e)
      case Ok(_) =>
        SelectAll(c.entries);
        Ok(StatsOf(c.entries))
  }
}

=== FILE: project_service.dfy ===
/** The project service: the create-project pipeline (template, hosting
    repository, files, stored record) and the service-level wrappers of
    the project repository, with their error translation. */
module ProjectService {
  import opened Wrappers
  import opened Dicts
  import opened Documents
  import opened Exceptions
  import opened ProjectModels
  import opened Repository
  import opened ProjectRepository
  import opened Templates
  import opened GitHubService
  import Text

  // ---------------------------------------------------------------------
  // create_project
  // ---------------------------------------------------------------------

  /** The pipeline's steps, in the order they are attempted. */
  datatype Step = LookupTemplate | ValidateVariables | ProcessTemplate | CreateHostedRepository | UploadFiles | SaveProject

  const Pipeline: seq<Step> := [LookupTemplate, ValidateVariables, ProcessTemplate, CreateHostedRepository, UploadFiles, SaveProject]

  datatype ProjectResponse = ProjectResponse(success: bool, message: string, repositoryUrl: Option<string>, projectId: Option<string>)

  /** The state after `create_project`, the steps attempted (the last one
      is the one that failed, if any), and the outcome. */
  datatype Creation = Creation(store: Collection, gateway: Gateway, trace: seq<Step>, result: Result<ProjectResponse, Exc>)

  /** The `except` chain of `create_project`: validation, hosting and
      database errors propagate unchanged; anything else becomes a
      validation error. */
  function Classify(e: Exc): (r: Exc)
    ensures IsA(e, Validation) || IsA(e, GitHub) || IsA(e, Database) ==> r == e
    ensures !(IsA(e, Validation) || IsA(e, GitHub) || IsA(e, Database)) ==>
              r == Raise(Validation, "Failed to create project: " + Message(e))
    ensures IsA(r, Validation) || IsA(r, GitHub) || IsA(r, Database)
  {
    if IsA(e, Validation) || IsA(e, GitHub) || IsA(e, Database) then e
    else Raise(Validation, "Failed to create project: " + Message(e))
  }

  /** The metadata recorded on a created project. */
  function CreationMetadata(templateId: string, fileCount: nat, repoName: string): map<string, Value> {
    map["template_used" := Str(templateId), "files_created" := Int(fileCount), "github_repo" := Str(repoName)]
  }

  /** The record saved for a created project. */
  function CreatedProject(request: ProjectRequest, projectId: string, now: int, t: Template,
                          files: Dict<string, string>, info: RepositoryInfo): (p: Project)
    ensures p.id == projectId && p.status == "created" && p.repositoryUrl == info.htmlUrl
    ensures p.name == request.name && p.language == request.language && p.templateId == request.templateId
    ensures p.metadata == Some(CreationMetadata(t.id, |files|, info.name))
  {
    NewProject(projectId, now, request.name, request.description, request.language, request.templateId,
               request.githubUsername, info.htmlUrl, "created", Some(CreationMetadata(t.id, |files|, info.name)))
  }

  function CreatedMessage(name: string): string {
    "Project '" + name + "' created successfully!"
  }

  /** The conditions under which `create_project` succeeds: the template is
      found, the project's variables pass its validation and render, the
      hosting service creates the repository, and the store, online, takes
      a record under the fresh key `oid`. */
  predicate CreationSucceeds(ts: TemplateService, store: Collection, g: Gateway, request: ProjectRequest, oid: string, now: int) {
    var t := ts.getTemplate(request.language, request.templateId);
    var vars := ProjectVariables(request.name, request.description);
    && t.Ok? && ts.validateTemplateVariables(t.value, vars).Ok? && ts.processTemplate(t.value, vars).Ok?
    && CreateRepository(g, request.name, request.description, false, now).1.Ok?
    && store.online && forall i :: 0 <= i < |store.entries| ==> store.entries[i].oid != oid
  }

  /** `create_project`, with the repository's `create` as evidently
      intended (`CreateStored`): the reported project id is the store key
      `oid`. `projectId` is the generated uuid of the record and `now` the
      current time. The template is
      looked up, the project's variables are validated and rendered, the
      hosting repository is created (public) and the rendered files
      uploaded, and the record is saved. A failing step ends the pipeline;
      nothing already done is undone. */
  method CreateProject(ts: TemplateService, store: Collection, g: Gateway, request: ProjectRequest,
                       projectId: string, oid: string, now: int)
    returns (o: Creation)
    ensures 1 <= |o.trace| <= |Pipeline| && o.trace == Pipeline[..|o.trace|]
    ensures var t := ts.getTemplate(request.language, request.templateId);
            var vars := ProjectVariables(request.name, request.description);
            && (|o.trace| > 1 <==> t.Ok?)
            && (|o.trace| > 2 <==> t.Ok? && ts.validateTemplateVariables(t.value, vars).Ok?)
            && (|o.trace| > 3 <==> t.Ok? && ts.validateTemplateVariables(t.value, vars).Ok?
                                   && ts.processTemplate(t.value, vars).Ok?)
            && (|o.trace| > 4 <==> |o.trace| > 3 && CreateRepository(g, request.name, request.description, false, now).1.Ok?)
    // with an outage constant over the call, a repository just created is found again
    ensures |o.trace| != 5
    ensures o.result.Ok? <==> |o.trace| == |Pipeline| && store.online && forall i :: 0 <= i < |store.entries| ==> store.entries[i].oid != oid
    ensures o.result.Ok? <==> CreationSucceeds(ts, store, g, request, oid, now)
    // a failing step's error, classified, is the result
    ensures |o.trace| == 1 ==> o.result == Err(Classify(ts.getTemplate(request.language, request.templateId).error))
    ensures |o.trace| == 2 ==>
              var t := ts.getTemplate(request.language, request.templateId).value;
              o.result == Err(Classify(ts.validateTemplateVariables(t, ProjectVariables(request.name, request.description)).error))
    ensures |o.trace| == 3 ==>
              var t := ts.getTemplate(request.language, request.templateId).value;
              o.result == Err(Classify(ts.processTemplate(t, ProjectVariables(request.name, request.description)).error))
    ensures |o.trace| == 4 ==> o.result == Err(Classify(CreateRepository(g, request.name, request.description, false, now).1.error))
    ensures |o.trace| <= 3 ==> o.gateway == g
    ensures |o.trace| <= 4 ==> o.store == store
    ensures |o.trace| >= 4 ==> o.store == store || o.result.Ok?
    ensures |o.trace| == |Pipeline| ==> CleanName(request.name) in o.gateway.hub.repos
    ensures o.result.Err? ==> IsA(o.result.error, Validation) || IsA(o.result.error, GitHub) || IsA(o.result.error, Database)
    ensures o.result.Ok? ==>
              var t := ts.getTemplate(request.language, request.templateId).value;
              var files := ts.processTemplate(t, ProjectVariables(request.name, request.description)).value;
              var info := CreateRepository(g, request.name, request.description, false, now).1.value;
              && info.name == CleanName(request.name)
              && o.store.entries == store.entries + [Entry(oid, ProjectToDoc(CreatedProject(request, projectId, now, t, files, info)))]
              && o.result.value == ProjectResponse(true, CreatedMessage(request.name), Some(info.htmlUrl), Some(oid))
              && o.gateway.hub.repos[info.name].files.Keys == Keys(files) - set p | p in Keys(files) && (info.name, p) in g.hub.rejectedFiles
    // the reported id finds the saved project
    ensures o.result.Ok? && IsStoreKey(oid) ==>
              GetById(o.store, oid, ProjectFromDoc).Ok? && GetById(o.store, oid, ProjectFromDoc).value.Some?
              && GetById(o.store, oid, ProjectFromDoc).value.value.name == request.name
  {
    var t := ts.getTemplate(request.language, request.templateId);
    if t.Err? {
      return Creation(store, g, Pipeline[..1], Err(Classify(t.error)));
    }
    var vars := ProjectVariables(request.name, request.description);
    var valid := ts.validateTemplateVariables(t.value, vars);
    if valid.Err? {
      return Creation(store, g, Pipeline[..2], Err(Classify(valid.error)));
    }
    var processed := ts.processTemplate(t.value, vars);
    if processed.Err? {
      return Creation(store, g, Pipeline[..3], Err(Classify(processed.error)));
    }
    var files := processed.value;
    var (g1, created) := CreateRepository(g, request.name, request.description, false, now);
    if created.Err? {
      return Creation(store, g1, Pipeline[..4], Err(Classify(created.error)));
    }
    var info := created.value;
    var g2, uploaded := CreateFiles(g1, info.name, files, "Initial commit: " + request.name);
    assert uploaded.Ok?;
    UploadedKeys(g1.hub, g2.hub, info.name, files);
    var (store', saved) := SaveCreated(store, request, projectId, oid, now, t.value, files, info);
    return Creation(store', g2, Pipeline, saved);
  }

  /** The last step of `create_project`: the record is saved and the success
      response built, reporting the store key as the project's id. */
  function SaveCreated(store: Collection, request: ProjectRequest, projectId: string, oid: string, now: int,
                       t: Template, files: Dict<string, string>, info: RepositoryInfo): (r: (Collection, Result<ProjectResponse, Exc>))
    ensures r.1.Ok? <==> store.online && forall i :: 0 <= i < |store.entries| ==> store.entries[i].oid != oid
    ensures r.1.Err? ==> r.0 == store && IsA(r.1.error, Database)
    ensures r.1.Ok? ==>
              && r.0.entries == store.entries + [Entry(oid, ProjectToDoc(CreatedProject(request, projectId, now, t, files, info)))]
              && r.1.value == ProjectResponse(true, CreatedMessage(request.name), Some(info.htmlUrl), Some(oid))
    ensures r.1.Ok? && IsStoreKey(oid) ==>
              GetById(r.0, oid, ProjectFromDoc).Ok? && GetById(r.0, oid, ProjectFromDoc).value.Some?
              && GetById(r.0, oid, ProjectFromDoc).value.value.name == request.name
  {
    var p := CreatedProject(request, projectId, now, t, files, info);
    var (store', saved) := CreateStored(store, ProjectToDoc(p), oid, ProjectFromDoc);
    ProjectDocRoundTripWithId(p, oid);
    if saved.Err? then (store', Err(saved.error))
    else
      if IsStoreKey(oid) then
        CreatedIsFound(store, ProjectToDoc(p), oid, ProjectFromDoc);
        (store', Ok(ProjectResponse(true, CreatedMessage(request.name), Some(info.htmlUrl), Some(saved.value.id))))
      else
        (store', Ok(ProjectResponse(true, CreatedMessage(request.name), Some(info.htmlUrl), Some(saved.value.id))))
  }

  /** As written, the repository's `create` hands back the record's
      generated uuid as its id, and `get_by_id` refuses any uuid: the id
      `create_project` reports can never be looked up. */
  lemma AsWrittenIdNotFound(store: Collection, p: Project, oid: string)
    requires |p.id| == 36 && Repository.Create(store, ProjectToDoc(p), oid, ProjectFromDoc).1.Ok?
    ensures Repository.Create(store, ProjectToDoc(p), oid, ProjectFromDoc).1.value.id == p.id
    ensures GetProjectById(Repository.Create(store, ProjectToDoc(p), oid, ProjectFromDoc).0, p.id).Err?
  {
    ProjectDocRoundTrip(p);
    UuidIsNotObjectId(p.id);
  }

  /** After uploading into a repository that had no files, it holds exactly
      the uploaded paths the hosting service did not refuse. */
  lemma UploadedKeys(h: Hub, h': Hub, repoName: string, files: Dict<string, string>)
    requires repoName in h.repos && h.repos[repoName].files == map[] && repoName in h'.repos
    requires forall p :: p in h'.repos[repoName].files <==>
               p in h.repos[repoName].files || exists i :: 0 <= i < |files| && files[i].0 == p && (repoName, p) !in h.rejectedFiles
    ensures h'.repos[repoName].files.Keys == Keys(files) - set p | p in Keys(files) && (repoName, p) in h.rejectedFiles
  {
  }

  // ---------------------------------------------------------------------
  // Queries
  // ---------------------------------------------------------------------

  /** The listing filter: a language and a user name restrict the listing
      only when given and non-empty. */
  function ProjectsFilter(language: Option<string>, username: Option<string>): (f: Filter)
    ensures forall d: Doc :: Matches(d, f) <==>
              && (language.Some? && language.value != "" ==> FieldOf(d, "language") == Str(language.value))
              && (username.Some? && username.value != "" ==> FieldOf(d, "github_username") == Str(username.value))
  {
    var byLanguage := if language.Some? && language.value != "" then [Eq("language", Str(language.value))] else [];
    var byUser := if username.Some? && username.value != "" then [Eq("github_username", Str(username.value))] else [];
    var f := byLanguage + byUser;
    assert forall d: Doc :: Matches(d, f) <==> Matches(d, byLanguage) && Matches(d, byUser) by {
      forall d: Doc
        ensures Matches(d, f) <==> Matches(d, byLanguage) && Matches(d, byUser)
      {
        if Matches(d, byLanguage) && Matches(d, byUser) {
          forall i | 0 <= i < |f| ensures Holds(d, f[i]) {
            if i >= |byLanguage| { assert f[i] == byUser[i - |byLanguage|]; }
          }
        }
        if Matches(d, f) {
          assert forall i :: 0 <= i < |byLanguage| ==> f[i] == byLanguage[i];
          assert forall i :: 0 <= i < |byUser| ==> f[|byLanguage| + i] == byUser[i];
        }
      }
    }
    assert forall d: Doc :: Matches(d, byLanguage) <==> (byLanguage != [] ==> Holds(d, byLanguage[0]));
    assert forall d: Doc :: Matches(d, byUser) <==> (byUser != [] ==> Holds(d, byUser[0]));
    f
  }

  /** `get_projects`: a window of the filtered projects; any failure
      becomes a database error. */
  function GetProjects(store: Collection, skip: int := 0, limit: int := 50,
                       language: Option<string> := None, username: Option<string> := None): (r: Result<seq<Project>, Exc>)
    ensures r.Ok? <==> store.online && skip >= 0 && GetAll(store, skip, limit, ProjectsFilter(language, username), ProjectFromDoc).Ok?
    ensures r.Ok? ==> r == GetAll(store, skip, limit, ProjectsFilter(language, username), ProjectFromDoc)
    ensures r.Ok? ==> |r.value| == |Window(Select(store.entries, ProjectsFilter(language, username)), skip, limit)|
    ensures r.Ok? && limit != 0 ==> |r.value| <= Abs(limit)
    ensures r.Ok? && language.Some? && language.value != "" ==>
              forall i :: 0 <= i < |r.value| ==> r.value[i].language == language.value
    ensures r.Ok? && username.Some? && username.value != "" ==>
              forall i :: 0 <= i < |r.value| ==> r.value[i].githubUsername == username.value
    ensures skip < 0 ==>
              r == Err(Raise(Database, "Failed to get projects: " + Message(DbError("Failed to get documents: ", NegativeSkip))))
    ensures skip >= 0 && !store.online ==>
              r == Err(Raise(Database, "Failed to get projects: " + Message(DbError("Failed to get documents: ", ConnectionFailure))))
    ensures r.Err? ==> IsA(r.error, Database)
  {
    var all := GetAll(store, skip, limit, ProjectsFilter(language, username), ProjectFromDoc);
    if all.Err? then Err(Raise(Database, "Failed to get projects: " + Message(all.error)))
    else
      ListedProjectsMatch(store, skip, limit, language, username);
      all
  }

  /** Every project in a listing window satisfies the listing filter. */
  lemma ListedProjectsMatch(store: Collection, skip: int, limit: int, language: Option<string>, username: Option<string>)
    requires GetAll(store, skip, limit, ProjectsFilter(language, username), ProjectFromDoc).Ok?
    ensures var ps := GetAll(store, skip, limit, ProjectsFilter(language, username), ProjectFromDoc).value;
            && (language.Some? && language.value != "" ==> forall i :: 0 <= i < |ps| ==> ps[i].language == language.value)
            && (username.Some? && username.value != "" ==> forall i :: 0 <= i < |ps| ==> ps[i].githubUsername == username.value)
  {
    var f := ProjectsFilter(language, username);
    var ps := GetAll(store, skip, limit, f, ProjectFromDoc).value;
    var sel := Select(store.entries, f);
    forall i | 0 <= i < |ps|
      ensures language.Some? && language.value != "" ==> ps[i].language == language.value
      ensures username.Some? && username.value != "" ==> ps[i].githubUsername == username.value
    {
      ReadSatisfiesFilter(sel[skip + i], language, username, ps[i]);
    }
  }

  /** A project read from a document that passes the listing filter has the
      filtered language and user name. */
  lemma ReadSatisfiesFilter(e: Entry, language: Option<string>, username: Option<string>, p: Project)
    requires Matches(e.doc, ProjectsFilter(language, username)) && ProjectFromDoc(ReadDoc(e)) == Some(p)
    ensures language.Some? && language.value != "" ==> p.language == language.value
    ensures username.Some? && username.value != "" ==> p.githubUsername == username.value
  {
    if username.Some? && username.value != "" {
      UsernameRead(ReadDoc(e), username.value, p);
    }
  }

  /** `get_project_by_id`: a found project carries the canonical (lower-case)
      form of the id it was looked up by. */
  function GetProjectById(store: Collection, id: string): (r: Result<Option<Project>, Exc>)
    ensures r.Ok? && r.value.Some? ==> r.value.value.id == Text.Lower(id)
    ensures ParseObjectId(id).None? ==>
              r == Err(DbError("Failed to get project: ", DbError("Failed to get document by ID: ", Other(InvalidIdText(id)))))
    ensures r.Ok? <==> GetById(store, id, ProjectFromDoc).Ok?
    ensures r.Ok? ==> r == GetById(store, id, ProjectFromDoc)
    ensures store.online && ParseObjectId(id).Some? && FindKey(store.entries, Text.Lower(id)).Some?
            && ProjectFromDoc(ReadDoc(store.entries[FindKey(store.entries, Text.Lower(id)).value])).Some? ==>
              r == Ok(ProjectFromDoc(ReadDoc(store.entries[FindKey(store.entries, Text.Lower(id)).value])))
    ensures store.online && ParseObjectId(id).Some? && FindKey(store.entries, Text.Lower(id)).None? ==> r == Ok(None)
    ensures r.Err? ==> IsA(r.error, Database)
  {
    var found := GetById(store, id, ProjectFromDoc);
    if found.Err? then Err(DbError("Failed to get project: ", found.error))
    else found
  }

  /** `get_project_by_name`. */
  function GetProjectByName(store: Collection, name: string): (r: Result<Option<Project>, Exc>)
    ensures r.Ok? && r.value.Some? ==> r.value.value.name == name
    ensures store.online ==> (r == Ok(None) <==> Select(store.entries, [Eq("name", Str(name))]) == [])
    ensures store.online && Select(store.entries, [Eq("name", Str(name))]) != [] ==>
              (r.Ok? <==> ProjectFromDoc(ReadDoc(Select(store.entries, [Eq("name", Str(name))])[0])).Some?)
              && (r.Ok? ==> r == Ok(ProjectFromDoc(ReadDoc(Select(store.entries, [Eq("name", Str(name))])[0]))))
    ensures !store.online ==>
              r == Err(DbError("Failed to get project: ", DbError("Failed to get document by field: ", ConnectionFailure)))
    ensures r.Err? ==> IsA(r.error, Database)
  {
    var found := GetByName(store, name);
    if found.Err? then Err(DbError("Failed to get project: ", found.error))
    else found
  }

  /** `get_recent_projects`. */
  function GetRecent(store: Collection, limit: int := 10): (r: Result<seq<Project>, Exc>)
    ensures r.Ok? <==> GetRecentProjects(store, limit).Ok?
    ensures r.Ok? ==> r == GetRecentProjects(store, limit)
    ensures r.Ok? ==> |r.value| == if limit == 0 || |store.entries| <= Abs(limit) then |store.entries| else Abs(limit)
    ensures store.online && AllDecode(store.entries, ProjectFromDoc) ==> r.Ok?
    ensures r.Ok? ==> forall i :: 0 <= i < |r.value| ==>
              i < |store.entries| && ProjectFromDoc(ReadDoc(store.entries[i])) == Some(r.value[i])
    ensures !store.online ==>
              r == Err(DbError("Failed to get recent projects: ", DbError("Failed to get documents: ", ConnectionFailure)))
    ensures r.Err? ==> IsA(r.error, Database)
  {
    var found := GetRecentProjects(store, limit);
    if found.Err? then Err(DbError("Failed to get recent projects: ", found.error))
    else found
  }

  const ValidStatuses: seq<string> := ["created", "building", "ready", "failed", "deleted"]

  const InvalidStatusMessage := "Invalid status. Must be one of: created, building, ready, failed, deleted"

  /** `update_project_status`: an unknown status is refused before the store
      is touched; the refusal, like any store failure, surfaces as a
      database error. */
  function UpdateProjectStatus(store: Collection, id: string, status: string, now: int): (r: (Collection, Result<Option<Project>, Exc>))
    ensures status !in ValidStatuses ==>
              r == (store, Err(DbError("Failed to update project status: ", Raise(Validation, InvalidStatusMessage))))
    ensures r.0 != store ==> status in ValidStatuses
    ensures r.1 == Ok(None) ==> r.0 == store
    ensures r.1.Ok? && r.1.value.Some? ==> r.1 == GetProjectById(r.0, id)
    ensures r.1.Err? ==> IsA(r.1.error, Database)
    ensures status in ValidStatuses && r.1.Ok? && r.1.value.Some? ==>
              var c' := r.0;
              && |c'.entries| == |store.entries|
              && exists i :: 0 <= i < |store.entries| && store.entries[i].oid == c'.entries[i].oid
                             && OnlyStatusChanged(c'.entries[i].doc, store.entries[i].doc, status, now)
                             && (forall j :: 0 <= j < |store.entries| && j != i ==> c'.entries[j] == store.entries[j])
    // a valid status is written by the repository's status update
    ensures status in ValidStatuses ==> r.0 == UpdateStatus(store, id, status, now).0
    ensures status in ValidStatuses && store.online && ParseObjectId(id).Some? ==>
              r.0.entries == ApplySet(store.entries, Text.Lower(id), UpdateFields(map["status" := Str(status)], now))
    ensures status in ValidStatuses ==> (r.1 == Ok(None) <==> store.online && ParseObjectId(id).Some? && r.0 == store)
    // a modified project is returned as re-read by its id
    ensures r.0 != store ==>
              r.1 == if Reread(r.0, id, ProjectFromDoc).Ok? then Reread(r.0, id, ProjectFromDoc)
                     else Err(DbError("Failed to update project status: ", Reread(r.0, id, ProjectFromDoc).error))
  {
    if status !in ValidStatuses then (store, Err(DbError("Failed to update project status: ", Raise(Validation, InvalidStatusMessage))))
    else
      var (c', u) := UpdateStatus(store, id, status, now);
      if u.Ok? && u.value.Some? then
        UpdateStatusChangesOnlyStatus(store, id, status, now);
        (c', u)
      else if u.Err? then (c', Err(DbError("Failed to update project status: ", u.error)))
      else (c', u)
  }

  /** `get_project_statistics`. */
  function GetProjectStatistics(store: Collection): (r: Result<ProjectStats, Exc>)
    ensures r.Ok? <==> store.online
    ensures r.Ok? ==> r.value == StatsOf(store.entries)
    ensures !store.online ==> r == Err(DbError("Failed to get project statistics: ", DbError("Failed to count documents: ", ConnectionFailure)))
    ensures r.Ok? ==> r.value.totalProjects == |store.entries| && r.value.languages == |LanguagesIn(store.entries)|
    ensures r.Ok? ==> forall v :: v in LanguagesIn(store.entries) <==>
              exists i :: 0 <= i < |r.value.languageBreakdown| && r.value.languageBreakdown[i].0 == v
    ensures r.Ok? ==> forall i :: 0 <= i < |r.value.languageBreakdown| ==>
              r.value.languageBreakdown[i].1 == |Select(store.entries, [Eq("language", r.value.languageBreakdown[i].0)])|
    ensures r.Err? ==> IsA(r.error, Database)
  {
    var s := GetProjectStats(store);
    if s.Err? then Err(DbError("Failed to get project statistics: ", s.error))
    else s
  }

  // ---------------------------------------------------------------------
  // delete_project
  // ---------------------------------------------------------------------

  const DeletePrefix := "Failed to delete project: "

  /** The error `get_repo` raises for a repository name that is not a string. */
  const NonStringRepoName := Other("repository name is not a string")

  /** `project.metadata.get("github_repo")`, or the error raised when the
      metadata is absent. */
  function RepoOf(p: Project): Result<Value, Exc> {
    if p.metadata.None? then Err(Other("'NoneType' object has no attribute 'get'"))
    else if "github_repo" in p.metadata.value then Ok(p.metadata.value["github_repo"])
    else Ok(Null)
  }

  /** The part of `delete_project` after the project `p` was found: its
      named repository is deleted first, then the record. */
  function DeleteFound(store: Collection, g: Gateway, id: string, p: Project): (r: (Collection, Gateway, Result<bool, Exc>))
    requires GetById(store, id, ProjectFromDoc) == Ok(Some(p))
    ensures r.2.Err? ==> IsA(r.2.error, Database) && r.0 == store
    ensures RepoOf(p).Err? || (Truthy(RepoOf(p).value) && !RepoOf(p).value.Str?) ==>
              r == (store, g, Err(DbError(DeletePrefix, if RepoOf(p).Err? then RepoOf(p).error else NonStringRepoName)))
    ensures RepoOf(p).Ok? && !Truthy(RepoOf(p).value) ==> r.1 == g
    ensures RepoOf(p).Ok? && Truthy(RepoOf(p).value) && RepoOf(p).value.Str? ==>
              && r.1 == DeleteRepository(g, RepoOf(p).value.s).0
              && (DeleteRepository(g, RepoOf(p).value.s).1.Err? ==>
                    r.2 == Err(DbError(DeletePrefix, DeleteRepository(g, RepoOf(p).value.s).1.error)))
    ensures RepoOf(p).Ok? && (!Truthy(RepoOf(p).value) || (RepoOf(p).value.Str? && DeleteRepository(g, RepoOf(p).value.s).1.Ok?)) ==>
              r.0 == Delete(store, id).0 && r.2 == Ok(true)
    ensures r.1 != g ==>
              RepoOf(p).Ok? && RepoOf(p).value.Str? && RepoOf(p).value.s != "" && r.1 == DeleteRepository(g, RepoOf(p).value.s).0
    ensures r.2.Ok? ==>
              && r.2.value && RepoOf(p).Ok? && r.0 == Delete(store, id).0 && |r.0.entries| < |store.entries|
              && (Truthy(RepoOf(p).value) ==> RepoOf(p).value.Str? && RepoOf(p).value.s !in r.1.hub.repos)
  {
    var repo := RepoOf(p);
    if repo.Err? then (store, g, Err(DbError(DeletePrefix, repo.error)))
    else if Truthy(repo.value) && !repo.value.Str? then (store, g, Err(DbError(DeletePrefix, NonStringRepoName)))
    else
      var (g', removed) := if Truthy(repo.value) then DeleteRepository(g, repo.value.s) else (g, Ok(true));
      if removed.Err? then (store, g', Err(DbError(DeletePrefix, removed.error)))
      else
        match Delete(store, id)
        case (_, Err(e)) => (store, g', Err(DbError(DeletePrefix, e)))
        case (store', Ok(deleted)) => (store', g', Ok(deleted))
  }

  /** `delete_project`: the project must exist; its hosting repository,
      when its metadata names one, is deleted first, and a failure there
      keeps the record; then the record is deleted. Every failure becomes
      a database error. */
  function DeleteProject(store: Collection, g: Gateway, id: string): (r: (Collection, Gateway, Result<bool, Exc>))
    ensures r.2.Err? ==> IsA(r.2.error, Database) && r.0 == store
    ensures GetProjectById(store, id) == Ok(None) ==>
              r == (store, g, Err(DbError(DeletePrefix, Raise(Validation, "Project not found"))))
    ensures r.1 != g ==>
              exists p :: GetById(store, id, ProjectFromDoc) == Ok(Some(p)) && RepoOf(p).Ok? && RepoOf(p).value.Str?
                          && RepoOf(p).value.s != "" && r.1 == DeleteRepository(g, RepoOf(p).value.s).0
    ensures r.2.Ok? ==> r.2.value
    ensures r.2.Ok? ==>
              exists p :: GetById(store, id, ProjectFromDoc) == Ok(Some(p)) && RepoOf(p).Ok? &&
                          (Truthy(RepoOf(p).value) ==> RepoOf(p).value.Str? && RepoOf(p).value.s !in r.1.hub.repos)
    ensures r.2.Ok? ==> r.0 == Delete(store, id).0 && |r.0.entries| < |store.entries|
    // a failed lookup is reported under the deletion's prefix
    ensures GetById(store, id, ProjectFromDoc).Err? ==>
              r == (store, g, Err(DbError(DeletePrefix, GetById(store, id, ProjectFromDoc).error)))
    // once the project is found:
    ensures forall p :: GetById(store, id, ProjectFromDoc) == Ok(Some(p)) ==>
              // absent metadata, or a repository entry that is not a name, is an error
              && (RepoOf(p).Err? || (Truthy(RepoOf(p).value) && !RepoOf(p).value.Str?) ==>
                    r == (store, g, Err(DbError(DeletePrefix, if RepoOf(p).Err? then RepoOf(p).error else NonStringRepoName))))
              // no repository named: the gateway is not used
              && (RepoOf(p).Ok? && !Truthy(RepoOf(p).value) ==> r.1 == g)
              // a named repository is deleted remotely; a refused or failed deletion keeps the record
              && (RepoOf(p).Ok? && Truthy(RepoOf(p).value) && RepoOf(p).value.Str? ==>
                    && r.1 == DeleteRepository(g, RepoOf(p).value.s).0
                    && (DeleteRepository(g, RepoOf(p).value.s).1.Err? ==>
                          r.2 == Err(DbError(DeletePrefix, DeleteRepository(g, RepoOf(p).value.s).1.error))))
              // success: once the repository is gone, or when none is named, the record is deleted
              && (RepoOf(p).Ok? && (!Truthy(RepoOf(p).value) || (RepoOf(p).value.Str? && DeleteRepository(g, RepoOf(p).value.s).1.Ok?)) ==>
                    r.0 == Delete(store, id).0 && r.2 == Ok(true))
  {
    var found := GetById(store, id, ProjectFromDoc);
    if found.Err? then (store, g, Err(DbError(DeletePrefix, found.error)))
    else if found.value.None? then (store, g, Err(DbError(DeletePrefix, Raise(Validation, "Project not found"))))
    else DeleteFound(store, g, id, found.value.value)
  }
}

=== FILE: projects_router.dfy ===
/** The `/projects` endpoints: request checks, the calls into the project
    service, and the mapping of their outcomes to HTTP replies. */
module ProjectsRouter {
  import opened Wrappers
  import opened Documents
  import opened Exceptions
  import opened ProjectModels
  import opened Repository
  import opened ProjectRepository
  import opened Templates
  import opened GitHubService
  import opened ProjectService
  import opened Http
  import Text

  /** `POST /projects/`: the body is checked against the request schema
      (422 naming the failing fields); a created project answers 201; a
      validation error answers 400 with its message, any other error 500. */
  method CreateEndpoint(ts: TemplateService, store: Collection, g: Gateway, raw: RawRequest,
                        projectId: string, oid: string, now: int)
    returns (store': Collection, g': Gateway, reply: Reply<ProjectResponse>)
    ensures ParseProjectRequest(raw).Err? ==>
              reply == Invalid(ParseProjectRequest(raw).error) && store' == store && g' == g
    ensures reply.Reply? <==> ParseProjectRequest(raw).Ok? && CreationSucceeds(ts, store, g, ParseProjectRequest(raw).value, oid, now)
    ensures reply.Reply? ==>
              var request := ParseProjectRequest(raw).value;
              var info := CreateRepository(g, request.name, request.description, false, now).1.value;
              reply == Reply(201, ProjectResponse(true, CreatedMessage(request.name), Some(info.htmlUrl), Some(oid)))
    ensures reply.Reply? ==> |store'.entries| == |store.entries| + 1
    // a template that is not found answers as its (classified) error does
    ensures ParseProjectRequest(raw).Ok? ==>
              var request := ParseProjectRequest(raw).value;
              var t := ts.getTemplate(request.language, request.templateId);
              t.Err? ==> reply == Fail(Classify(t.error), true, false) && store' == store && g' == g
    // a failure of the hosting service answers 500 with the generic detail
    ensures ParseProjectRequest(raw).Ok? ==>
              var request := ParseProjectRequest(raw).value;
              var t := ts.getTemplate(request.language, request.templateId);
              var vars := ProjectVariables(request.name, request.description);
              && t.Ok? && ts.validateTemplateVariables(t.value, vars).Ok? && ts.processTemplate(t.value, vars).Ok?
              && CreateRepository(g, request.name, request.description, false, now).1.Err? ==>
                reply == Failure(500, InternalServerError) && store' == store
    ensures reply.Failure? ==> (reply.status == 400 || reply.detail == InternalServerError) && store' == store
    ensures reply.Code() in {201, 400, 422, 500}
  {
    var request := ParseProjectRequest(raw);
    if request.Err? {
      return store, g, Invalid(request.error);
    }
    var o := CreateProject(ts, store, g, request.value, projectId, oid, now);
    if o.result.Err? {
      return o.store, o.gateway, Fail(o.result.error, true, false);
    }
    return o.store, o.gateway, Reply(201, o.result.value);
  }

  datatype ProjectList = ProjectList(projects: seq<Project>, total: nat, page: int, pageSize: int)

  const MaxPageSize := 100

  /** The query parameters of the listing that break their bounds. */
  function PageViolations(skip: int, limit: int): (fields: seq<string>)
    ensures fields == [] <==> skip >= 0 && 1 <= limit <= MaxPageSize
    ensures "skip" in fields <==> skip < 0
    ensures "limit" in fields <==> !(1 <= limit <= MaxPageSize)
  {
    (if skip < 0 then ["skip"] else []) + (if 1 <= limit <= MaxPageSize then [] else ["limit"])
  }

  /** The 1-based number of the page of `limit` entries that entry `skip`
      falls on. */
  function PageOf(skip: nat, limit: nat): (page: int)
    requires limit >= 1
    ensures page >= 1 && (page - 1) * limit <= skip < page * limit
  {
    var q := skip / limit;
    assert skip == q * limit + skip % limit;
    assert (q + 1) * limit == q * limit + limit;
    q + 1
  }

  /** `GET /projects/`: a page of the filtered projects; `total` counts all
      projects, filtered or not, and `page` is the 1-based page `skip`
      falls in. Database errors answer 500 with their message. */
  function ListEndpoint(store: Collection, skip: int := 0, limit: int := 50,
                        language: Option<string> := None, username: Option<string> := None): (r: Reply<ProjectList>)
    ensures PageViolations(skip, limit) != [] ==> r == Invalid(PageViolations(skip, limit))
    ensures r.Reply? <==> PageViolations(skip, limit) == [] && GetProjects(store, skip, limit, language, username).Ok?
    ensures r.Reply? ==>
              r == Reply(200, ProjectList(GetProjects(store, skip, limit, language, username).value,
                                          |store.entries|, PageOf(skip, limit), limit))
    ensures PageViolations(skip, limit) == [] && GetProjects(store, skip, limit, language, username).Err? ==>
              r == Failure(500, Message(GetProjects(store, skip, limit, language, username).error))
    ensures r.Reply? ==> |r.body.projects| <= limit
    ensures r.Reply? ==> r.body.total == |store.entries|
    ensures r.Reply? ==> skip >= 0 && limit >= 1 && r.body.page == PageOf(skip, limit)
    ensures r.Reply? && language.Some? && language.value != "" ==>
              forall i :: 0 <= i < |r.body.projects| ==> r.body.projects[i].language == language.value
    ensures PageViolations(skip, limit) == [] && !store.online ==> r.Failure? && r.detail != InternalServerError
    ensures r.Failure? ==> r.status == 500
  {
    if PageViolations(skip, limit) != [] then Invalid(PageViolations(skip, limit))
    else
      var listed := GetProjects(store, skip, limit, language, username);
      if listed.Err? then Fail(listed.error, false, true)
      else
        match Count(store, [])
        case Err(e) => Fail(e, false, true)
        case Ok(total) =>
          SelectAll(store.entries);
          Reply(200, ProjectList(listed.value, total, PageOf(skip, limit), limit))
  }

  const ProjectNotFound := HttpException(404, "Project not found")

  /** `GET /projects/{id}`: a found project carries the id it was asked for,
      in canonical form; a missing project raises a 404 inside the
      handler's `try`, so it answers 500. */
  function GetEndpoint(store: Collection, id: string): (r: Reply<Project>)
    ensures r.Reply? <==> GetProjectById(store, id).Ok? && GetProjectById(store, id).value.Some?
    ensures r.Reply? ==> r == Reply(200, GetProjectById(store, id).value.value) && r.body.id == Text.Lower(id)
    ensures GetProjectById(store, id).Err? ==> r == Failure(500, Message(GetProjectById(store, id).error))
    // a stored project that decodes is found
    ensures store.online && ParseObjectId(id).Some? && FindKey(store.entries, Text.Lower(id)).Some?
            && ProjectFromDoc(ReadDoc(store.entries[FindKey(store.entries, Text.Lower(id)).value])).Some? ==>
              r == Reply(200, ProjectFromDoc(ReadDoc(store.entries[FindKey(store.entries, Text.Lower(id)).value])).value)
    ensures GetProjectById(store, id) == Ok(None) ==> r == Failure(500, InternalServerError)
    ensures ParseObjectId(id).None? ==> r.Failure? && r.detail != InternalServerError
    ensures r.Code() != 404
  {
    var found := GetProjectById(store, id);
    if found.Err? then Fail(found.error, false, true)
    else if found.value.None? then Fail(ProjectNotFound, false, true)
    else Reply(200, found.value.value)
  }

  /** `GET /projects/name/{name}`. */
  function GetByNameEndpoint(store: Collection, name: string): (r: Reply<Project>)
    ensures r.Reply? <==> GetProjectByName(store, name).Ok? && GetProjectByName(store, name).value.Some?
    ensures r.Reply? ==> r == Reply(200, GetProjectByName(store, name).value.value) && r.body.name == name
    ensures GetProjectByName(store, name).Err? ==> r == Failure(500, Message(GetProjectByName(store, name).error))
    // the first project of that name is answered when it decodes
    ensures store.online && Select(store.entries, [Eq("name", Str(name))]) != []
            && ProjectFromDoc(ReadDoc(Select(store.entries, [Eq("name", Str(name))])[0])).Some? ==>
              r == Reply(200, ProjectFromDoc(ReadDoc(Select(store.entries, [Eq("name", Str(name))])[0])).value)
    ensures store.online && Select(store.entries, [Eq("name", Str(name))]) == [] ==> r == Failure(500, InternalServerError)
    ensures r.Code() != 404
  {
    var found := GetProjectByName(store, name);
    if found.Err? then Fail(found.error, false, true)
    else if found.value.None? then Fail(ProjectNotFound, false, true)
    else Reply(200, found.value.value)
  }

  const MaxRecent := 50

  /** `GET /projects/recent/`: at most `limit` (1..50) projects. */
  function RecentEndpoint(store: Collection, limit: int := 10): (r: Reply<seq<Project>>)
    ensures !(1 <= limit <= MaxRecent) <==> r == Invalid(["limit"])
    ensures r.Reply? <==> 1 <= limit <= MaxRecent && GetRecent(store, limit).Ok?
    ensures r.Reply? ==> r == Reply(200, GetRecent(store, limit).value)
    ensures r.Reply? ==> |r.body| == if |store.entries| <= limit then |store.entries| else limit
    ensures 1 <= limit <= MaxRecent && store.online && AllDecode(store.entries, ProjectFromDoc) ==> r.Reply?
    ensures r.Failure? ==> r == Failure(500, Message(GetRecent(store, limit).error))
  {
    if !(1 <= limit <= MaxRecent) then Invalid(["limit"])
    else
      var recent := GetRecent(store, limit);
      if recent.Err? then Fail(recent.error, false, true)
      else Reply(200, recent.value)
  }

  datatype StatusUpdated = StatusUpdated(message: string, project: Project)

  /** `PATCH /projects/{id}/status`: the handler's 400 branch is never taken,
      since the service reports an unknown status as a database error. */
  function UpdateStatusEndpoint(store: Collection, id: string, status: string, now: int): (r: (Collection, Reply<StatusUpdated>))
    ensures status !in ValidStatuses ==>
              r == (store, Failure(500, "Failed to update project status: " + InvalidStatusMessage))
    ensures r.0 == UpdateProjectStatus(store, id, status, now).0
    ensures r.1.Reply? <==> UpdateProjectStatus(store, id, status, now).1.Ok? && UpdateProjectStatus(store, id, status, now).1.value.Some?
    // the reply carries the updated project, which the service re-reads from the updated store
    ensures r.1.Reply? ==>
              r.1 == Reply(200, StatusUpdated("Project status updated to " + status, UpdateProjectStatus(store, id, status, now).1.value.value))
    ensures UpdateProjectStatus(store, id, status, now).1.Err? ==>
              r.1 == Failure(500, Message(UpdateProjectStatus(store, id, status, now).1.error))
    ensures r.1.Code() != 400 && r.1.Code() != 404
    ensures r.1.Failure? ==> r.1.detail == InternalServerError ==> r.0 == store
    // a status write that modified the store answers with the re-read project
    ensures r.0 != store && Reread(r.0, id, ProjectFromDoc).Ok? && Reread(r.0, id, ProjectFromDoc).value.Some? ==>
              r.1 == Reply(200, StatusUpdated("Project status updated to " + status, Reread(r.0, id, ProjectFromDoc).value.value))
    // a write that modified nothing answers the swallowed 404 as 500
    ensures status in ValidStatuses && store.online && ParseObjectId(id).Some? && r.0 == store ==>
              r.1 == Failure(500, InternalServerError)
  {
    var (c', updated) := UpdateProjectStatus(store, id, status, now);
    if updated.Err? then (c', Fail(updated.error, true, true))
    else if updated.value.None? then (c', Fail(ProjectNotFound, true, true))
    else (c', Reply(200, StatusUpdated("Project status updated to " + status, updated.value.value)))
  }

  /** `GET /projects/stats/overview`. */
  function StatsEndpoint(store: Collection): (r: Reply<ProjectStats>)
    ensures r.Reply? <==> store.online
    ensures r.Reply? ==> r == Reply(200, StatsOf(store.entries)) && r.body.totalProjects == |store.entries|
    ensures r.Failure? ==> r == Failure(500, Message(GetProjectStatistics(store).error))
  {
    var s := GetProjectStatistics(store);
    if s.Err? then Fail(s.error, false, true)
    else Reply(200, s.value)
  }

  /** `DELETE /projects/{id}`: every service failure is a database error and
      answers 500 with its message. */
  function DeleteEndpoint(store: Collection, g: Gateway, id: string): (r: (Collection, Gateway, Reply<string>))
    ensures r.0 == DeleteProject(store, g, id).0 && r.1 == DeleteProject(store, g, id).1
    ensures r.2.Reply? <==> DeleteProject(store, g, id).2.Ok?
    ensures r.2.Failure? ==> r.2 == Failure(500, Message(DeleteProject(store, g, id).2.error))
    ensures r.2.Reply? ==> r.2 == Reply(200, "Project deleted successfully") && |r.0.entries| < |store.entries|
    ensures r.2.Failure? ==> r.2.status == 500 && r.0 == store
    ensures GetProjectById(store, id) == Ok(None) ==>
              r == (store, g, Failure(500, DeletePrefix + "Project not found"))
    // a stored project whose named repository is removed, or which names none, is deleted
    ensures forall p :: GetById(store, id, ProjectFromDoc) == Ok(Some(p)) && RepoOf(p).Ok?
                        && (!Truthy(RepoOf(p).value) || (RepoOf(p).value.Str? && DeleteRepository(g, RepoOf(p).value.s).1.Ok?)) ==>
              r == (Delete(store, id).0, (if Truthy(RepoOf(p).value) then DeleteRepository(g, RepoOf(p).value.s).0 else g),
                    Reply(200, "Project deleted successfully"))
  {
    var (c', g', deleted) := DeleteProject(store, g, id);
    if deleted.Err? then (c', g', Fail(deleted.error, true, true))
    else if !deleted.value then (c', g', Fail(ProjectNotFound, true, true))
    else (c', g', Reply(200, "Project deleted successfully"))
  }
}

=== FILE: repository.dfy ===
/** The generic document repository: CRUD operations over one collection of
    the document store. A collection is a sequence of entries in natural
    (insertion) order; each entry keeps its store key (`_id`, an ObjectId in
    canonical lower-case hex) beside the document. `decode` stands for the
    repository's model class: building a model from a document either gives
    a model or fails. */
module Repository {
  import opened Wrappers
  import opened Text
  import opened Documents
  import opened Exceptions

  datatype Entry = Entry(oid: string, doc: Doc)

  /** `online == false` models a store that cannot be reached: every driver
      call raises. */
  datatype Collection = Collection(online: bool, entries: seq<Entry>)

  /** Store keys are unique within a collection. */
  ghost predicate UniqueKeys(c: Collection) {
    forall i, j :: 0 <= i < j < |c.entries| ==> c.entries[i].oid != c.entries[j].oid
  }

  /** The exception the driver raises when the store is unreachable. */
  const ConnectionFailure := Other("server selection timed out")
  /** The exception raised when building a model from a document fails. */
  const ModelValidationFailure := Other("model validation failed")
  /** The driver's duplicate-key write error. */
  const DuplicateKey := Other("E11000 duplicate key error")
  /** The driver's refusal to modify the immutable `_id`. */
  const ImmutableId := Other("Performing an update on the path '_id' would modify the immutable field '_id'")
  /** The driver's refusal of a negative skip. */
  const NegativeSkip := Other("skip must be >= 0")

  // ---------------------------------------------------------------------
  // ObjectId.
  // ---------------------------------------------------------------------

  predicate IsHex(c: char) { IsDigit(c) || 'a' <= c <= 'f' || 'A' <= c <= 'F' }

  /** `ObjectId(s)` for a string: exactly 24 hexadecimal digits; `str()` of
      the result is the lower-case form. */
  function ParseObjectId(s: string): (r: Option<string>)
    ensures r.Some? <==> |s| == 24 && forall i :: 0 <= i < |s| ==> IsHex(s[i])
    ensures r.Some? ==> |r.value| == 24 && r.value == Lower(s)
  {
    if |s| == 24 && forall i :: 0 <= i < |s| ==> IsHex(s[i]) then Some(Lower(s)) else None
  }

  /** The error text of an invalid ObjectId. */
  function InvalidIdText(s: string): string {
    "'" + s + "' is not a valid ObjectId, it must be a 12-byte input or a 24-character hex string"
  }

  /** The canonical form of a parsed id parses to itself. */
  lemma ParseObjectIdCanonical(s: string)
    requires ParseObjectId(s).Some?
    ensures ParseObjectId(ParseObjectId(s).value) == ParseObjectId(s)
  {
    var w := Lower(s);
    forall i | 0 <= i < |w|
      ensures IsHex(w[i])
    {
      assert IsHex(s[i]);
    }
    LowerIdempotent(s);
  }

  /** A uuid4 string (36 characters) is never an ObjectId. */
  lemma UuidIsNotObjectId(s: string)
    requires |s| == 36
    ensures ParseObjectId(s) == None
  {
  }

  // ---------------------------------------------------------------------
  // Queries.
  // ---------------------------------------------------------------------

  /** The entries matching a filter, in natural order. */
  function Select(es: seq<Entry>, f: Filter): (r: seq<Entry>)
    ensures |r| <= |es|
    ensures forall i :: 0 <= i < |r| ==> Matches(r[i].doc, f) && r[i] in es
    ensures forall e :: e in es && Matches(e.doc, f) ==> e in r
  {
    if |es| == 0 then []
    else
      var rest := Select(es[1..], f);
      assert forall e :: e in es[1..] ==> e in es;
      if Matches(es[0].doc, f) then [es[0]] + rest else rest
  }

  /** Selecting with the empty filter keeps every entry. */
  lemma {:induction false} SelectAll(es: seq<Entry>)
    ensures Select(es, []) == es
  {
    if |es| > 0 {
      SelectAll(es[1..]);
    }
  }

  /** Selecting with a conjunction is selecting twice. */
  lemma {:induction false} SelectConcat(es: seq<Entry>, f: Filter, g: Filter)
    ensures Select(es, f + g) == Select(Select(es, f), g)
  {
    if |es| > 0 {
      SelectConcat(es[1..], f, g);
      var d := es[0].doc;
      assert Matches(d, f + g) <==> Matches(d, f) && Matches(d, g) by {
        if Matches(d, f) && Matches(d, g) {
          forall i | 0 <= i < |f + g|
            ensures Holds(d, (f + g)[i])
          {
            if i < |f| { assert (f + g)[i] == f[i]; } else { assert (f + g)[i] == g[i - |f|]; }
          }
        }
        if Matches(d, f + g) {
          forall i | 0 <= i < |f|
            ensures Holds(d, f[i])
          {
            assert (f + g)[i] == f[i];
          }
          forall i | 0 <= i < |g|
            ensures Holds(d, g[i])
          {
            assert (f + g)[|f| + i] == g[i];
          }
        }
      }
    }
  }

  /** The document a read hands to the model: `id` overwritten with
      `str(_id)`; the extra `_id` key is ignored by the model. */
  function ReadDoc(e: Entry): (d: Doc)
    ensures "id" in d && d["id"] == Str(e.oid)
    ensures forall k :: k in e.doc && k != "id" ==> k in d && d[k] == e.doc[k]
  {
    e.doc["id" := Str(e.oid)]
  }

  /** Decoding every entry read; fails if any one fails. */
  function DecodeAll<T>(es: seq<Entry>, decode: Doc -> Option<T>): (r: Option<seq<T>>)
    ensures r.Some? <==> forall i :: 0 <= i < |es| ==> decode(ReadDoc(es[i])).Some?
    ensures r.Some? ==> |r.value| == |es| && forall i :: 0 <= i < |es| ==> r.value[i] == decode(ReadDoc(es[i])).value
  {
    if |es| == 0 then Some([])
    else
      var head := decode(ReadDoc(es[0]));
      var rest := DecodeAll(es[1..], decode);
      if head.None? || rest.None? then
        assert rest.None? ==> exists i :: 0 <= i < |es| - 1 && decode(ReadDoc(es[1..][i])).None?;
        None
      else Some([head.value] + rest.value)
  }

  function Abs(n: int): nat { if n < 0 then -n else n }

  /** Every entry builds a model once read. */
  ghost predicate AllDecode<T>(es: seq<Entry>, decode: Doc -> Option<T>) {
    forall i :: 0 <= i < |es| ==> decode(ReadDoc(es[i])).Some?
  }

  /** The cursor window `.skip(skip).limit(limit)`: a limit of 0 means no
      limit and a negative limit means its absolute value. */
  function Window<T>(s: seq<T>, skip: nat, limit: int): (w: seq<T>)
    ensures |w| <= |s|
    ensures limit != 0 ==> |w| <= Abs(limit)
    ensures skip <= |s| && (limit == 0 || |s| - skip <= Abs(limit)) ==> |w| == |s| - skip
    ensures skip >= |s| ==> w == []
    ensures limit != 0 && skip + Abs(limit) <= |s| ==> |w| == Abs(limit)
    ensures forall i :: 0 <= i < |w| ==> skip + i < |s| && w[i] == s[skip + i]
  {
    var rest := if skip <= |s| then s[skip..] else [];
    if limit == 0 || |rest| <= Abs(limit) then rest else rest[..Abs(limit)]
  }

  function DbError(prefix: string, e: Exc): (r: Exc)
    ensures IsA(r, Database) && Message(r) == prefix + Message(e)
  {
    Raise(Database, prefix + Message(e))
  }

  // ---------------------------------------------------------------------
  // Operations.
  // ---------------------------------------------------------------------

  /** `create`: the document is inserted under the generated key `oid`; the
      returned model is built from the inserted document, so it keeps the
      document's own `id`. Any failure becomes a database error. */
  function Create<T>(c: Collection, doc: Doc, oid: string, decode: Doc -> Option<T>): (r: (Collection, Result<T, Exc>))
    ensures !c.online ==> r.0 == c && r.1 == Err(DbError("Failed to create document: ", ConnectionFailure))
    ensures c.online && (exists i :: 0 <= i < |c.entries| && c.entries[i].oid == oid) ==>
              r.0 == c && r.1 == Err(DbError("Failed to create document: ", DuplicateKey))
    ensures c.online && (forall i :: 0 <= i < |c.entries| ==> c.entries[i].oid != oid) ==>
              r.0 == c.(entries := c.entries + [Entry(oid, doc)])
              && (r.1.Ok? <==> decode(doc).Some?)
              && (r.1.Ok? ==> r.1.value == decode(doc).value)
    ensures r.1.Err? ==> IsA(r.1.error, Database)
  {
    if !c.online then (c, Err(DbError("Failed to create document: ", ConnectionFailure)))
    else if exists i :: 0 <= i < |c.entries| && c.entries[i].oid == oid then
      (c, Err(DbError("Failed to create document: ", DuplicateKey)))
    else
      var c' := c.(entries := c.entries + [Entry(oid, doc)]);
      var m := decode(doc);
      if m.None? then (c', Err(DbError("Failed to create document: ", ModelValidationFailure)))
      else (c', Ok(m.value))
  }

  /** Inserting a fresh key keeps keys unique. */
  lemma CreateKeepsUniqueKeys<T>(c: Collection, doc: Doc, oid: string, decode: Doc -> Option<T>)
    requires UniqueKeys(c)
    ensures UniqueKeys(Create(c, doc, oid, decode).0)
  {
  }

  /** `create` as evidently intended: the returned model is read the way
      every other read reads a document, with `id` set to the store key, so
      the id it reports is one `get_by_id` can find. */
  function CreateStored<T>(c: Collection, doc: Doc, oid: string, decode: Doc -> Option<T>): (r: (Collection, Result<T, Exc>))
    ensures r.0 == Create(c, doc, oid, decode).0
    ensures r.1.Ok? <==> c.online && (forall i :: 0 <= i < |c.entries| ==> c.entries[i].oid != oid)
                         && decode(ReadDoc(Entry(oid, doc))).Some?
    ensures r.1.Ok? ==> r.1.value == decode(ReadDoc(Entry(oid, doc))).value
    ensures r.1.Err? ==> IsA(r.1.error, Database)
  {
    if !c.online then (c, Err(DbError("Failed to create document: ", ConnectionFailure)))
    else if exists i :: 0 <= i < |c.entries| && c.entries[i].oid == oid then
      (c, Err(DbError("Failed to create document: ", DuplicateKey)))
    else
      var e := Entry(oid, doc);
      var c' := c.(entries := c.entries + [e]);
      var m := decode(ReadDoc(e));
      if m.None? then (c', Err(DbError("Failed to create document: ", ModelValidationFailure)))
      else (c', Ok(m.value))
  }

  /** A key as the store generates it: the canonical text of an ObjectId. */
  predicate IsStoreKey(oid: string) { ParseObjectId(oid) == Some(oid) }

  /** What the corrected `create` returns is what `get_by_id` finds under
      the key it was stored with. */
  lemma CreatedIsFound<T>(c: Collection, doc: Doc, oid: string, decode: Doc -> Option<T>)
    requires IsStoreKey(oid) && CreateStored(c, doc, oid, decode).1.Ok?
    ensures GetById(CreateStored(c, doc, oid, decode).0, oid, decode) == Ok(Some(CreateStored(c, doc, oid, decode).1.value))
  {
    var c' := CreateStored(c, doc, oid, decode).0;
    assert c'.entries == c.entries + [Entry(oid, doc)];
    assert c'.entries[|c.entries|].oid == oid;
    var at := FindKey(c'.entries, oid);
    assert at == Some(|c.entries|);
  }

  /** The first entry with the given key. */
  function FindKey(es: seq<Entry>, oid: string): (r: Option<nat>)
    ensures r.None? <==> forall i :: 0 <= i < |es| ==> es[i].oid != oid
    ensures r.Some? ==> r.value < |es| && es[r.value].oid == oid
                        && forall i :: 0 <= i < r.value ==> es[i].oid != oid
  {
    if |es| == 0 then None
    else if es[0].oid == oid then Some(0)
    else
      var r := FindKey(es[1..], oid);
      if r.None? then None else Some(r.value + 1)
  }

  /** `get_by_id`: the id must be an ObjectId; a found document is read with
      its `id` overwritten. Any failure becomes a database error. */
  function GetById<T>(c: Collection, id: string, decode: Doc -> Option<T>): (r: Result<Option<T>, Exc>)
    ensures ParseObjectId(id).None? ==> r == Err(DbError("Failed to get document by ID: ", Other(InvalidIdText(id))))
    ensures ParseObjectId(id).Some? && !c.online ==> r == Err(DbError("Failed to get document by ID: ", ConnectionFailure))
    ensures c.online && ParseObjectId(id).Some? && FindKey(c.entries, ParseObjectId(id).value).None? ==> r == Ok(None)
    ensures c.online && ParseObjectId(id).Some? && FindKey(c.entries, ParseObjectId(id).value).Some? ==>
              (r.Ok? <==> decode(ReadDoc(c.entries[FindKey(c.entries, ParseObjectId(id).value).value])).Some?)
              && (r.Ok? ==> r.value == decode(ReadDoc(c.entries[FindKey(c.entries, ParseObjectId(id).value).value])))
              && (r.Err? ==> r.error == DbError("Failed to get document by ID: ", ModelValidationFailure))
    ensures r.Ok? && r.value.Some? ==>
              exists i :: 0 <= i < |c.entries| && c.entries[i].oid == Lower(id) && decode(ReadDoc(c.entries[i])) == r.value
    ensures r.Err? ==> IsA(r.error, Database)
  {
    var key := ParseObjectId(id);
    if key.None? then Err(DbError("Failed to get document by ID: ", Other(InvalidIdText(id))))
    else if !c.online then Err(DbError("Failed to get document by ID: ", ConnectionFailure))
    else
      var at := FindKey(c.entries, key.value);
      if at.None? then Ok(None)
      else
        var m := decode(ReadDoc(c.entries[at.value]));
        if m.None? then Err(DbError("Failed to get document by ID: ", ModelValidationFailure))
        else Ok(Some(m.value))
  }

  /** `get_by_field`: the first document (in natural order) whose field
      equals the value. */
  function GetByField<T>(c: Collection, field: string, value: Value, decode: Doc -> Option<T>): (r: Result<Option<T>, Exc>)
    ensures !c.online ==> r == Err(DbError("Failed to get document by field: ", ConnectionFailure))
    ensures c.online ==> (r == Ok(None) <==> Select(c.entries, [Eq(field, value)]) == [])
    ensures r.Ok? && r.value.Some? ==>
              var sel := Select(c.entries, [Eq(field, value)]);
              |sel| > 0 && FieldOf(sel[0].doc, field) == value && decode(ReadDoc(sel[0])) == r.value
    // the first match is returned when it decodes, and refused when it does not
    ensures c.online && Select(c.entries, [Eq(field, value)]) != [] ==>
              && (r.Ok? <==> decode(ReadDoc(Select(c.entries, [Eq(field, value)])[0])).Some?)
              && (r.Ok? ==> r == Ok(decode(ReadDoc(Select(c.entries, [Eq(field, value)])[0]))))
              && (r.Err? ==> r.error == DbError("Failed to get document by field: ", ModelValidationFailure))
    ensures r.Err? ==> IsA(r.error, Database)
  {
    if !c.online then Err(DbError("Failed to get document by field: ", ConnectionFailure))
    else
      var sel := Select(c.entries, [Eq(field, value)]);
      if |sel| == 0 then Ok(None)
      else
        assert Holds(sel[0].doc, [Eq(field, value)][0]);
        var m := decode(ReadDoc(sel[0]));
        if m.None? then Err(DbError("Failed to get document by field: ", ModelValidationFailure))
        else Ok(Some(m.value))
  }

  const DefaultLimit := 100

  /** A first page of `limit` (positive) entries of a selection all decode
      when the whole selection does, and holds `min(n, limit)` entries. */
  lemma FirstPage<T>(sel: seq<Entry>, limit: nat, decode: Doc -> Option<T>)
    requires limit > 0
    ensures |Window(sel, 0, limit)| == if |sel| < limit then |sel| else limit
    ensures AllDecode(sel, decode) ==> AllDecode(Window(sel, 0, limit), decode)
  {
  }

  /** `get_all`: filter, then skip, then limit; every document is read with
      its `id` overwritten. A negative skip is refused by the cursor before
      the server is contacted, so it wins over an unreachable store. */
  function GetAll<T>(c: Collection, skip: int, limit: int, f: Filter, decode: Doc -> Option<T>): (r: Result<seq<T>, Exc>)
    ensures skip < 0 ==> r == Err(DbError("Failed to get documents: ", NegativeSkip))
    ensures skip >= 0 && !c.online ==> r == Err(DbError("Failed to get documents: ", ConnectionFailure))
    ensures r.Ok? <==> skip >= 0 && c.online && AllDecode(Window(Select(c.entries, f), skip, limit), decode)
    ensures skip >= 0 && c.online && r.Err? ==> r.error == DbError("Failed to get documents: ", ModelValidationFailure)
    ensures r.Ok? ==> |r.value| == |Window(Select(c.entries, f), skip, limit)|
    ensures r.Ok? ==> limit != 0 ==> |r.value| <= Abs(limit)
    ensures r.Ok? ==>
              var sel := Select(c.entries, f);
              && |r.value| <= |sel|
              && (skip <= |sel| && (limit == 0 || |sel| - skip <= Abs(limit)) ==> |r.value| == |sel| - skip)
              && (limit != 0 && skip + Abs(limit) <= |sel| ==> |r.value| == Abs(limit))
              && forall i :: 0 <= i < |r.value| ==>
                   skip + i < |sel| && Matches(sel[skip + i].doc, f) && decode(ReadDoc(sel[skip + i])) == Some(r.value[i])
    ensures r.Err? ==> IsA(r.error, Database)
  {
    if skip < 0 then Err(DbError("Failed to get documents: ", NegativeSkip))
    else if !c.online then Err(DbError("Failed to get documents: ", ConnectionFailure))
    else
      var sel := Select(c.entries, f);
      var w := Window(sel, skip, limit);
      var ms := DecodeAll(w, decode);
      if ms.None? then Err(DbError("Failed to get documents: ", ModelValidationFailure))
      else Ok(ms.value)
  }

  /** The fields of an update: `None` values are dropped and `updated_at` is
      always stamped with the current time. */
  function UpdateFields(data: map<string, Value>, now: int): (u: map<string, Value>)
    ensures "updated_at" in u && u["updated_at"] == Date(now)
    ensures forall k :: k in data && k != "updated_at" && data[k] != Null ==> k in u && u[k] == data[k]
    ensures forall k :: k in u ==> k == "updated_at" || (k in data && data[k] != Null)
    ensures forall k :: k in u ==> u[k] != Null
  {
    (map k | k in data && data[k] != Null :: data[k])["updated_at" := Date(now)]
  }

  /** `$set`: the named fields take their new values, all others stay. */
  function SetFields(d: Doc, u: map<string, Value>): (r: Doc)
    ensures r.Keys == d.Keys + u.Keys
    ensures forall k :: k in u ==> r[k] == u[k]
    ensures forall k :: k in d && k !in u ==> r[k] == d[k]
  {
    map k | k in d.Keys + u.Keys :: if k in u then u[k] else d[k]
  }

  /** `update_one` with `$set`: the first entry with the key gets the
      fields set; every other entry, and every key, stays as it was. */
  function ApplySet(es: seq<Entry>, key: string, u: map<string, Value>): (r: seq<Entry>)
    ensures |r| == |es|
    ensures forall i :: 0 <= i < |es| ==> r[i].oid == es[i].oid
    ensures forall i :: 0 <= i < |es| && es[i].oid != key ==> r[i] == es[i]
    ensures (exists i :: 0 <= i < |es| && es[i].oid == key) ==>
              exists i :: 0 <= i < |es| && es[i].oid == key && r[i].doc == SetFields(es[i].doc, u)
                          && forall j :: 0 <= j < |es| && j != i ==> r[j] == es[j]
    ensures (forall i :: 0 <= i < |es| ==> es[i].oid != key) ==> r == es
  {
    var at := FindKey(es, key);
    if at.None? then es
    else es[at.value := Entry(key, SetFields(es[at.value].doc, u))]
  }

  /** `update`: `$set` of the non-None fields plus `updated_at` on the
      document with that key. The result is None when no document was
      modified (none has the key, or the values were already those), and
      otherwise the document re-read by id; a failure of that re-read is
      wrapped a second time. Setting `_id` is refused when a document has
      the key, since the server will not change an immutable field. */
  function Update<T>(c: Collection, id: string, data: map<string, Value>, now: int, decode: Doc -> Option<T>): (r: (Collection, Result<Option<T>, Exc>))
    ensures r.1.Err? ==> IsA(r.1.error, Database)
    ensures ParseObjectId(id).None? ==> r == (c, Err(DbError("Failed to update document: ", Other(InvalidIdText(id)))))
    ensures "_id" in UpdateFields(data, now) ==>
              r.0 == c && (r.1.Err? <==> !(c.online && ParseObjectId(id).Some? && FindKey(c.entries, Lower(id)).None?))
    ensures r.0 == c || (c.online && ParseObjectId(id).Some? && "_id" !in UpdateFields(data, now)
                         && r.0 == c.(entries := ApplySet(c.entries, Lower(id), UpdateFields(data, now))))
    ensures r.1 == Ok(None) <==>
              c.online && ParseObjectId(id).Some? && r.0 == c
              && ("_id" !in UpdateFields(data, now) || FindKey(c.entries, Lower(id)).None?)
    ensures c.online && ParseObjectId(id).Some? && "_id" !in UpdateFields(data, now) ==>
              r.0.entries == ApplySet(c.entries, Lower(id), UpdateFields(data, now))
    ensures r.1.Ok? && r.1.value.Some? ==> r.0 != c && r.1 == GetById(r.0, id, decode)
    ensures ParseObjectId(id).Some? && !c.online ==> r == (c, Err(DbError("Failed to update document: ", ConnectionFailure)))
    // an update that modified the store returns the document re-read by its id
    ensures r.0 != c ==> r.1 == Reread(r.0, id, decode)
  {
    var u := UpdateFields(data, now);
    var key := ParseObjectId(id);
    if key.None? then (c, Err(DbError("Failed to update document: ", Other(InvalidIdText(id)))))
    else if !c.online then (c, Err(DbError("Failed to update document: ", ConnectionFailure)))
    else if "_id" in u && FindKey(c.entries, key.value).Some? then (c, Err(DbError("Failed to update document: ", ImmutableId)))
    else WriteSet(c, id, u, decode)
  }

  /** The `$set` of an admitted update and its answer: nothing when no
      document changed, otherwise the document re-read by its id. */
  function WriteSet<T>(c: Collection, id: string, u: map<string, Value>, decode: Doc -> Option<T>): (r: (Collection, Result<Option<T>, Exc>))
    requires c.online && ParseObjectId(id).Some?
    ensures r.0 == c.(entries := ApplySet(c.entries, Lower(id), u))
    ensures r.1 == Ok(None) <==> r.0 == c
    ensures r.0 != c ==> r.1 == Reread(r.0, id, decode)
    ensures r.1.Ok? && r.1.value.Some? ==> r.0 != c && r.1 == GetById(r.0, id, decode)
    ensures r.1.Err? ==> IsA(r.1.error, Database)
  {
    var es := ApplySet(c.entries, Lower(id), u);
    if es == c.entries then (c, Ok(None))
    else
      var c' := c.(entries := es);
      assert FindKey(es, Lower(id)).Some?;
      (c', Reread(c', id, decode))
  }

  /** The document an update returns once it modified the store: the
      document found under `id`, a failure of that lookup wrapped as an
      update failure. */
  function Reread<T>(c: Collection, id: string, decode: Doc -> Option<T>): Result<Option<T>, Exc> {
    var found := GetById(c, id, decode);
    if found.Err? then Err(DbError("Failed to update document: ", found.error)) else found
  }

  /** `d'` is `d` after an update with `data` at time `now`: it carries
      every non-None field of the update and the new `updated_at`, and keeps
      every field the update does not name. */
  predicate UpdatedFrom(d': Doc, d: Doc, data: map<string, Value>, now: int) {
    && "updated_at" in d' && d'["updated_at"] == Date(now)
    && (forall k :: k in data && k != "updated_at" && data[k] != Null ==> k in d' && d'[k] == data[k])
    && (forall k :: k in d && k !in data && k != "updated_at" ==> k in d' && d'[k] == d[k])
  }

  lemma SetFieldsUpdates(d: Doc, data: map<string, Value>, now: int)
    ensures UpdatedFrom(SetFields(d, UpdateFields(data, now)), d, data, now)
  {
    var u := UpdateFields(data, now);
    var d' := SetFields(d, u);
    forall k | k in d && k !in data && k != "updated_at"
      ensures k in d' && d'[k] == d[k]
    {
      assert k !in u;
    }
  }

  /** An update of a stored key on a reachable store, with no `_id` among
      its fields, changes the first document with that key as `UpdatedFrom`
      says and leaves every other document as it was. */
  lemma UpdateEffect<T>(c: Collection, id: string, data: map<string, Value>, now: int, decode: Doc -> Option<T>)
    requires c.online && ParseObjectId(id).Some? && "_id" !in UpdateFields(data, now)
    requires exists i :: 0 <= i < |c.entries| && c.entries[i].oid == Lower(id)
    ensures var c' := Update(c, id, data, now, decode).0;
            && |c'.entries| == |c.entries|
            && exists i :: 0 <= i < |c.entries| && c.entries[i].oid == Lower(id) && c'.entries[i].oid == Lower(id)
                           && UpdatedFrom(c'.entries[i].doc, c.entries[i].doc, data, now)
                           && (forall j :: 0 <= j < |c.entries| && j != i ==> c'.entries[j] == c.entries[j])
  {
    var c' := Update(c, id, data, now, decode).0;
    assert c'.entries == ApplySet(c.entries, Lower(id), UpdateFields(data, now));
    ApplySetUpdates(c.entries, Lower(id), data, now);
  }

  /** The `$set` of an update on a stored key, at the entry level. */
  lemma ApplySetUpdates(es: seq<Entry>, key: string, data: map<string, Value>, now: int)
    requires exists i :: 0 <= i < |es| && es[i].oid == key
    ensures var es' := ApplySet(es, key, UpdateFields(data, now));
            && |es'| == |es|
            && exists i :: 0 <= i < |es| && es[i].oid == key && es'[i].oid == key
                           && UpdatedFrom(es'[i].doc, es[i].doc, data, now)
                           && (forall j :: 0 <= j < |es| && j != i ==> es'[j] == es[j])
  {
    var u := UpdateFields(data, now);
    var es' := ApplySet(es, key, u);
    var i :| 0 <= i < |es| && es[i].oid == key && es'[i].doc == SetFields(es[i].doc, u)
             && forall j :: 0 <= j < |es| && j != i ==> es'[j] == es[j];
    SetFieldsUpdates(es[i].doc, data, now);
    assert es'[i].oid == key;
  }

  /** `delete`: removes the document with that key; true iff one existed. */
  function Delete(c: Collection, id: string): (r: (Collection, Result<bool, Exc>))
    ensures ParseObjectId(id).None? ==> r == (c, Err(DbError("Failed to delete document: ", Other(InvalidIdText(id)))))
    ensures ParseObjectId(id).Some? && !c.online ==> r == (c, Err(DbError("Failed to delete document: ", ConnectionFailure)))
    ensures r.1.Ok? ==> (r.1.value <==> exists i :: 0 <= i < |c.entries| && c.entries[i].oid == Lower(id))
    ensures r.1.Ok? && !r.1.value ==> r.0 == c
    ensures r.1.Ok? && r.1.value ==>
              exists i :: 0 <= i < |c.entries| && c.entries[i].oid == Lower(id)
                          && r.0 == c.(entries := c.entries[..i] + c.entries[i + 1..])
    ensures r.1.Err? ==> IsA(r.1.error, Database) && r.0 == c
  {
    var key := ParseObjectId(id);
    if key.None? then (c, Err(DbError("Failed to delete document: ", Other(InvalidIdText(id)))))
    else if !c.online then (c, Err(DbError("Failed to delete document: ", ConnectionFailure)))
    else
      var at := FindKey(c.entries, key.value);
      if at.None? then (c, Ok(false))
      else (c.(entries := c.entries[..at.value] + c.entries[at.value + 1..]), Ok(true))
  }

  /** Deleting a key from a collection with unique keys leaves no document
      with that key. */
  lemma DeleteRemovesKey(c: Collection, id: string)
    requires UniqueKeys(c)
    requires Delete(c, id).1 == Ok(true)
    ensures forall e :: e in Delete(c, id).0.entries ==> e.oid != Lower(id)
    ensures |Delete(c, id).0.entries| == |c.entries| - 1
  {
    var at := FindKey(c.entries, Lower(id)).value;
    var es := c.entries;
    var rest := es[..at] + es[at + 1..];
    assert Delete(c, id).0.entries == rest;
    forall j | 0 <= j < |rest|
      ensures rest[j].oid != Lower(id)
    {
      if j < at { assert rest[j] == es[j]; } else { assert rest[j] == es[j + 1]; }
    }
  }

  /** `count`. */
  function Count(c: Collection, f: Filter): (r: Result<nat, Exc>)
    ensures !c.online ==> r == Err(DbError("Failed to count documents: ", ConnectionFailure))
    ensures c.online ==> r == Ok(|Select(c.entries, f)|)
    ensures r.Err? ==> IsA(r.error, Database)
  {
    if !c.online then Err(DbError("Failed to count documents: ", ConnectionFailure))
    else Ok(|Select(c.entries, f)|)
  }

  /** `exists`: a count capped at one, compared with zero. */
  function Exists(c: Collection, f: Filter): (r: Result<bool, Exc>)
    ensures r.Err? ==> IsA(r.error, Database)
  {
    if !c.online then Err(DbError("Failed to check document existence: ", ConnectionFailure))
    else
      var capped := if |Select(c.entries, f)| > 0 then 1 else 0;
      Ok(capped > 0)
  }

  /** `exists(f)` holds iff `count(f) > 0`; both fail exactly when the store
      is unreachable. */
  lemma ExistsIffCountPositive(c: Collection, f: Filter)
    ensures Exists(c, f).Ok? <==> Count(c, f).Ok?
    ensures Exists(c, f).Ok? ==> (Exists(c, f).value <==> Count(c, f).value > 0)
  {
  }

  /** `exists(f)` holds iff some document matches. */
  lemma ExistsIffMatch(c: Collection, f: Filter)
    requires c.online
    ensures Exists(c, f) == Ok(exists i :: 0 <= i < |c.entries| && Matches(c.entries[i].doc, f))
  {
    var sel := Select(c.entries, f);
    if |sel| > 0 {
      assert sel[0] in c.entries;
    } else {
      forall i | 0 <= i < |c.entries|
        ensures !Matches(c.entries[i].doc, f)
      {
        assert c.entries[i] in c.entries;
      }
    }
  }

  // ---------------------------------------------------------------------
  // Raw collection calls used by the specialised repositories; their
  // driver errors are not wrapped.
  // ---------------------------------------------------------------------

  /** The values `field` takes in the documents that have it, each once, in
      order of first appearance. */
  function DistinctValues(es: seq<Entry>, field: string): (r: seq<Value>)
    ensures forall i, j :: 0 <= i < j < |r| ==> r[i] != r[j]
    ensures forall v :: v in r <==> exists i :: 0 <= i < |es| && field in es[i].doc && es[i].doc[field] == v
  {
    if |es| == 0 then []
    else
      var last := es[|es| - 1];
      var r := DistinctValues(es[..|es| - 1], field);
      assert forall i :: 0 <= i < |es| - 1 ==> es[..|es| - 1][i] == es[i];
      if field in last.doc && last.doc[field] !in r then r + [last.doc[field]] else r
  }

  /** `distinct(field)`. */
  function Distinct(c: Collection, field: string): (r: Result<seq<Value>, Exc>)
    ensures !c.online ==> r == Err(ConnectionFailure)
    ensures c.online ==> r == Ok(DistinctValues(c.entries, field))
  {
    if !c.online then Err(ConnectionFailure) else Ok(DistinctValues(c.entries, field))
  }

  /** `delete_many(f)`: removes every matching document and reports how
      many. */
  function DeleteMany(c: Collection, f: Filter): (r: (Collection, Result<nat, Exc>))
    ensures !c.online ==> r == (c, Err(ConnectionFailure))
    ensures c.online ==> r.0 == c.(entries := Reject(c.entries, f))
    ensures c.online ==> r.1 == Ok(|Select(c.entries, f)|)
  {
    SelectRejectPartition(c.entries, f);
    if !c.online then (c, Err(ConnectionFailure))
    else (c.(entries := Reject(c.entries, f)), Ok(|c.entries| - |Reject(c.entries, f)|))
  }

  /** The entries not matching a filter, in natural order. */
  function Reject(es: seq<Entry>, f: Filter): (r: seq<Entry>)
    ensures |r| <= |es|
    ensures forall i :: 0 <= i < |r| ==> !Matches(r[i].doc, f) && r[i] in es
    ensures forall e :: e in es && !Matches(e.doc, f) ==> e in r
  {
    if |es| == 0 then []
    else
      var rest := Reject(es[1..], f);
      assert forall e :: e in es[1..] ==> e in es;
      if Matches(es[0].doc, f) then rest else [es[0]] + rest
  }

  /** Selecting and rejecting split a collection: the removed count is the
      number of matches. */
  lemma {:induction false} SelectRejectPartition(es: seq<Entry>, f: Filter)
    ensures |Select(es, f)| + |Reject(es, f)| == |es|
  {
    if |es| > 0 {
      SelectRejectPartition(es[1..], f);
    }
  }
}

=== FILE: settings.dfy ===
/** Application settings: the allowed CORS origins. */
module Settings {
  import opened Text

  const DefaultCorsOrigins := "*"

  /** `cors_origins_list`: `*` stands for every origin; otherwise the
      setting is a comma-separated list whose entries are stripped of
      surrounding whitespace. */
  function CorsOriginsList(origins: string): (r: seq<string>)
    ensures origins == "*" ==> r == ["*"]
    ensures origins != "*" ==> |r| == |Split(origins, ',')| == Count(origins, ',') + 1
    ensures origins != "*" ==> forall i :: 0 <= i < |r| ==> r[i] == Trim(Split(origins, ',')[i])
    ensures forall i :: 0 <= i < |r| ==> ',' !in r[i]
    ensures forall i :: 0 <= i < |r| ==> |r[i]| > 0 ==> !IsPySpace(r[i][0]) && !IsPySpace(r[i][|r[i]| - 1])
  {
    if origins == "*" then ["*"]
    else
      var parts := Split(origins, ',');
      SplitCount(origins, ',');
      SplitSegmentsClean(origins, ',');
      seq(|parts|, i requires 0 <= i < |parts| => Trim(parts[i]))
  }

  /** The default setting allows every origin. */
  lemma DefaultAllowsAll()
    ensures CorsOriginsList(DefaultCorsOrigins) == ["*"]
  {
  }

  /** A list written without whitespace around its entries is read back
      entry for entry: joining the entries with commas gives the setting. */
  lemma CorsOriginsRoundTrip(origins: string)
    requires origins != "*"
    requires forall i :: 0 <= i < |Split(origins, ',')| ==>
               var p := Split(origins, ',')[i]; |p| > 0 ==> !IsPySpace(p[0]) && !IsPySpace(p[|p| - 1])
    ensures Join(CorsOriginsList(origins), ',') == origins
  {
    var parts := Split(origins, ',');
    var r := CorsOriginsList(origins);
    assert |r| == |parts|;
    forall i | 0 <= i < |parts| ensures r[i] == parts[i] {
      var p := parts[i];
      assert |p| > 0 ==> !IsPySpace(p[0]) && !IsPySpace(p[|p| - 1]);
      StripUntouched(p, IsPySpace);
      assert r[i] == Trim(p);
    }
    assert r == parts;
    SplitJoin(origins, ',');
  }
}

=== FILE: status_models.dfy ===
/** Status-check and health-check models. */
module StatusModels {
  import opened Wrappers
  import opened Documents
  import opened ProjectModels

  /** The request body for a new status check. */
  datatype StatusCheckCreate = StatusCheckCreate(clientName: string, metadata: Option<map<string, Value>>)

  const MaxClientNameLength := 100

  /** Schema validation of a status-check request: the client name must
      have 1..100 characters; absent metadata defaults to an empty map. */
  function ParseStatusCheckCreate(clientName: string, metadata: Option<Option<map<string, Value>>>): (r: Option<StatusCheckCreate>)
    ensures r.Some? <==> 1 <= |clientName| <= MaxClientNameLength
    ensures r.Some? ==> r.value.clientName == clientName
    ensures r.Some? && metadata.None? ==> r.value.metadata == Some(map[])
    ensures r.Some? && metadata.Some? ==> r.value.metadata == metadata.value
  {
    if 1 <= |clientName| <= MaxClientNameLength then
      Some(StatusCheckCreate(clientName, metadata.GetOr(Some(map[]))))
    else None
  }

  datatype StatusCheck = StatusCheck(
    id: string,
    createdAt: int,
    updatedAt: Option<int>,
    clientName: string,
    metadata: Option<map<string, Value>>)

  /** `status_check.dict()`. */
  function StatusCheckToDoc(s: StatusCheck): Doc {
    map[
      "id" := Str(s.id),
      "created_at" := Date(s.createdAt),
      "updated_at" := OptionalTime(s.updatedAt),
      "client_name" := Str(s.clientName),
      "metadata" := OptionalObject(s.metadata)]
  }

  /** `StatusCheck(**document)`. */
  function StatusCheckFromDoc(d: Doc): (r: Option<StatusCheck>)
    ensures r.Some? ==> StrField(d, "client_name") && r.value.clientName == d["client_name"].s
    ensures r.Some? ==> "created_at" in d && d["created_at"] == Date(r.value.createdAt)
  {
    if !(StrField(d, "id") && "created_at" in d && d["created_at"].Date? && StrField(d, "client_name")) then None
    else if "updated_at" in d && !(d["updated_at"].Date? || d["updated_at"].Null?) then None
    else if "metadata" in d && !(d["metadata"].Object? || d["metadata"].Null?) then None
    else
      var updated := if "updated_at" in d && d["updated_at"].Date? then Some(d["updated_at"].t) else None;
      var metadata :=
        if "metadata" !in d then Some(map[])
        else if d["metadata"].Object? then Some(d["metadata"].fields)
        else None;
      Some(StatusCheck(d["id"].s, d["created_at"].t, updated, d["client_name"].s, metadata))
  }

  /** Reading back a written status check gives the same check, under the
      id the read assigns. */
  lemma StatusCheckDocRoundTrip(s: StatusCheck, id: string)
    ensures StatusCheckFromDoc(StatusCheckToDoc(s)) == Some(s)
    ensures StatusCheckFromDoc(StatusCheckToDoc(s)["id" := Str(id)]) == Some(s.(id := id))
  {
  }

  /** The health-check response; `uptime` is not modelled. */
  datatype HealthCheck = HealthCheck(
    status: string,
    timestamp: int,
    version: string,
    services: map<string, string>,
    database: string,
    githubApi: string)
}

=== FILE: status_repository.dfy ===
/** The status-check repository: the generic repository over the
    `status_checks` collection with `StatusCheck` as its model, plus
    time-window queries, cleanup and per-client statistics. */
module StatusRepository {
  import opened Wrappers
  import opened Documents
  import opened Exceptions
  import opened StatusModels
  import opened Repository

  /** `get_recent_checks`: the first `limit` checks in natural order (all
      of them for a limit of 0, `|limit|` for a negative one). */
  function GetRecentChecks(c: Collection, limit: int := 100): (r: Result<seq<StatusCheck>, Exc>)
    ensures r.Ok? ==> |r.value| == if limit == 0 || |c.entries| <= Abs(limit) then |c.entries| else Abs(limit)
    ensures r.Ok? ==> forall i :: 0 <= i < |r.value| ==>
              i < |c.entries| && StatusCheckFromDoc(ReadDoc(c.entries[i])) == Some(r.value[i])
    ensures !c.online ==> r == Err(DbError("Failed to get documents: ", ConnectionFailure))
    ensures c.online && AllDecode(c.entries, StatusCheckFromDoc) ==> r.Ok?
    ensures r.Err? ==> IsA(r.error, Database)
  {
    SelectAll(c.entries);
    GetAll(c, 0, limit, [], StatusCheckFromDoc)
  }

  /** `get_by_client`: the first 100 checks of that client, in natural
      order. */
  function GetByClient(c: Collection, clientName: string): (r: Result<seq<StatusCheck>, Exc>)
    ensures r.Ok? ==> |r.value| == (var n := |Select(c.entries, [Eq("client_name", Str(clientName))])|; if n < 100 then n else 100)
    ensures r.Ok? ==> forall i :: 0 <= i < |r.value| ==> r.value[i].clientName == clientName
    ensures r.Ok? ==> forall i :: 0 <= i < |r.value| ==>
              StatusCheckFromDoc(ReadDoc(Select(c.entries, [Eq("client_name", Str(clientName))])[i])) == Some(r.value[i])
    ensures !c.online ==> r == Err(DbError("Failed to get documents: ", ConnectionFailure))
    ensures c.online && AllDecode(Select(c.entries, [Eq("client_name", Str(clientName))]), StatusCheckFromDoc) ==> r.Ok?
    ensures r.Err? ==> IsA(r.error, Database)
  {
    var f := [Eq("client_name", Str(clientName))];
    FirstPage(Select(c.entries, f), DefaultLimit, StatusCheckFromDoc);
    var r := GetAll(c, 0, DefaultLimit, f, StatusCheckFromDoc);
    if r.Ok? then
      var sel := Select(c.entries, f);
      assert forall i :: 0 <= i < |r.value| ==> Holds(sel[i].doc, f[0]) && ReadDoc(sel[i])["client_name"] == Str(clientName);
      r
    else r
  }

  /** `get_checks_since`: the first 100 checks created at or after
      `since`, in natural order. */
  function GetChecksSince(c: Collection, since: int): (r: Result<seq<StatusCheck>, Exc>)
    ensures r.Ok? ==> |r.value| == (var n := |Select(c.entries, [Gte("created_at", since)])|; if n < 100 then n else 100)
    ensures r.Ok? ==> forall i :: 0 <= i < |r.value| ==> r.value[i].createdAt >= since
    ensures r.Ok? ==> forall i :: 0 <= i < |r.value| ==>
              StatusCheckFromDoc(ReadDoc(Select(c.entries, [Gte("created_at", since)])[i])) == Some(r.value[i])
    ensures !c.online ==> r == Err(DbError("Failed to get documents: ", ConnectionFailure))
    ensures c.online && AllDecode(Select(c.entries, [Gte("created_at", since)]), StatusCheckFromDoc) ==> r.Ok?
    ensures r.Err? ==> IsA(r.error, Database)
  {
    var f := [Gte("created_at", since)];
    FirstPage(Select(c.entries, f), DefaultLimit, StatusCheckFromDoc);
    var r := GetAll(c, 0, DefaultLimit, f, StatusCheckFromDoc);
    if r.Ok? then
      var sel := Select(c.entries, f);
      assert forall i :: 0 <= i < |r.value| ==> Holds(sel[i].doc, f[0]) && ReadDoc(sel[i])["created_at"] == sel[i].doc["created_at"];
      r
    else r
  }

  // ---------------------------------------------------------------------
  // Cleanup.
  // ---------------------------------------------------------------------

  const MicrosPerDay := 86_400_000_000

  /** A check created strictly before the cutoff. */
  predicate CreatedBefore(e: Entry, cutoff: int) {
    Holds(e.doc, Lt("created_at", cutoff))
  }

  /** `cleanup_old_checks`: every check created before `now - days` is
      removed, the others are kept in order, and the number removed is
      returned. Driver errors are not wrapped. */
  function CleanupOldChecks(c: Collection, now: int, days: int := 30): (r: (Collection, Result<nat, Exc>))
    ensures !c.online ==> r == (c, Err(ConnectionFailure))
    ensures c.online ==> r.1.Ok? && r.0.online
    ensures c.online ==> forall e :: e in r.0.entries <==> e in c.entries && !CreatedBefore(e, now - days * MicrosPerDay)
    ensures c.online ==> r.1.value == |c.entries| - |r.0.entries|
    ensures c.online ==> r.1.value == |Select(c.entries, [Lt("created_at", now - days * MicrosPerDay)])|
  {
    var f := [Lt("created_at", now - days * MicrosPerDay)];
    var r := DeleteMany(c, f);
    if c.online then
      SelectRejectPartition(c.entries, f);
      assert forall e: Entry :: Matches(e.doc, f) <==> Holds(e.doc, f[0]);
      r
    else r
  }

  // ---------------------------------------------------------------------
  // Per-client statistics: group by client name, count, latest creation
  // time, then sort by count (descending).
  // ---------------------------------------------------------------------

  datatype ClientStat = ClientStat(clientName: Value, checkCount: nat, lastCheck: Value)

  datatype ClientStats = ClientStats(totalClients: nat, clients: seq<ClientStat>)

  /** The grouping key: a missing client name groups with null. */
  function ClientOf(e: Entry): Value { FieldOf(e.doc, "client_name") }

  function CreatedOf(e: Entry): Value { FieldOf(e.doc, "created_at") }

  /** `$max` restricted to dates: a date beats null and any earlier date. */
  function Later(a: Value, b: Value): (r: Value)
    ensures r == a || r == b
    ensures a.Date? || b.Date? ==> r.Date?
    ensures r.Date? && a.Date? ==> r.t >= a.t
    ensures r.Date? && b.Date? ==> r.t >= b.t
  {
    if b.Date? && (!a.Date? || b.t > a.t) then b else a
  }

  /** Reference definitions: the number of checks of a client and the
      latest date among their creation times (null if none). */
  function CheckCount(es: seq<Entry>, name: Value): nat {
    if |es| == 0 then 0
    else CheckCount(es[..|es| - 1], name) + (if ClientOf(es[|es| - 1]) == name then 1 else 0)
  }

  function LastCheck(es: seq<Entry>, name: Value): Value {
    if |es| == 0 then Null
    else if ClientOf(es[|es| - 1]) == name then Later(LastCheck(es[..|es| - 1], name), CreatedOf(es[|es| - 1]))
    else LastCheck(es[..|es| - 1], name)
  }

  /** A client with no checks has a count of zero and no last check. */
  lemma {:induction false} NoChecks(es: seq<Entry>, name: Value)
    requires forall i :: 0 <= i < |es| ==> ClientOf(es[i]) != name
    ensures CheckCount(es, name) == 0 && LastCheck(es, name) == Null
  {
    if |es| > 0 {
      var p := es[..|es| - 1];
      assert forall i :: 0 <= i < |p| ==> p[i] == es[i];
      NoChecks(p, name);
    }
  }

  predicate NamesDistinct(gs: seq<ClientStat>) {
    forall i, j :: 0 <= i < j < |gs| ==> gs[i].clientName != gs[j].clientName
  }

  /** `gs` is the grouping of `es`: one group per client, each with that
      client's count and last check. */
  predicate GroupsOf(gs: seq<ClientStat>, es: seq<Entry>) {
    && NamesDistinct(gs)
    && (forall i :: 0 <= i < |gs| ==>
          gs[i].checkCount == CheckCount(es, gs[i].clientName) > 0
          && gs[i].lastCheck == LastCheck(es, gs[i].clientName))
    && (forall i :: 0 <= i < |es| ==> exists j :: 0 <= j < |gs| && gs[j].clientName == ClientOf(es[i]))
  }

  function FindClient(gs: seq<ClientStat>, name: Value): (r: Option<nat>)
    ensures r.None? <==> forall i :: 0 <= i < |gs| ==> gs[i].clientName != name
    ensures r.Some? ==> r.value < |gs| && gs[r.value].clientName == name
  {
    if |gs| == 0 then None
    else if gs[0].clientName == name then Some(0)
    else
      var r := FindClient(gs[1..], name);
      if r.None? then None else Some(r.value + 1)
  }

  /** Adding one more check to a grouping. */
  function Record(gs: seq<ClientStat>, es: seq<Entry>, e: Entry): (r: seq<ClientStat>)
    requires GroupsOf(gs, es)
    ensures GroupsOf(r, es + [e])
  {
    var es' := es + [e];
    assert es'[..|es'| - 1] == es;
    var at := FindClient(gs, ClientOf(e));
    if at.Some? then
      var g := gs[at.value];
      var r := gs[at.value := ClientStat(g.clientName, g.checkCount + 1, Later(g.lastCheck, CreatedOf(e)))];
      assert forall i :: 0 <= i < |r| ==> r[i].clientName == gs[i].clientName;
      assert NamesDistinct(r);
      forall i | 0 <= i < |r|
        ensures r[i].checkCount == CheckCount(es', r[i].clientName) > 0
        ensures r[i].lastCheck == LastCheck(es', r[i].clientName)
      {
        if i != at.value {
          assert r[i] == gs[i];
          assert gs[i].clientName != ClientOf(e);
        }
      }
      forall i | 0 <= i < |es'|
        ensures exists j :: 0 <= j < |r| && r[j].clientName == ClientOf(es'[i])
      {
        if i < |es| {
          assert es'[i] == es[i];
          var j :| 0 <= j < |gs| && gs[j].clientName == ClientOf(es[i]);
          assert r[j].clientName == gs[j].clientName;
        } else {
          assert r[at.value].clientName == ClientOf(es'[i]);
        }
      }
      r
    else
      forall i | 0 <= i < |es|
        ensures ClientOf(es[i]) != ClientOf(e)
      {
        var j :| 0 <= j < |gs| && gs[j].clientName == ClientOf(es[i]);
      }
      NoChecks(es, ClientOf(e));
      var r := gs + [ClientStat(ClientOf(e), 1, Later(Null, CreatedOf(e)))];
      assert forall i :: 0 <= i < |gs| ==> r[i] == gs[i];
      forall i | 0 <= i < |gs|
        ensures r[i].checkCount == CheckCount(es', r[i].clientName)
        ensures r[i].lastCheck == LastCheck(es', r[i].clientName)
      {
        assert gs[i].clientName != ClientOf(e);
      }
      forall i | 0 <= i < |es'|
        ensures exists j :: 0 <= j < |r| && r[j].clientName == ClientOf(es'[i])
      {
        if i < |es| {
          assert es'[i] == es[i];
          var j :| 0 <= j < |gs| && gs[j].clientName == ClientOf(es[i]);
          assert r[j].clientName == gs[j].clientName;
        } else {
          assert r[|gs|].clientName == ClientOf(es'[i]);
        }
      }
      r
  }

  /** The `$group` stage, groups in order of first appearance. */
  function Group(es: seq<Entry>): (gs: seq<ClientStat>)
    ensures GroupsOf(gs, es)
  {
    if |es| == 0 then []
    else
      var p := es[..|es| - 1];
      assert p + [es[|es| - 1]] == es;
      Record(Group(p), p, es[|es| - 1])
  }

  predicate SortedByCount(gs: seq<ClientStat>) {
    forall i, j :: 0 <= i < j < |gs| ==> gs[i].checkCount >= gs[j].checkCount
  }

  /** Inserting into a list sorted by count, before the first entry with a
      count not above the new one. */
  function Insert(x: ClientStat, s: seq<ClientStat>): (r: seq<ClientStat>)
    ensures |r| == |s| + 1
    ensures multiset(r) == multiset(s) + multiset{x}
    ensures forall i :: 0 <= i < |r| ==> r[i] == x || exists j :: 0 <= j < |s| && r[i] == s[j]
  {
    if |s| == 0 then [x]
    else if x.checkCount >= s[0].checkCount then
      assert forall i :: 1 <= i < |s| + 1 ==> ([x] + s)[i] == s[i - 1];
      [x] + s
    else
      assert s == [s[0]] + s[1..];
      var rest := Insert(x, s[1..]);
      assert forall j :: 0 <= j < |s| - 1 ==> s[1..][j] == s[j + 1];
      [s[0]] + rest
  }

  lemma {:induction false} InsertSorted(x: ClientStat, s: seq<ClientStat>)
    requires SortedByCount(s)
    ensures SortedByCount(Insert(x, s))
  {
    var r := Insert(x, s);
    if |s| == 0 {
    } else if x.checkCount >= s[0].checkCount {
      assert r == [x] + s;
      forall a, b | 0 <= a < b < |r| ensures r[a].checkCount >= r[b].checkCount {
        assert r[b] == s[b - 1];
        if a > 0 { assert r[a] == s[a - 1]; }
      }
    } else {
      var rest := Insert(x, s[1..]);
      InsertSorted(x, s[1..]);
      assert r == [s[0]] + rest;
      forall k | 0 <= k < |rest|
        ensures s[0].checkCount >= rest[k].checkCount
      {
        if rest[k] != x {
          var j :| 0 <= j < |s| - 1 && rest[k] == s[1..][j];
          assert rest[k] == s[j + 1];
        }
      }
      forall a, b | 0 <= a < b < |r| ensures r[a].checkCount >= r[b].checkCount {
        assert r[b] == rest[b - 1];
        if a > 0 { assert r[a] == rest[a - 1]; }
      }
    }
  }

  lemma {:induction false} InsertDistinct(x: ClientStat, s: seq<ClientStat>)
    requires NamesDistinct(s)
    requires forall i :: 0 <= i < |s| ==> s[i].clientName != x.clientName
    ensures NamesDistinct(Insert(x, s))
  {
    var r := Insert(x, s);
    if |s| == 0 {
    } else if x.checkCount >= s[0].checkCount {
      assert r == [x] + s;
      forall a, b | 0 <= a < b < |r| ensures r[a].clientName != r[b].clientName {
        assert r[b] == s[b - 1];
        if a > 0 { assert r[a] == s[a - 1]; }
      }
    } else {
      var rest := Insert(x, s[1..]);
      InsertDistinct(x, s[1..]);
      assert r == [s[0]] + rest;
      forall k | 0 <= k < |rest|
        ensures s[0].clientName != rest[k].clientName
      {
        if rest[k] != x {
          var j :| 0 <= j < |s| - 1 && rest[k] == s[1..][j];
          assert rest[k] == s[j + 1];
        }
      }
      forall a, b | 0 <= a < b < |r| ensures r[a].clientName != r[b].clientName {
        assert r[b] == rest[b - 1];
        if a > 0 { assert r[a] == rest[a - 1]; }
      }
    }
  }

  /** The `$sort` stage: by count, descending (ties keep grouping order). */
  function SortByCount(gs: seq<ClientStat>): (r: seq<ClientStat>)
    ensures SortedByCount(r)
    ensures multiset(r) == multiset(gs)
  {
    if |gs| == 0 then []
    else
      assert gs == [gs[0]] + gs[1..];
      var rest := SortByCount(gs[1..]);
      InsertSorted(gs[0], rest);
      Insert(gs[0], rest)
  }

  /** Sorting keeps client names distinct. */
  lemma {:induction false} SortKeepsNamesDistinct(gs: seq<ClientStat>)
    requires NamesDistinct(gs)
    ensures NamesDistinct(SortByCount(gs))
  {
    if |gs| > 0 {
      assert gs == [gs[0]] + gs[1..];
      var rest := SortByCount(gs[1..]);
      SortKeepsNamesDistinct(gs[1..]);
      forall k | 0 <= k < |rest|
        ensures rest[k].clientName != gs[0].clientName
      {
        assert rest[k] in multiset(rest);
        assert rest[k] in gs[1..];
      }
      InsertDistinct(gs[0], rest);
    }
  }

  /** `get_client_stats`: one entry per distinct client name, each with its
      check count and latest check, sorted by count, non-increasing;
      `total_clients` is the number of entries. Driver errors are not
      wrapped. */
  function GetClientStats(c: Collection): (r: Result<ClientStats, Exc>)
    ensures !c.online ==> r == Err(ConnectionFailure)
    ensures c.online ==> r.Ok?
    ensures r.Ok? ==>
              var cs := r.value.clients;
              && r.value.totalClients == |cs|
              && SortedByCount(cs)
              && NamesDistinct(cs)
              && (forall i :: 0 <= i < |cs| ==>
                    cs[i].checkCount == CheckCount(c.entries, cs[i].clientName) > 0
                    && cs[i].lastCheck == LastCheck(c.entries, cs[i].clientName))
              && (forall i :: 0 <= i < |c.entries| ==> exists j :: 0 <= j < |cs| && cs[j].clientName == ClientOf(c.entries[i]))
  {
    if !c.online then Err(ConnectionFailure)
    else
      var gs := Group(c.entries);
      var cs := SortByCount(gs);
      SortKeepsNamesDistinct(gs);
      ReorderedGroups(gs, cs, c.entries);
      Ok(ClientStats(|cs|, cs))
  }

  /** Reordering the groups of `es` without merging names keeps them the
      groups of `es`. */
  lemma ReorderedGroups(gs: seq<ClientStat>, cs: seq<ClientStat>, es: seq<Entry>)
    requires GroupsOf(gs, es) && multiset(cs) == multiset(gs) && NamesDistinct(cs)
    ensures GroupsOf(cs, es)
  {
    forall i | 0 <= i < |cs|
      ensures cs[i].checkCount == CheckCount(es, cs[i].clientName) > 0
      ensures cs[i].lastCheck == LastCheck(es, cs[i].clientName)
    {
      assert cs[i] in multiset(gs);
      var j :| 0 <= j < |gs| && gs[j] == cs[i];
    }
    forall i | 0 <= i < |es|
      ensures exists j :: 0 <= j < |cs| && cs[j].clientName == ClientOf(es[i])
    {
      var j :| 0 <= j < |gs| && gs[j].clientName == ClientOf(es[i]);
      assert gs[j] in multiset(cs);
      var k :| 0 <= k < |cs| && cs[k] == gs[j];
    }
  }
}

=== FILE: status_router.dfy ===
/** The `/status` endpoints: the health check, status-check records and
    their statistics and cleanup. */
module StatusRouter {
  import opened Wrappers
  import opened Documents
  import opened Exceptions
  import opened StatusModels
  import opened Repository
  import opened StatusRepository
  import opened GitHubService
  import opened Http
  import Text

  const Version := "1.0.0"
  const Connected := "connected"
  const Disconnected := "disconnected"

  /** `GET /status/health`: the database is connected iff its ping answers
      (`databaseUp`), the hosting service iff the connection test passes;
      the application is healthy iff both are connected. The services map
      repeats the two statuses. */
  function HealthEndpoint(databaseUp: bool, g: Gateway, now: int): (r: (Gateway, HealthCheck))
    ensures r.1.database == (if databaseUp then Connected else Disconnected)
    ensures r.1.githubApi == Connected <==> g.hub.outage.None? || g.hub.outage == Some(404)
    ensures r.1.githubApi == Connected || r.1.githubApi == Disconnected
    ensures r.1.status == "healthy" <==> r.1.database == Connected && r.1.githubApi == Connected
    ensures r.1.status == "healthy" || r.1.status == "unhealthy"
    ensures r.1.services == map["database" := r.1.database, "github_api" := r.1.githubApi]
    ensures r.1.version == Version && r.1.timestamp == now
  {
    var dbStatus := if databaseUp then Connected else Disconnected;
    var (g', up) := TestConnection(g);
    var githubStatus := if up then Connected else Disconnected;
    var status := if dbStatus == Connected && githubStatus == Connected then "healthy" else "unhealthy";
    (g', HealthCheck(status, now, Version, map["database" := dbStatus, "github_api" := githubStatus], dbStatus, githubStatus))
  }

  /** `POST /status/check`: the request body must satisfy the schema (422);
      the new check is stored under key `oid` with uuid `id` and creation
      time `now`, and answered with 201, under the store key as its id (the
      repository's `create` as evidently intended); any failure answers
      500. */
  function CreateCheckEndpoint(c: Collection, clientName: string, metadata: Option<Option<map<string, Value>>>,
                               id: string, oid: string, now: int): (r: (Collection, Reply<StatusCheck>))
    ensures ParseStatusCheckCreate(clientName, metadata).None? ==> r == (c, Invalid(["client_name"]))
    ensures r.1.Reply? <==>
              && ParseStatusCheckCreate(clientName, metadata).Some?
              && c.online && forall i :: 0 <= i < |c.entries| ==> c.entries[i].oid != oid
    ensures r.1.Reply? ==>
              var check := StatusCheck(id, now, None, clientName, ParseStatusCheckCreate(clientName, metadata).value.metadata);
              && r.1 == Reply(201, check.(id := oid))
              && r.0.entries == c.entries + [Entry(oid, StatusCheckToDoc(check))]
    ensures r.1.Failure? ==> r.1 == Failure(500, "Failed to create status check") && r.0 == c
  {
    match ParseStatusCheckCreate(clientName, metadata)
    case None => (c, Invalid(["client_name"]))
    case Some(request) =>
      var check := StatusCheck(id, now, None, request.clientName, request.metadata);
      StatusCheckDocRoundTrip(check, oid);
      var (c', created) := CreateStored(c, StatusCheckToDoc(check), oid, StatusCheckFromDoc);
      if created.Err? then (c', Failure(500, "Failed to create status check"))
      else (c', Reply(201, created.value))
  }

  /** `GET /status/checks`. */
  function ChecksEndpoint(c: Collection, limit: int := 100): (r: Reply<seq<StatusCheck>>)
    ensures r.Reply? <==> GetRecentChecks(c, limit).Ok?
    ensures r.Reply? ==> r == Reply(200, GetRecentChecks(c, limit).value)
    ensures r.Reply? ==> |r.body| == if limit == 0 || |c.entries| <= Abs(limit) then |c.entries| else Abs(limit)
    ensures c.online && AllDecode(c.entries, StatusCheckFromDoc) ==> r.Reply?
    ensures r.Failure? ==> r == Failure(500, Message(GetRecentChecks(c, limit).error))
  {
    match GetRecentChecks(c, limit)
    case Err(e) => Fail(e, false, true)
    case Ok(checks) => Reply(200, checks)
  }

  /** `GET /status/checks/client/{name}`: at most 100 checks, all of that
      client. */
  function ClientChecksEndpoint(c: Collection, clientName: string): (r: Reply<seq<StatusCheck>>)
    ensures r.Reply? <==> GetByClient(c, clientName).Ok?
    ensures r.Reply? ==> r == Reply(200, GetByClient(c, clientName).value)
    ensures r.Reply? ==> |r.body| == (var n := |Select(c.entries, [Eq("client_name", Str(clientName))])|; if n < 100 then n else 100)
    ensures r.Reply? ==> forall i :: 0 <= i < |r.body| ==> r.body[i].clientName == clientName
    ensures c.online && AllDecode(Select(c.entries, [Eq("client_name", Str(clientName))]), StatusCheckFromDoc) ==> r.Reply?
    ensures r.Failure? ==> r == Failure(500, Message(GetByClient(c, clientName).error))
  {
    match GetByClient(c, clientName)
    case Err(e) => Fail(e, false, true)
    case Ok(checks) => Reply(200, checks)
  }

  /** `GET /status/stats/clients`: the repository raises the driver's error
      unwrapped, which is not a database error, so a failure answers 500
      with the generic detail. */
  function ClientStatsEndpoint(c: Collection): (r: Reply<ClientStats>)
    ensures r.Reply? <==> c.online
    ensures r.Reply? ==> r == Reply(200, GetClientStats(c).value)
    ensures r.Reply? ==> r.body.totalClients == |r.body.clients| && SortedByCount(r.body.clients)
    // every client with a check is listed once, with its count and latest check
    ensures r.Reply? ==>
              && NamesDistinct(r.body.clients)
              && (forall i :: 0 <= i < |r.body.clients| ==>
                    r.body.clients[i].checkCount == CheckCount(c.entries, r.body.clients[i].clientName) > 0
                    && r.body.clients[i].lastCheck == LastCheck(c.entries, r.body.clients[i].clientName))
              && (forall i :: 0 <= i < |c.entries| ==>
                    exists j :: 0 <= j < |r.body.clients| && r.body.clients[j].clientName == ClientOf(c.entries[i]))
    ensures r.Failure? ==> r == Failure(500, InternalServerError)
  {
    match GetClientStats(c)
    case Err(e) => Fail(e, false, true)
    case Ok(stats) => Reply(200, stats)
  }

  datatype Cleanup = Cleanup(message: string, deletedCount: nat)

  function CleanupMessage(count: nat, days: int): string {
    "Cleaned up " + Text.IntToString(count) + " status checks older than " + Text.IntToString(days) + " days"
  }

  /** `DELETE /status/cleanup`: removes the checks created more than `days`
      days before `now` and reports how many. */
  function CleanupEndpoint(c: Collection, now: int, days: int := 30): (r: (Collection, Reply<Cleanup>))
    ensures r.1.Reply? <==> c.online
    ensures r.1.Reply? ==>
              && r.1.status == 200
              && r.1.body.deletedCount == |c.entries| - |r.0.entries|
              && r.1.body.message == CleanupMessage(r.1.body.deletedCount, days)
              && forall e :: e in r.0.entries <==> e in c.entries && !CreatedBefore(e, now - days * MicrosPerDay)
    ensures r.1.Failure? ==> r == (c, Failure(500, InternalServerError))
  {
    var (c', removed) := CleanupOldChecks(c, now, days);
    match removed
    case Err(e) => (c', Fail(e, false, true))
    case Ok(n) => (c', Reply(200, Cleanup(CleanupMessage(n, days), n)))
  }
}

=== FILE: templates.dfy ===
/** Template models, and the template service as an abstract collaborator:
    its implementation is not part of this model, so each of its operations
    is a function supplied by the caller. */
module Templates {
  import opened Wrappers
  import opened Dicts
  import opened Exceptions

  datatype Template = Template(
    id: string,
    name: string,
    description: string,
    language: string,
    kind: string,                         // the `type` field
    files: Dict<string, string>,          // path -> content, in insertion order
    variables: Option<map<string, string>>,
    dependencies: Option<seq<string>>,
    setupInstructions: Option<string>)

  datatype TemplateInfo = TemplateInfo(
    id: string, name: string, description: string, language: string, kind: string,
    tags: Option<seq<string>>, complexity: string, estimatedTime: Option<string>)

  datatype LanguageInfo = LanguageInfo(
    id: string, name: string, description: string, icon: string,
    version: Option<string>, website: Option<string>, documentation: Option<string>)

  /** The template service's operations; each either returns or raises. */
  datatype TemplateService = TemplateService(
    getLanguages: Result<seq<LanguageInfo>, Exc>,
    getTemplatesByLanguage: string -> Result<seq<TemplateInfo>, Exc>,
    getTemplate: (string, string) -> Result<Template, Exc>,
    validateTemplateVariables: (Template, Dict<string, string>) -> Result<(), Exc>,
    processTemplate: (Template, Dict<string, string>) -> Result<Dict<string, string>, Exc>)

  /** The variables a template is rendered with: the project's name and
      description, under these two keys and in this order. */
  function ProjectVariables(name: string, description: string): (vars: Dict<string, string>)
    ensures |vars| == 2 && Keys(vars) == {"project_name", "project_description"}
    ensures Get(vars, "project_name") == Some(name) && Get(vars, "project_description") == Some(description)
  {
    var vars := [("project_name", name), ("project_description", description)];
    assert vars[0].0 in Keys(vars) && vars[1].0 in Keys(vars);
    vars
  }
}

=== FILE: templates_router.dfy ===
/** The `/templates` endpoints: language and template listings, template
    details, and the rendered preview with long files truncated. */
module TemplatesRouter {
  import opened Wrappers
  import opened Dicts
  import opened Exceptions
  import opened Templates
  import opened Http

  datatype LanguageList = LanguageList(languages: seq<LanguageInfo>, total: nat)

  /** `GET /templates/languages`: any failure answers 500. */
  function LanguagesEndpoint(ts: TemplateService): (r: Reply<LanguageList>)
    ensures r.Reply? <==> ts.getLanguages.Ok?
    ensures r.Reply? ==> r.status == 200 && r.body.languages == ts.getLanguages.value && r.body.total == |r.body.languages|
    ensures r.Failure? ==> r == Failure(500, InternalServerError)
  {
    match ts.getLanguages
    case Err(e) => Fail(e, false, false)
    case Ok(languages) => Reply(200, LanguageList(languages, |languages|))
  }

  datatype TemplateList = TemplateList(templates: seq<TemplateInfo>, total: nat, language: string)

  /** `GET /templates/{language}`: a validation error answers 400 with its
      message, any other failure 500. */
  function TemplatesEndpoint(ts: TemplateService, language: string): (r: Reply<TemplateList>)
    ensures r.Reply? <==> ts.getTemplatesByLanguage(language).Ok?
    ensures r.Reply? ==>
              r == Reply(200, TemplateList(ts.getTemplatesByLanguage(language).value,
                                           |ts.getTemplatesByLanguage(language).value|, language))
    ensures r.Failure? ==> (r.status == 400 <==> IsA(ts.getTemplatesByLanguage(language).error, Validation))
    ensures r.Failure? ==> r == Fail(ts.getTemplatesByLanguage(language).error, true, false)
  {
    match ts.getTemplatesByLanguage(language)
    case Err(e) => Fail(e, true, false)
    case Ok(templates) => Reply(200, TemplateList(templates, |templates|, language))
  }

  datatype TemplateDetails = TemplateDetails(
    template: Template,
    variables: Option<map<string, string>>,
    dependencies: Option<seq<string>>,
    setupInstructions: Option<string>,
    fileCount: nat)

  /** `GET /templates/{language}/{id}`: the template with its variables,
      dependencies and setup notes, and the number of its files. */
  function DetailsEndpoint(ts: TemplateService, language: string, id: string): (r: Reply<TemplateDetails>)
    ensures r.Reply? <==> ts.getTemplate(language, id).Ok?
    ensures r.Reply? ==> var t := r.body.template;
              && r.status == 200 && t == ts.getTemplate(language, id).value
              && r.body.fileCount == |t.files| && r.body.variables == t.variables
              && r.body.dependencies == t.dependencies && r.body.setupInstructions == t.setupInstructions
    ensures r.Failure? ==> (r.status == 400 <==> IsA(ts.getTemplate(language, id).error, Validation))
    // a validation error answers 400 with its message, any other 500 with the generic detail
    ensures r.Failure? ==> r == Fail(ts.getTemplate(language, id).error, true, false)
    ensures ts.getTemplate(language, id).Err? ==>
              r == if IsA(ts.getTemplate(language, id).error, Validation)
                   then Failure(400, Message(ts.getTemplate(language, id).error))
                   else Failure(500, InternalServerError)
  {
    match ts.getTemplate(language, id)
    case Err(e) => Fail(e, true, false)
    case Ok(t) => Reply(200, TemplateDetails(t, t.variables, t.dependencies, t.setupInstructions, |t.files|))
  }

  const PreviewLimit := 1000
  const TruncationMarker := "\n... (truncated for preview)"

  /** A file's content as previewed: content over 1000 characters keeps its
      first 1000 and gains a marker. */
  function Truncate(content: string): (r: string)
    ensures |content| <= PreviewLimit ==> r == content
    ensures |content| > PreviewLimit ==> |r| == PreviewLimit + |TruncationMarker| && r[PreviewLimit..] == TruncationMarker
    ensures r[..if |content| <= PreviewLimit then |content| else PreviewLimit] ==
            content[..if |content| <= PreviewLimit then |content| else PreviewLimit]
  {
    if |content| > PreviewLimit then content[..PreviewLimit] + TruncationMarker else content
  }

  /** Content is left alone exactly when it is at most the limit long or
      is itself an already truncated preview. */
  lemma TruncateUnchanged(content: string)
    ensures Truncate(content) == content <==>
              |content| <= PreviewLimit
              || (|content| == PreviewLimit + |TruncationMarker| && content[PreviewLimit..] == TruncationMarker)
  {
    if |content| > PreviewLimit {
      var r := Truncate(content);
      assert r[PreviewLimit..] == TruncationMarker;
      if |content| == PreviewLimit + |TruncationMarker| && content[PreviewLimit..] == TruncationMarker {
        assert content == content[..PreviewLimit] + content[PreviewLimit..];
      }
    }
  }

  /** The preview of every file, in the same order and under the same paths. */
  function PreviewFiles(files: Dict<string, string>): (r: Dict<string, string>)
    ensures |r| == |files|
    ensures forall i :: 0 <= i < |files| ==> r[i] == (files[i].0, Truncate(files[i].1))
    ensures Keys(r) == Keys(files)
  {
    var r := seq(|files|, i requires 0 <= i < |files| => (files[i].0, Truncate(files[i].1)));
    assert forall i :: 0 <= i < |r| ==> r[i].0 == files[i].0;
    assert Keys(r) == Keys(files) by {
      forall k | k in Keys(files) ensures k in Keys(r) {
        var i :| 0 <= i < |files| && files[i].0 == k;
        assert r[i].0 == k;
      }
    }
    r
  }

  datatype Preview = Preview(
    templateId: string,
    templateName: string,
    language: string,
    files: Dict<string, string>,
    totalFiles: nat,
    variablesUsed: Dict<string, string>)

  /** `GET /templates/{language}/{id}/preview`: the template rendered with a
      sample name and description (by default `my-project` and
      `A sample project`), after validating them; `total_files` counts the
      rendered files. */
  function PreviewEndpoint(ts: TemplateService, language: string, id: string,
                           projectName: string := "my-project",
                           projectDescription: string := "A sample project"): (r: Reply<Preview>)
    ensures var t := ts.getTemplate(language, id);
            var vars := ProjectVariables(projectName, projectDescription);
            r.Reply? <==> t.Ok? && ts.validateTemplateVariables(t.value, vars).Ok? && ts.processTemplate(t.value, vars).Ok?
    ensures r.Reply? ==>
              var t := ts.getTemplate(language, id).value;
              var vars := ProjectVariables(projectName, projectDescription);
              var files := ts.processTemplate(t, vars).value;
              && r.status == 200 && r.body.templateId == t.id && r.body.templateName == t.name
              && r.body.language == t.language && r.body.variablesUsed == vars
              && r.body.totalFiles == |files| == |r.body.files|
              && Keys(r.body.files) == Keys(files)
              && forall i :: 0 <= i < |files| ==> r.body.files[i] == (files[i].0, Truncate(files[i].1))
    ensures r.Failure? ==> r.status == 400 || r.detail == InternalServerError
    // a failure answers for the first failing step: lookup, then validation, then processing
    ensures var t := ts.getTemplate(language, id);
            t.Err? ==> r == Fail(t.error, true, false)
    ensures var t := ts.getTemplate(language, id);
            var vars := ProjectVariables(projectName, projectDescription);
            t.Ok? && ts.validateTemplateVariables(t.value, vars).Err? ==>
              r == Fail(ts.validateTemplateVariables(t.value, vars).error, true, false)
    ensures var t := ts.getTemplate(language, id);
            var vars := ProjectVariables(projectName, projectDescription);
            t.Ok? && ts.validateTemplateVariables(t.value, vars).Ok? && ts.processTemplate(t.value, vars).Err? ==>
              r == Fail(ts.processTemplate(t.value, vars).error, true, false)
  {
    match ts.getTemplate(language, id)
    case Err(e) => Fail(e, true, false)
    case Ok(t) =>
      var vars := ProjectVariables(projectName, projectDescription);
      match ts.validateTemplateVariables(t, vars)
      case Err(e) => Fail(e, true, false)
      case Ok(_) =>
        match ts.processTemplate(t, vars)
        case Err(e) => Fail(e, true, false)
        case Ok(files) => Reply(200, Preview(t.id, t.name, t.language, PreviewFiles(files), |files|, vars))
  }
}

=== FILE: text.dfy ===
/** String primitives of Python and JavaScript that the backend and the form
    hook rely on, restricted to ASCII: character classes, case mapping,
    replacement, stripping and splitting. Non-ASCII characters are never
    letters, digits or whitespace here and are left alone by case mapping. */
module Text {

  predicate IsUpper(c: char) { 'A' <= c <= 'Z' }

  predicate IsLowerLetter(c: char) { 'a' <= c <= 'z' }

  predicate IsDigit(c: char) { '0' <= c <= '9' }

  predicate IsLetter(c: char) { IsUpper(c) || IsLowerLetter(c) }

  /** Python's `str.isalnum` on one character, and the regex class `[a-zA-Z0-9]`. */
  predicate IsAlnum(c: char) { IsLetter(c) || IsDigit(c) }

  /** Python's `str.isspace` and the regex class `\s` on ASCII: tab, line
      feed, vertical tab, form feed, carriage return, the four separators
      0x1C-0x1F and space. */
  predicate IsPySpace(c: char) {
    c == ' ' || (9 <= c as int <= 13) || (28 <= c as int <= 31)
  }

  /** JavaScript's `String.prototype.trim` whitespace on ASCII (no 0x1C-0x1F). */
  predicate IsJsSpace(c: char) {
    c == ' ' || (9 <= c as int <= 13)
  }

  /** Python's `str.isalnum` on a whole string: non-empty and alphanumeric throughout. */
  predicate IsAlnumString(s: string) {
    |s| > 0 && forall i :: 0 <= i < |s| ==> IsAlnum(s[i])
  }

  function LowerChar(c: char): (r: char)
    ensures !IsUpper(r)
    ensures IsAlnum(r) <==> IsAlnum(c)
    ensures IsUpper(c) || r == c
  {
    if IsUpper(c) then (c as int + 32) as char else c
  }

  /** Python's `str.lower`. */
  function Lower(s: string): (r: string)
    ensures |r| == |s|
    ensures forall i :: 0 <= i < |s| ==> r[i] == LowerChar(s[i])
  {
    seq(|s|, i requires 0 <= i < |s| => LowerChar(s[i]))
  }

  lemma LowerIdempotent(s: string)
    ensures Lower(Lower(s)) == Lower(s)
  {
  }

  /** Python's `s.replace(a, b)` for one-character `a` and `b`. */
  function ReplaceChar(s: string, a: char, b: char): (r: string)
    ensures |r| == |s|
    ensures forall i :: 0 <= i < |s| ==> r[i] == (if s[i] == a then b else s[i])
  {
    seq(|s|, i requires 0 <= i < |s| => if s[i] == a then b else s[i])
  }

  /** Python's `s.replace(a, '')`: every occurrence of `a` removed. */
  function DeleteChar(s: string, a: char): (r: string)
    ensures a !in r
    ensures forall c :: c in r ==> c in s
    ensures forall c :: c != a && c in s ==> c in r
  {
    if s == [] then []
    else if s[0] == a then DeleteChar(s[1..], a)
    else [s[0]] + DeleteChar(s[1..], a)
  }

  /** Leading characters satisfying `drop` removed (Python's `lstrip(chars)`). */
  function StripLeft(s: string, drop: char -> bool): (r: string)
    ensures |r| <= |s| && r == s[|s| - |r|..]
    ensures forall i :: 0 <= i < |s| - |r| ==> drop(s[i])
    ensures |r| > 0 ==> !drop(r[0])
  {
    if |s| > 0 && drop(s[0]) then StripLeft(s[1..], drop) else s
  }

  /** Trailing characters satisfying `drop` removed (Python's `rstrip(chars)`). */
  function StripRight(s: string, drop: char -> bool): (r: string)
    ensures |r| <= |s| && r == s[..|r|]
    ensures forall i :: |r| <= i < |s| ==> drop(s[i])
    ensures |r| > 0 ==> !drop(r[|r| - 1])
  {
    if |s| > 0 && drop(s[|s| - 1]) then StripRight(s[..|s| - 1], drop) else s
  }

  /** Python's `strip`: both ends cleared of characters satisfying `drop`. */
  function Strip(s: string, drop: char -> bool): (r: string)
    ensures |r| > 0 ==> !drop(r[0]) && !drop(r[|r| - 1])
    ensures |r| <= |s|
    ensures forall c :: c in r ==> c in s
  {
    var left := StripLeft(s, drop);
    var r := StripRight(left, drop);
    assert forall c :: c in r ==> c in left;
    assert forall c :: c in left ==> c in s;
    r
  }

  /** A string whose ends already survive `drop` is left unchanged by `Strip`. */
  lemma StripUntouched(s: string, drop: char -> bool)
    requires |s| > 0 ==> !drop(s[0]) && !drop(s[|s| - 1])
    ensures Strip(s, drop) == s
  {
  }

  /** Python's `str.strip()` with no argument. */
  function Trim(s: string): string {
    Strip(s, IsPySpace)
  }

  /** Number of occurrences of `c` in `s`. */
  function Count(s: string, c: char): nat {
    if s == [] then 0 else (if s[0] == c then 1 else 0) + Count(s[1..], c)
  }

  /** Python's `s.split(sep)` for a one-character separator. */
  function Split(s: string, sep: char): (parts: seq<string>)
    ensures |parts| >= 1
  {
    if s == [] then [""]
    else
      var rest := Split(s[1..], sep);
      if s[0] == sep then [""] + rest
      else [[s[0]] + rest[0]] + rest[1..]
  }

  /** Python's `sep.join(parts)`. */
  function Join(parts: seq<string>, sep: char): string
    requires |parts| >= 1
  {
    if |parts| == 1 then parts[0] else parts[0] + [sep] + Join(parts[1..], sep)
  }

  /** Splitting yields one segment more than there are separators. */
  lemma {:induction false} SplitCount(s: string, sep: char)
    ensures |Split(s, sep)| == Count(s, sep) + 1
  {
    if s != [] {
      SplitCount(s[1..], sep);
    }
  }

  /** No segment contains the separator. */
  lemma {:induction false} SplitSegmentsClean(s: string, sep: char)
    ensures forall i :: 0 <= i < |Split(s, sep)| ==> sep !in Split(s, sep)[i]
  {
    if s != [] {
      SplitSegmentsClean(s[1..], sep);
      var rest := Split(s[1..], sep);
      if s[0] != sep {
        assert sep !in rest[0];
        assert sep !in [s[0]] + rest[0];
      }
    }
  }

  /** Joining the segments back with the separator restores the string. */
  lemma {:induction false} SplitJoin(s: string, sep: char)
    ensures Join(Split(s, sep), sep) == s
  {
    if s != [] {
      SplitJoin(s[1..], sep);
      var rest := Split(s[1..], sep);
      if s[0] == sep {
        assert Split(s, sep) == [""] + rest;
        assert ([""] + rest)[1..] == rest;
      } else {
        var parts := [[s[0]] + rest[0]] + rest[1..];
        assert Split(s, sep) == parts;
        if |rest| == 1 {
          assert Join(parts, sep) == [s[0]] + rest[0];
        } else {
          assert parts[1..] == rest[1..];
          assert Join(rest, sep) == rest[0] + [sep] + Join(rest[1..], sep);
          assert Join(parts, sep) == [s[0]] + rest[0] + [sep] + Join(rest[1..], sep);
        }
      }
    }
  }

  function DigitChar(d: nat): char
    requires d < 10
  {
    ('0' as int + d) as char
  }

  /** Decimal rendering of a natural number, as JavaScript template literals print it. */
  function NatToString(n: nat): (r: string)
    ensures |r| >= 1
    ensures forall i :: 0 <= i < |r| ==> IsDigit(r[i])
  {
    if n < 10 then [DigitChar(n)] else NatToString(n / 10) + [DigitChar(n % 10)]
  }

  /** JavaScript's `String(n)` for an integer. */
  function IntToString(n: int): string {
    if n < 0 then "-" + NatToString(-n) else NatToString(n)
  }
}

=== FILE: use_validation.dfy ===
/** The form-validation hook of the frontend: per-field rule checks, whole
    form validation, and the error map the hook keeps. JavaScript values are
    modelled as follows: a field value is absent (`undefined`/`null`) or a
    string; a length bound of 0 is an absent bound (both are falsy); an
    empty rule message or an empty custom-check result is absent (falsy). */
module UseValidation {
  import opened Wrappers
  import opened Dicts
  import opened Text

  datatype Rules = Rules(
    required: bool,
    minLength: int,
    maxLength: int,
    pattern: Option<string -> bool>,   // `pattern.test`
    message: string,
    custom: Option<string -> string>)

  /** JavaScript truthiness of a field value. */
  predicate Present(value: Option<string>) { value.Some? && value.value != "" }

  /** `!value || value.trim() === ''`. */
  predicate Blank(value: Option<string>) { !Present(value) || Strip(value.value, IsJsSpace) == "" }

  predicate MissingRequired(value: Option<string>, rules: Rules) { rules.required && Blank(value) }

  predicate TooShort(value: Option<string>, rules: Rules) {
    rules.minLength != 0 && Present(value) && |value.value| < rules.minLength
  }

  predicate TooLong(value: Option<string>, rules: Rules) {
    rules.maxLength != 0 && Present(value) && |value.value| > rules.maxLength
  }

  predicate PatternMismatch(value: Option<string>, rules: Rules) {
    rules.pattern.Some? && Present(value) && !rules.pattern.value(value.value)
  }

  predicate CustomFails(value: Option<string>, rules: Rules) {
    rules.custom.Some? && Present(value) && rules.custom.value(value.value) != ""
  }

  function RequiredMessage(name: string): (m: string)
    ensures m != ""
  {
    name + " is required"
  }

  /** The message of a failed length check; `bound` is "at least" for the
      minimum and "no more than" for the maximum. */
  function LengthMessage(name: string, bound: string, n: int): (m: string)
    ensures m != ""
  {
    name + " must be " + bound + " " + IntToString(n) + " characters"
  }

  function PatternMessage(name: string, rules: Rules): (m: string)
    ensures m != ""
  {
    if rules.message != "" then rules.message else name + " format is invalid"
  }

  /** 1 for a failing check, 0 for a passing one. */
  function N(c: bool): nat { if c then 1 else 0 }

  /** A check's message if it fails, nothing otherwise. */
  function Opt(c: bool, m: string): (r: seq<string>)
    ensures |r| == N(c)
    ensures c ==> r == [m]
  {
    if c then [m] else []
  }

  /** The messages of five checks in order: one message per failing check. */
  function Collect(c1: bool, m1: string, c2: bool, m2: string, c3: bool, m3: string,
                   c4: bool, m4: string, c5: bool, m5: string): (r: seq<string>)
    ensures |r| == N(c1) + N(c2) + N(c3) + N(c4) + N(c5)
  {
    Opt(c1, m1) + Opt(c2, m2) + Opt(c3, m3) + Opt(c4, m4) + Opt(c5, m5)
  }

  /** A failing check's message sits right after those of the earlier
      failing checks. */
  lemma CollectPositions(c1: bool, m1: string, c2: bool, m2: string, c3: bool, m3: string,
                         c4: bool, m4: string, c5: bool, m5: string)
    ensures var r := Collect(c1, m1, c2, m2, c3, m3, c4, m4, c5, m5);
            && (c1 ==> r[0] == m1)
            && (c2 ==> r[N(c1)] == m2)
            && (c3 ==> r[N(c1) + N(c2)] == m3)
            && (c4 ==> r[N(c1) + N(c2) + N(c3)] == m4)
            && (c5 ==> r[N(c1) + N(c2) + N(c3) + N(c4)] == m5)
  {
    var p1 := Opt(c1, m1);
    var p2 := p1 + Opt(c2, m2);
    var p3 := p2 + Opt(c3, m3);
    var p4 := p3 + Opt(c4, m4);
    var r := p4 + Opt(c5, m5);
    assert r == Collect(c1, m1, c2, m2, c3, m3, c4, m4, c5, m5);
    assert r[..|p4|] == p4 && p4[..|p3|] == p3 && p3[..|p2|] == p2 && p2[..|p1|] == p1;
    if c1 { assert r[0] == p4[0] == p3[0] == p2[0] == p1[0]; }
    if c2 { assert r[|p1|] == p4[|p1|] == p3[|p1|] == p2[|p1|]; }
    if c3 { assert r[|p2|] == p4[|p2|] == p3[|p2|]; }
    if c4 { assert r[|p3|] == p4[|p3|]; }
  }

  /** Every message in the list is that of a failing check. */
  lemma CollectOrigins(c1: bool, m1: string, c2: bool, m2: string, c3: bool, m3: string,
                       c4: bool, m4: string, c5: bool, m5: string)
    ensures var r := Collect(c1, m1, c2, m2, c3, m3, c4, m4, c5, m5);
            forall i :: 0 <= i < |r| ==>
              (c1 && r[i] == m1) || (c2 && r[i] == m2) || (c3 && r[i] == m3) || (c4 && r[i] == m4) || (c5 && r[i] == m5)
  {
    var r := Collect(c1, m1, c2, m2, c3, m3, c4, m4, c5, m5);
    forall i | 0 <= i < |r|
      ensures (c1 && r[i] == m1) || (c2 && r[i] == m2) || (c3 && r[i] == m3) || (c4 && r[i] == m4) || (c5 && r[i] == m5)
    {
      var p1 := Opt(c1, m1);
      var p2 := p1 + Opt(c2, m2);
      var p3 := p2 + Opt(c3, m3);
      var p4 := p3 + Opt(c4, m4);
      assert r == p4 + Opt(c5, m5);
      if i >= |p4| { assert r[i] == m5; }
      else if i >= |p3| { assert r[i] == p4[i] == m4; }
      else if i >= |p2| { assert r[i] == p4[i] == p3[i] == m3; }
      else if i >= |p1| { assert r[i] == p4[i] == p3[i] == p2[i] == m2; }
      else { assert r[i] == p4[i] == p3[i] == p2[i] == p1[i] == m1; }
    }
  }

  /** When only the first check can fail, the list is its message or
      nothing. */
  lemma CollectOnlyFirst(c1: bool, m1: string, c2: bool, m2: string, c3: bool, m3: string,
                         c4: bool, m4: string, c5: bool, m5: string)
    requires !c2 && !c3 && !c4 && !c5
    ensures Collect(c1, m1, c2, m2, c3, m3, c4, m4, c5, m5) == Opt(c1, m1)
  {
    assert Opt(c2, m2) == Opt(c3, m3) == Opt(c4, m4) == Opt(c5, m5) == [];
  }

  /** `validateField`: one message per failed check, in the order required,
      minimum length, maximum length, pattern, custom check. */
  function ValidateField(name: string, value: Option<string>, rules: Rules): (errors: seq<string>)
    ensures errors == [] <==>
              !MissingRequired(value, rules) && !TooShort(value, rules) && !TooLong(value, rules)
              && !PatternMismatch(value, rules) && !CustomFails(value, rules)
    ensures |errors| == N(MissingRequired(value, rules)) + N(TooShort(value, rules)) + N(TooLong(value, rules))
                        + N(PatternMismatch(value, rules)) + N(CustomFails(value, rules))
    ensures forall i :: 0 <= i < |errors| ==> errors[i] != ""
    ensures MissingRequired(value, rules) ==> errors[0] == RequiredMessage(name)
    ensures TooShort(value, rules) ==> errors[N(MissingRequired(value, rules))] == LengthMessage(name, "at least", rules.minLength)
    ensures TooLong(value, rules) ==>
              errors[N(MissingRequired(value, rules)) + N(TooShort(value, rules))] == LengthMessage(name, "no more than", rules.maxLength)
    ensures PatternMismatch(value, rules) ==>
              errors[N(MissingRequired(value, rules)) + N(TooShort(value, rules)) + N(TooLong(value, rules))]
              == PatternMessage(name, rules)
    ensures CustomFails(value, rules) ==> errors[|errors| - 1] == rules.custom.value(value.value)
    ensures !Present(value) ==> errors == (if rules.required then [RequiredMessage(name)] else [])
  {
    var c1, m1 := MissingRequired(value, rules), RequiredMessage(name);
    var c2, m2 := TooShort(value, rules), LengthMessage(name, "at least", rules.minLength);
    var c3, m3 := TooLong(value, rules), LengthMessage(name, "no more than", rules.maxLength);
    var c4, m4 := PatternMismatch(value, rules), PatternMessage(name, rules);
    var c5 := CustomFails(value, rules);
    var m5 := if c5 then rules.custom.value(value.value) else "";
    CollectPositions(c1, m1, c2, m2, c3, m3, c4, m4, c5, m5);
    CollectOrigins(c1, m1, c2, m2, c3, m3, c4, m4, c5, m5);
    if Present(value) then Collect(c1, m1, c2, m2, c3, m3, c4, m4, c5, m5)
    else
      CollectOnlyFirst(c1, m1, c2, m2, c3, m3, c4, m4, c5, m5);
      Collect(c1, m1, c2, m2, c3, m3, c4, m4, c5, m5)
  }

  /** A value whose length lies within both bounds can fail only the
      required, pattern and custom checks. */
  lemma LengthWithinBounds(name: string, value: string, rules: Rules)
    requires value != "" && (rules.minLength == 0 || |value| >= rules.minLength)
    requires rules.maxLength == 0 || |value| <= rules.maxLength
    ensures |ValidateField(name, Some(value), rules)| <= 3
  {
  }

  /** The hook's error map: a field maps to its message or to null. */
  type Errors = map<string, Option<string>>

  /** `hasError`: the field has a (non-empty) message. */
  predicate HasError(errors: Errors, field: string) {
    field in errors && errors[field].Some? && errors[field].value != ""
  }

  /** `getError`: the field's message, or null. */
  function GetError(errors: Errors, field: string): (r: Option<string>)
    ensures r.Some? <==> HasError(errors, field)
    ensures r.Some? ==> errors[field] == r
  {
    if HasError(errors, field) then errors[field] else None
  }

  /** `clearError`: the field is set to null; the others are kept. */
  function ClearError(errors: Errors, field: string): (r: Errors)
    ensures !HasError(r, field) && field in r
    ensures forall f :: f != field ==> (f in r <==> f in errors) && (f in errors ==> r[f] == errors[f])
  {
    errors[field := None]
  }

  /** `clearAllErrors`. */
  function ClearAllErrors(): (r: Errors)
    ensures forall f :: !HasError(r, f)
  {
    map[]
  }

  /** `validateSingleField`: the field's entry becomes its first message or
      null, the others are kept; true iff the value passes every check. */
  function ValidateSingleField(errors: Errors, field: string, value: Option<string>, rules: Rules): (r: (Errors, bool))
    ensures r.1 <==> ValidateField(field, value, rules) == []
    ensures HasError(r.0, field) <==> !r.1
    ensures !r.1 ==> GetError(r.0, field) == Some(ValidateField(field, value, rules)[0])
    ensures forall f :: f != field ==> (f in r.0 <==> f in errors) && (f in errors ==> r.0[f] == errors[f])
  {
    var fieldErrors := ValidateField(field, value, rules);
    (errors[field := if |fieldErrors| > 0 then Some(fieldErrors[0]) else None], |fieldErrors| == 0)
  }

  /** `formData[field]`: the form's value, or `undefined`. */
  function ValueOf(formData: map<string, string>, field: string): Option<string> {
    if field in formData then Some(formData[field]) else None
  }

  /** The messages of one ruled field against the form. */
  function FieldErrors(formData: map<string, string>, rule: (string, Rules)): seq<string> {
    ValidateField(rule.0, ValueOf(formData, rule.0), rule.1)
  }

  /** The entry `validateForm` records for one ruled field: its first
      message, if it has any. */
  function FirstError(formData: map<string, string>, rule: (string, Rules)): (r: Option<string>)
    ensures r.Some? <==> FieldErrors(formData, rule) != []
    ensures r.Some? ==> r.value == FieldErrors(formData, rule)[0] && r.value != ""
  {
    var errs := FieldErrors(formData, rule);
    if errs != [] then Some(errs[0]) else None
  }

  /** The error map built from the entries `firsts[i]` recorded for the
      fields `rules[i].0`, from position `k` on: a field is present iff its
      entry is a message. */
  function FormErrors(rules: Dict<string, Rules>, firsts: seq<Option<string>>, k: nat): (r: Errors)
    requires |firsts| == |rules| && k <= |rules|
    ensures forall f :: f in r ==> exists i :: k <= i < |rules| && rules[i].0 == f && r[f] == firsts[i]
    ensures forall i :: k <= i < |rules| ==>
              (rules[i].0 in r <==> firsts[i].Some?) && (rules[i].0 in r ==> r[rules[i].0] == firsts[i])
    decreases |rules| - k
  {
    if k == |rules| then map[]
    else
      var f := rules[k].0;
      var rest := FormErrors(rules, firsts, k + 1);
      assert forall i :: k < i < |rules| ==> rules[i].0 != f;
      if firsts[k].Some? then rest[f := firsts[k]] else rest
  }

  /** `validateForm`: every field named in the rules is checked against its
      value in the form (absent if the form lacks it); the error map is
      replaced by the first message of each failing field, and the form is
      valid iff no field fails. */
  function ValidateForm(formData: map<string, string>, rules: Dict<string, Rules>): (r: (Errors, bool))
    ensures r.1 <==> r.0 == map[]
    ensures forall f :: HasError(r.0, f) <==> f in r.0
    ensures forall i :: 0 <= i < |rules| ==>
              var f := rules[i].0;
              var errs := ValidateField(f, ValueOf(formData, f), rules[i].1);
              (HasError(r.0, f) <==> errs != []) && (HasError(r.0, f) ==> GetError(r.0, f) == Some(errs[0]))
    ensures r.1 <==> forall i :: 0 <= i < |rules| ==>
              ValidateField(rules[i].0, ValueOf(formData, rules[i].0), rules[i].1) == []
  {
    var firsts := seq(|rules|, i requires 0 <= i < |rules| => FirstError(formData, rules[i]));
    var errors := FormErrors(rules, firsts, 0);
    (errors, errors == map[])
  }

  /** Checking one field alone and checking the whole form agree on that
      field: same verdict, same message. */
  lemma SingleFieldAgreesWithForm(errors: Errors, formData: map<string, string>, rules: Dict<string, Rules>, i: nat)
    requires i < |rules|
    ensures var f := rules[i].0;
            var single := ValidateSingleField(errors, f, ValueOf(formData, f), rules[i].1).0;
            var form := ValidateForm(formData, rules).0;
            && (HasError(single, f) <==> HasError(form, f))
            && GetError(single, f) == GetError(form, f)
  {
  }
}

=== FILE: validators.dfy ===
/** The backend's validation helpers: name checks built on anchored regular
    expressions, filename sanitising, template-variable checking and
    pagination checking. */
module Validators {
  import opened Text
  import opened Dicts
  import opened Wrappers
  import opened Documents

  // ---------------------------------------------------------------------
  // Anchored patterns. `re.match(r'^P$', s)` succeeds when P matches all of
  // `s`, or when P matches all of `s` but one final line feed: Python's `$`
  // also matches just before a newline that ends the string.
  // ---------------------------------------------------------------------

  predicate MatchesToEnd(s: string, pattern: string -> bool) {
    pattern(s) || (|s| > 0 && s[|s| - 1] == '\n' && pattern(s[..|s| - 1]))
  }

  // --- project names: ^[a-zA-Z0-9\s\-_]+$ ---

  predicate ProjectNameChar(c: char) {
    IsAlnum(c) || IsPySpace(c) || c == '-' || c == '_'
  }

  predicate ProjectNamePattern(t: string) {
    |t| >= 1 && forall i :: 0 <= i < |t| ==> ProjectNameChar(t[i])
  }

  /** `validate_project_name`: a length check, then the anchored pattern. */
  predicate ValidateProjectName(name: string)
    ensures ValidateProjectName(name) ==> 1 <= |name| <= 100
    ensures |name| <= 100 && ProjectNamePattern(name) ==> ValidateProjectName(name)
  {
    if |name| == 0 || |name| < 1 || |name| > 100 then false
    else MatchesToEnd(name, ProjectNamePattern)
  }

  /** A project name is valid iff it has 1..100 characters, each a letter,
      digit, whitespace, hyphen or underscore (a trailing line feed is
      whitespace, so the `$` quirk adds nothing here). */
  lemma ProjectNameCharacterization(name: string)
    ensures ValidateProjectName(name) <==>
              1 <= |name| <= 100 && forall i :: 0 <= i < |name| ==> ProjectNameChar(name[i])
  {
    if ValidateProjectName(name) && !ProjectNamePattern(name) {
      var t := name[..|name| - 1];
      assert ProjectNamePattern(t);
      forall i | 0 <= i < |name|
        ensures ProjectNameChar(name[i])
      {
        if i < |name| - 1 {
          assert name[i] == t[i];
        }
      }
    }
  }

  // --- GitHub usernames: ^[a-zA-Z0-9]([a-zA-Z0-9\-]*[a-zA-Z0-9])?$ ---

  predicate UsernamePattern(t: string) {
    && |t| >= 1
    && IsAlnum(t[0])
    && (|t| == 1 || (IsAlnum(t[|t| - 1]) && forall i :: 1 <= i < |t| - 1 ==> IsAlnum(t[i]) || t[i] == '-'))
  }

  /** `validate_github_username`: a length check, then the anchored pattern. */
  predicate ValidateGithubUsername(username: string)
    ensures ValidateGithubUsername(username) ==> 1 <= |username| <= 39
    ensures |username| <= 39 && UsernamePattern(username) ==> ValidateGithubUsername(username)
  {
    if |username| == 0 || |username| < 1 || |username| > 39 then false
    else MatchesToEnd(username, UsernamePattern)
  }

  /** The documented rule: alphanumerics and hyphens, not starting or ending with a hyphen. */
  predicate UsernameShape(t: string) {
    && |t| >= 1
    && (forall i :: 0 <= i < |t| ==> IsAlnum(t[i]) || t[i] == '-')
    && t[0] != '-' && t[|t| - 1] != '-'
  }

  lemma UsernamePatternIsShape(t: string)
    ensures UsernamePattern(t) <==> UsernameShape(t)
  {
  }

  /** A username is valid iff it has 1..39 characters and, apart from one
      optional final line feed, is alphanumerics and hyphens with no hyphen
      at either end. */
  lemma UsernameCharacterization(username: string)
    ensures ValidateGithubUsername(username) <==>
              && 1 <= |username| <= 39
              && (|| UsernameShape(username)
                  || (username[|username| - 1] == '\n' && UsernameShape(username[..|username| - 1])))
  {
    UsernamePatternIsShape(username);
    if |username| > 0 {
      UsernamePatternIsShape(username[..|username| - 1]);
    }
  }

  /** Underscores are rejected wherever they occur. */
  lemma UsernameRejectsUnderscore(username: string)
    requires '_' in username
    ensures !ValidateGithubUsername(username)
  {
    UsernameCharacterization(username);
    var k :| 0 <= k < |username| && username[k] == '_';
    if |username| > 0 && username[|username| - 1] == '\n' {
      assert k < |username| - 1;
      assert username[..|username| - 1][k] == '_';
    }
  }

  // --- repository names: ^[a-zA-Z0-9\-_.]+$ ---

  predicate RepositoryNameChar(c: char) {
    IsAlnum(c) || c == '-' || c == '_' || c == '.'
  }

  predicate RepositoryNamePattern(t: string) {
    |t| >= 1 && forall i :: 0 <= i < |t| ==> RepositoryNameChar(t[i])
  }

  /** `validate_repository_name`: a length check, then the anchored pattern. */
  predicate ValidateRepositoryName(name: string)
    ensures ValidateRepositoryName(name) ==> 1 <= |name| <= 100
    ensures |name| <= 100 && RepositoryNamePattern(name) ==> ValidateRepositoryName(name)
  {
    if |name| == 0 || |name| < 1 || |name| > 100 then false
    else MatchesToEnd(name, RepositoryNamePattern)
  }

  /** Every valid GitHub username is also a valid repository name. */
  lemma UsernameIsRepositoryName(username: string)
    requires ValidateGithubUsername(username)
    ensures ValidateRepositoryName(username)
  {
    if UsernamePattern(username) {
      assert RepositoryNamePattern(username);
    } else {
      var t := username[..|username| - 1];
      assert UsernamePattern(t);
      assert RepositoryNamePattern(t);
    }
  }

  /** The cases the unit tests pin down. */
  lemma NameExamples()
    ensures ValidateProjectName("My Project")
    ensures ValidateProjectName(seq(100, _ => 'a'))
    ensures !ValidateProjectName(seq(101, _ => 'a'))
    ensures !ValidateProjectName("project@name")
    ensures ValidateGithubUsername("user-name")
    ensures !ValidateGithubUsername("-user") && !ValidateGithubUsername("user-")
    ensures ValidateGithubUsername("user\n")
    ensures ValidateRepositoryName("repo.name") && !ValidateRepositoryName("repo/name")
  {
    assert ProjectNamePattern("My Project");
    assert "project@name"[7] == '@';
    assert UsernamePattern("user-name");
    assert "user\n"[..4] == "user";
    assert UsernamePattern("user");
    assert "repo/name"[4] == '/';
  }

  // ---------------------------------------------------------------------
  // Filename sanitising.
  // ---------------------------------------------------------------------

  const DangerousChars: string := ['<', '>', ':', '"', '|', '?', '*', '\\', '/']

  /** The loop `for char in chars: s = s.replace(char, '_')`. */
  function ReplaceEach(s: string, chars: string): string
    decreases |chars|
  {
    if chars == [] then s else ReplaceEach(ReplaceChar(s, chars[0], '_'), chars[1..])
  }

  /** The same substitution done character by character. */
  function Underscored(s: string, chars: string): (r: string)
    ensures |r| == |s|
    ensures forall i :: 0 <= i < |s| ==> r[i] == (if s[i] in chars then '_' else s[i])
  {
    seq(|s|, i requires 0 <= i < |s| => if s[i] in chars then '_' else s[i])
  }

  /** Replacing the characters one after the other equals replacing them all
      at once, because the replacement `_` is never itself replaced. */
  lemma {:induction false} ReplaceEachIsUnderscored(s: string, chars: string)
    requires '_' !in chars
    ensures ReplaceEach(s, chars) == Underscored(s, chars)
    ensures forall i :: 0 <= i < |ReplaceEach(s, chars)| ==> ReplaceEach(s, chars)[i] !in chars
    decreases |chars|
  {
    if chars != [] {
      var s1 := ReplaceChar(s, chars[0], '_');
      ReplaceEachIsUnderscored(s1, chars[1..]);
      assert Underscored(s1, chars[1..]) == Underscored(s, chars);
    }
  }

  predicate EdgeChar(c: char) { c == ' ' || c == '.' }

  /** `strip(' .')`, then "unnamed" when nothing is left. */
  function StripOrUnnamed(replaced: string): (r: string)
    requires forall i :: 0 <= i < |replaced| ==> replaced[i] !in DangerousChars
    ensures |r| > 0
    ensures forall i :: 0 <= i < |r| ==> r[i] !in DangerousChars
    ensures !EdgeChar(r[0]) && !EdgeChar(r[|r| - 1])
  {
    var stripped := Strip(replaced, EdgeChar);
    if stripped == "" then "unnamed" else stripped
  }

  /** The result never contains a dangerous character, never starts or ends
      with a space or a dot, and is never empty. The substitution is stated
      character by character; `SanitizeIsReplaceLoop` shows it is the
      replacement loop. */
  function SanitizeFilename(filename: string): (r: string)
    ensures |r| > 0
    ensures forall i :: 0 <= i < |r| ==> r[i] !in DangerousChars
    ensures !EdgeChar(r[0]) && !EdgeChar(r[|r| - 1])
  {
    assert '_' !in DangerousChars;
    StripOrUnnamed(Underscored(filename, DangerousChars))
  }

  /** `sanitize_filename` as written: the replacement loop over the
      dangerous characters, then the strip. */
  lemma SanitizeIsReplaceLoop(filename: string)
    ensures SanitizeFilename(filename) == StripOrUnnamed(ReplaceEach(filename, DangerousChars))
  {
    ReplaceEachIsUnderscored(filename, DangerousChars);
  }

  /** The strings sanitising leaves alone are exactly the non-empty ones with
      no dangerous character and no space or dot at either end. */
  lemma SanitizeFixedPoints(s: string)
    ensures SanitizeFilename(s) == s <==>
              |s| > 0 && (forall i :: 0 <= i < |s| ==> s[i] !in DangerousChars)
              && !EdgeChar(s[0]) && !EdgeChar(s[|s| - 1])
  {
    if |s| > 0 && (forall i :: 0 <= i < |s| ==> s[i] !in DangerousChars)
       && !EdgeChar(s[0]) && !EdgeChar(s[|s| - 1]) {
      assert Underscored(s, DangerousChars) == s by { NoReservedCharacter(s); }
      StripUntouched(s, EdgeChar);
      SanitizeStrips(s);
    }
  }

  /** Sanitising is idempotent. */
  lemma SanitizeIdempotent(s: string)
    ensures SanitizeFilename(SanitizeFilename(s)) == SanitizeFilename(s)
  {
    SanitizeFixedPoints(SanitizeFilename(s));
  }

  /** A name whose substitution gives an already clean name sanitises to
      that name. */
  lemma SanitizesTo(s: string, clean: string)
    requires Underscored(s, DangerousChars) == clean
    requires |clean| > 0 && !EdgeChar(clean[0]) && !EdgeChar(clean[|clean| - 1])
    ensures SanitizeFilename(s) == clean
  {
    StripUntouched(clean, EdgeChar);
  }

  /** Unit-test case: a clean name is kept. */
  lemma SanitizeKeepsCleanName()
    ensures SanitizeFilename("normal-file.txt") == "normal-file.txt"
  {
    var s := "normal-file.txt";
    assert forall i :: 0 <= i < |s| ==> s[i] !in DangerousChars;
    assert Underscored(s, DangerousChars) == s;
    SanitizesTo(s, s);
  }

  /** Unit-test case: angle brackets and colons become underscores. */
  lemma SanitizeReplacesReserved()
    ensures SanitizeFilename("file<with>bad:chars") == "file_with_bad_chars"
  {
    var s, clean := "file<with>bad:chars", "file_with_bad_chars";
    var u := Underscored(s, DangerousChars);
    assert forall i :: 0 <= i < |s| ==> u[i] == clean[i];
    SanitizesTo(s, clean);
  }

  /** Unit-test case: slashes of both kinds become underscores. */
  lemma SanitizeReplacesSlashes()
    ensures SanitizeFilename("file/with\\slashes") == "file_with_slashes"
  {
    var s, clean := "file/with\\slashes", "file_with_slashes";
    var u := Underscored(s, DangerousChars);
    assert forall i :: 0 <= i < |s| ==> u[i] == clean[i];
    SanitizesTo(s, clean);
  }

  /** Unit-test cases: nothing, or only dots, becomes `unnamed`. */
  lemma SanitizeExamples()
    ensures SanitizeFilename("") == "unnamed"
    ensures SanitizeFilename("...") == "unnamed"
  {
    assert '.' !in DangerousChars;
    assert Underscored("...", DangerousChars) == "...";
    var left := StripLeft("...", EdgeChar);
    assert left == "" by {
      assert EdgeChar('.');
      assert StripLeft("..", EdgeChar) == StripLeft(".", EdgeChar) == StripLeft("", EdgeChar) == "";
    }
    assert Strip("...", EdgeChar) == StripRight(left, EdgeChar) == "";
  }

  /** `n` spaces. */
  function Spaces(n: nat): (r: string)
    ensures |r| == n && forall i :: 0 <= i < n ==> r[i] == ' '
  {
    seq(n, _ => ' ')
  }

  /** Surrounding spaces are stripped: a clean name padded with any number
      of spaces on either side sanitises to the name (the unit-test case
      `"  spaced  "` is `"spaced"` padded with two spaces on each side). */
  lemma SanitizeStripsSpaces(core: string, m: nat, n: nat)
    requires |core| > 0 && !EdgeChar(core[0]) && !EdgeChar(core[|core| - 1])
    requires forall i :: 0 <= i < |core| ==> core[i] !in DangerousChars
    ensures SanitizeFilename(Spaces(m) + core + Spaces(n)) == core
  {
    var s := Spaces(m) + core + Spaces(n);
    assert forall i :: 0 <= i < |s| ==> s[i] !in DangerousChars by {
      forall i | 0 <= i < |s| ensures s[i] !in DangerousChars {
        if m <= i < m + |core| { assert s[i] == core[i - m]; } else { assert s[i] == ' '; }
      }
    }
    NoReservedCharacter(s);
    assert s[m..][..|core|] == core;
    SanitizesByStripping(s, m, m + |core|);
  }

  /** A name untouched by the substitution sanitises to what lies between
      its leading and trailing runs of spaces and dots. */
  lemma SanitizesByStripping(s: string, a: nat, b: nat)
    requires Underscored(s, DangerousChars) == s
    requires a < b <= |s| && !EdgeChar(s[a]) && !EdgeChar(s[b - 1])
    requires forall i :: 0 <= i < a ==> EdgeChar(s[i])
    requires forall i :: b <= i < |s| ==> EdgeChar(s[i])
    ensures SanitizeFilename(s) == s[a..][..b - a]
  {
    StripBetween(s, a, b);
    SanitizeStrips(s);
  }

  /** Without reserved characters, sanitising only strips, unless nothing
      is left. */
  lemma SanitizeStrips(s: string)
    requires Underscored(s, DangerousChars) == s
    requires Strip(s, EdgeChar) != ""
    ensures SanitizeFilename(s) == Strip(s, EdgeChar)
  {
  }

  lemma StripBetween(s: string, a: nat, b: nat)
    requires a < b <= |s| && !EdgeChar(s[a]) && !EdgeChar(s[b - 1])
    requires forall i :: 0 <= i < a ==> EdgeChar(s[i])
    requires forall i :: b <= i < |s| ==> EdgeChar(s[i])
    ensures Strip(s, EdgeChar) == s[a..][..b - a]
  {
    LeadingEdgesStripped(s, a);
    TrailingEdgesAfter(s, a, b);
    assert Strip(s, EdgeChar) == StripRight(StripLeft(s, EdgeChar), EdgeChar);
  }

  /** The back of a suffix is stripped where the back of the whole is. */
  lemma TrailingEdgesAfter(s: string, a: nat, b: nat)
    requires a < b <= |s| && !EdgeChar(s[b - 1])
    requires forall i :: b <= i < |s| ==> EdgeChar(s[i])
    ensures StripRight(s[a..], EdgeChar) == s[a..][..b - a]
  {
    var t := s[a..];
    forall i | b - a <= i < |t| ensures EdgeChar(t[i]) {
      assert t[i] == s[a + i];
    }
    assert t[b - a - 1] == s[b - 1];
    TrailingEdgesStripped(t, b - a);
  }

  lemma NoReservedCharacter(s: string)
    requires forall i :: 0 <= i < |s| ==> s[i] !in DangerousChars
    ensures Underscored(s, DangerousChars) == s
  {
  }

  /** Stripping the front removes exactly a leading run of `k` edge
      characters. */
  lemma LeadingEdgesStripped(s: string, k: nat)
    requires k < |s| && !EdgeChar(s[k]) && forall i :: 0 <= i < k ==> EdgeChar(s[i])
    ensures StripLeft(s, EdgeChar) == s[k..]
  {
  }

  /** Stripping the back removes exactly a trailing run of edge characters
      after position `k`. */
  lemma TrailingEdgesStripped(s: string, k: nat)
    requires 0 < k <= |s| && !EdgeChar(s[k - 1]) && forall i :: k <= i < |s| ==> EdgeChar(s[i])
    ensures StripRight(s, EdgeChar) == s[..k]
  {
  }

  // ---------------------------------------------------------------------
  // Template variables.
  // ---------------------------------------------------------------------

  datatype ValueProblem = NotAString | Empty | TooLong

  /** One entry of the returned error list. The two set-valued errors carry
      the offending names; their textual order (set iteration) is unspecified. */
  datatype VariableError =
    | MissingVariables(names: set<string>)
    | UnknownVariables(names: set<string>)
    | InvalidValue(name: string, problem: ValueProblem)

  const MaxVariableLength := 1000

  /** The check applied to the value of a declared variable. */
  function CheckValue(v: Value): (r: Option<ValueProblem>)
    ensures r.None? <==> v.Str? && 1 <= |v.s| <= MaxVariableLength
  {
    if !v.Str? then Some(NotAString)
    else if |v.s| == 0 then Some(Empty)
    else if |v.s| > MaxVariableLength then Some(TooLong)
    else None
  }

  /** A provided variable that is declared and whose value fails the check. */
  predicate BadValue(declared: map<string, string>, p: (string, Value)) {
    p.0 in declared && CheckValue(p.1).Some?
  }

  /** The value checks, in the provided variables' order; undeclared ones
      are skipped, and each declared variable with a bad value is reported
      with its problem. */
  function ValueErrors(declared: map<string, string>, provided: seq<(string, Value)>): (errors: seq<VariableError>)
    ensures |errors| <= |provided|
    ensures forall e :: e in errors ==> e.InvalidValue? && e.name in declared && e.name in Keys(provided)
  {
    if provided == [] then []
    else
      var (name, v) := provided[0];
      var rest := ValueErrors(declared, provided[1..]);
      assert Keys(provided[1..]) <= Keys(provided);
      if name in declared && CheckValue(v).Some? then [InvalidValue(name, CheckValue(v).value)] + rest
      else rest
  }

  /** Every declared variable with a bad value is reported, with its problem. */
  lemma {:induction false} ValueErrorsComplete(declared: map<string, string>, provided: seq<(string, Value)>, i: nat)
    requires i < |provided| && BadValue(declared, provided[i])
    ensures InvalidValue(provided[i].0, CheckValue(provided[i].1).value) in ValueErrors(declared, provided)
  {
    var tail := provided[1..];
    if i > 0 {
      assert tail[i - 1] == provided[i];
      ValueErrorsComplete(declared, tail, i - 1);
    }
  }

  /** Every reported value error belongs to a provided, declared variable
      whose value fails its check with exactly that problem. */
  lemma {:induction false} ValueErrorsSound(declared: map<string, string>, provided: seq<(string, Value)>, e: VariableError)
    requires e in ValueErrors(declared, provided)
    ensures e.InvalidValue?
    ensures exists k :: 0 <= k < |provided| && provided[k].0 == e.name && BadValue(declared, provided[k])
                        && CheckValue(provided[k].1) == Some(e.problem)
  {
    var (name, v) := provided[0];
    var tail := provided[1..];
    if name in declared && CheckValue(v).Some? && e == InvalidValue(name, CheckValue(v).value) {
      assert provided[0].0 == e.name && BadValue(declared, provided[0]);
    } else {
      assert e in ValueErrors(declared, tail);
      ValueErrorsSound(declared, tail, e);
      var k :| 0 <= k < |tail| && tail[k].0 == e.name && BadValue(declared, tail[k]) && CheckValue(tail[k].1) == Some(e.problem);
      assert provided[k + 1] == tail[k];
    }
  }

  /** `x` occurs in `errors` at position `from` or later, and `y` after it. */
  predicate OccursBefore(errors: seq<VariableError>, from: nat, x: VariableError, y: VariableError) {
    exists a, b :: from <= a < b < |errors| && errors[a] == x && errors[b] == y
  }

  /** Value errors come in the order the variables were provided: the
      errors of two bad variables appear in their relative order. */
  lemma {:induction false} ValueErrorsInOrder(declared: map<string, string>, provided: seq<(string, Value)>, i: nat, j: nat)
    requires i < j < |provided| && BadValue(declared, provided[i]) && BadValue(declared, provided[j])
    ensures OccursBefore(ValueErrors(declared, provided), 0,
                         InvalidValue(provided[i].0, CheckValue(provided[i].1).value),
                         InvalidValue(provided[j].0, CheckValue(provided[j].1).value))
  {
    var tail := provided[1..];
    var ei := InvalidValue(provided[i].0, CheckValue(provided[i].1).value);
    var ej := InvalidValue(provided[j].0, CheckValue(provided[j].1).value);
    assert tail[j - 1] == provided[j];
    var errors := ValueErrors(declared, provided);
    var rest := ValueErrors(declared, tail);
    if i == 0 {
      ValueErrorsStep(declared, provided);
      ValueErrorsComplete(declared, tail, j - 1);
      var b :| 0 <= b < |rest| && rest[b] == ej;
      assert errors == [ei] + rest;
      assert errors[0] == ei && errors[b + 1] == ej;
      assert OccursBefore(errors, 0, ei, ej);
    } else {
      assert tail[i - 1] == provided[i];
      ValueErrorsInOrder(declared, tail, i - 1, j - 1);
      assert OccursBefore(rest, 0, ei, ej);
      ValueErrorsStep(declared, provided);
      if BadValue(declared, provided[0]) {
        OccursBeforeShift(InvalidValue(provided[0].0, CheckValue(provided[0].1).value), rest, ei, ej);
      } else {
        assert errors == [] + rest == rest;
      }
    }
  }

  /** Two errors in order stay in order behind one more error. */
  lemma OccursBeforeShift(e: VariableError, rest: seq<VariableError>, x: VariableError, y: VariableError)
    requires OccursBefore(rest, 0, x, y)
    ensures OccursBefore([e] + rest, 0, x, y)
  {
    var a, b :| 0 <= a < b < |rest| && rest[a] == x && rest[b] == y;
    assert ([e] + rest)[a + 1] == x && ([e] + rest)[b + 1] == y;
  }

  /** One step of `ValueErrors`: the first variable's error, if any, before
      the errors of the rest. */
  lemma ValueErrorsStep(declared: map<string, string>, provided: seq<(string, Value)>)
    requires provided != []
    ensures ValueErrors(declared, provided) ==
              (if BadValue(declared, provided[0]) then [InvalidValue(provided[0].0, CheckValue(provided[0].1).value)] else [])
              + ValueErrors(declared, provided[1..])
  {
  }

  lemma {:induction false} ValueErrorsEmpty(declared: map<string, string>, provided: seq<(string, Value)>)
    ensures ValueErrors(declared, provided) == [] <==>
              forall i :: 0 <= i < |provided| && provided[i].0 in declared ==> CheckValue(provided[i].1).None?
  {
    if provided != [] {
      ValueErrorsEmpty(declared, provided[1..]);
      assert forall i :: 1 <= i < |provided| ==> provided[i] == provided[1..][i - 1];
    }
  }

  /** No two entries of an error list report a value problem for the same name. */
  predicate OneValueErrorPerName(errors: seq<VariableError>) {
    forall i, j :: 0 <= i < j < |errors| && errors[i].InvalidValue? && errors[j].InvalidValue? ==>
      errors[i].name != errors[j].name
  }

  lemma {:induction false} ValueErrorsOncePerName(declared: map<string, string>, provided: seq<(string, Value)>)
    requires DistinctKeys(provided)
    ensures OneValueErrorPerName(ValueErrors(declared, provided))
  {
    if provided != [] {
      var tail := provided[1..];
      ValueErrorsOncePerName(declared, tail);
      var rest := ValueErrors(declared, tail);
      assert provided[0].0 !in Keys(tail);
      var errors := ValueErrors(declared, provided);
      if errors != rest {
        assert errors == [errors[0]] + rest;
        assert errors[0].name == provided[0].0;
        forall j | 0 < j < |errors|
          ensures errors[j].name != errors[0].name
        {
          assert errors[j] == rest[j - 1];
          assert rest[j - 1] in rest;
        }
      }
    }
  }

  /** How many of the two set-valued errors are reported. */
  function SetErrorCount(declared: map<string, string>, provided: Dict<string, Value>): nat {
    HeadCount(declared.Keys - Keys(provided), Keys(provided) - declared.Keys)
  }

  function HeadCount(missing: set<string>, extra: set<string>): nat {
    (if missing != {} then 1 else 0) + (if extra != {} then 1 else 0)
  }

  /** The errors in the order they are reported: the missing names, the
      unknown names, each when there are any, then the value errors. */
  function Assemble(missing: set<string>, extra: set<string>, values: seq<VariableError>): (errors: seq<VariableError>)
    requires forall e :: e in values ==> e.InvalidValue?
    ensures |errors| == HeadCount(missing, extra) + |values|
    ensures errors[HeadCount(missing, extra)..] == values
    ensures missing != {} ==> errors[0] == MissingVariables(missing)
    ensures extra != {} ==> errors[HeadCount(missing, extra) - 1] == UnknownVariables(extra)
    ensures forall k :: 0 <= k < |errors| && errors[k].MissingVariables? ==> k == 0 && missing != {}
    ensures forall k :: 0 <= k < |errors| && errors[k].UnknownVariables? ==> k == HeadCount(missing, extra) - 1 && extra != {}
  {
    var head := (if missing != {} then [MissingVariables(missing)] else [])
      + (if extra != {} then [UnknownVariables(extra)] else []);
    var errors := head + values;
    forall k | |head| <= k < |errors|
      ensures errors[k] == values[k - |head|] && errors[k].InvalidValue?
    {
      assert values[k - |head|] in values;
    }
    assert errors[|head|..] == values;
    errors
  }

  /** `validate_template_variables`: the missing names first, then the
      unknown names, then one error per declared variable with a bad value,
      in the order the variables were provided. */
  function ValidateTemplateVariables(declared: map<string, string>, provided: Dict<string, Value>): (errors: seq<VariableError>)
    ensures |errors| <= |provided| + 2
    ensures (MissingVariables(declared.Keys - Keys(provided)) in errors) <==> declared.Keys - Keys(provided) != {}
    ensures (UnknownVariables(Keys(provided) - declared.Keys) in errors) <==> Keys(provided) - declared.Keys != {}
    ensures SetErrorCount(declared, provided) <= |errors|
    ensures errors[SetErrorCount(declared, provided)..] == ValueErrors(declared, provided)
    ensures declared.Keys - Keys(provided) != {} ==> errors[0] == MissingVariables(declared.Keys - Keys(provided))
    ensures Keys(provided) - declared.Keys != {} ==>
              errors[SetErrorCount(declared, provided) - 1] == UnknownVariables(Keys(provided) - declared.Keys)
    // each set-valued error appears at most once, in its place
    ensures forall k :: 0 <= k < |errors| && errors[k].MissingVariables? ==> k == 0
    ensures forall k :: 0 <= k < |errors| && errors[k].UnknownVariables? ==> k == SetErrorCount(declared, provided) - 1
    ensures forall e :: e in errors && e.InvalidValue? ==> e.name in declared && e.name in Keys(provided)
  {
    Assemble(declared.Keys - Keys(provided), Keys(provided) - declared.Keys, ValueErrors(declared, provided))
  }

  /** The variables are accepted iff the provided names are exactly the
      declared ones and every value is a string of 1..1000 characters. */
  lemma TemplateVariablesAccepted(declared: map<string, string>, provided: Dict<string, Value>)
    ensures ValidateTemplateVariables(declared, provided) == [] <==>
              && Keys(provided) == declared.Keys
              && forall k :: k in declared ==>
                   Get(provided, k).Some? && Get(provided, k).value.Str?
                   && 1 <= |Get(provided, k).value.s| <= MaxVariableLength
  {
    ValueErrorsEmpty(declared, provided);
    if ValidateTemplateVariables(declared, provided) == [] {
      forall k | k in declared
        ensures Get(provided, k).Some? && Get(provided, k).value.Str?
                && 1 <= |Get(provided, k).value.s| <= MaxVariableLength
      {
        var i :| 0 <= i < |provided| && provided[i].0 == k;
        GetAt(provided, i);
      }
    }
    if && Keys(provided) == declared.Keys
       && forall k :: k in declared ==>
            Get(provided, k).Some? && Get(provided, k).value.Str?
            && 1 <= |Get(provided, k).value.s| <= MaxVariableLength {
      forall i | 0 <= i < |provided| && provided[i].0 in declared
        ensures CheckValue(provided[i].1).None?
      {
        GetAt(provided, i);
      }
    }
  }

  /** Past the set-valued errors, the errors are the value errors. */
  lemma ValueErrorAt(declared: map<string, string>, provided: Dict<string, Value>, k: nat)
    requires SetErrorCount(declared, provided) <= k < |ValidateTemplateVariables(declared, provided)|
    ensures ValidateTemplateVariables(declared, provided)[k] == ValueErrors(declared, provided)[k - SetErrorCount(declared, provided)]
  {
    SuffixIndex(ValidateTemplateVariables(declared, provided), ValueErrors(declared, provided), SetErrorCount(declared, provided), k);
  }

  lemma SuffixIndex<T>(s: seq<T>, t: seq<T>, n: nat, k: nat)
    requires n <= k < |s| && s[n..] == t
    ensures s[k] == t[k - n]
  {
  }

  /** The set-valued errors come first and the value errors after them. */
  lemma TemplateVariableErrorsGrouped(declared: map<string, string>, provided: Dict<string, Value>)
    ensures forall k :: 0 <= k < |ValidateTemplateVariables(declared, provided)| ==>
              (ValidateTemplateVariables(declared, provided)[k].InvalidValue? <==> k >= SetErrorCount(declared, provided))
  {
    var errors := ValidateTemplateVariables(declared, provided);
    var n := SetErrorCount(declared, provided);
    var values := ValueErrors(declared, provided);
    forall k | 0 <= k < |errors|
      ensures errors[k].InvalidValue? <==> k >= n
    {
      if k >= n {
        ValueErrorAt(declared, provided, k);
        assert values[k - n] in values;
      } else if k == 0 && declared.Keys - Keys(provided) != {} {
        assert errors[k] == MissingVariables(declared.Keys - Keys(provided));
      } else {
        assert errors[k] == UnknownVariables(Keys(provided) - declared.Keys);
      }
    }
  }

  /** Every declared variable with a bad value is reported, after the
      set-valued errors, and the value errors keep the order in which the
      variables were provided. */
  lemma TemplateVariableErrorsOrdered(declared: map<string, string>, provided: Dict<string, Value>, i: nat, j: nat)
    requires i < j < |provided| && BadValue(declared, provided[i]) && BadValue(declared, provided[j])
    ensures OccursBefore(ValidateTemplateVariables(declared, provided), SetErrorCount(declared, provided),
                         InvalidValue(provided[i].0, CheckValue(provided[i].1).value),
                         InvalidValue(provided[j].0, CheckValue(provided[j].1).value))
  {
    var errors := ValidateTemplateVariables(declared, provided);
    var n := SetErrorCount(declared, provided);
    var values := ValueErrors(declared, provided);
    ValueErrorsInOrder(declared, provided, i, j);
    var a, b :| 0 <= a < b < |values|
                && values[a] == InvalidValue(provided[i].0, CheckValue(provided[i].1).value)
                && values[b] == InvalidValue(provided[j].0, CheckValue(provided[j].1).value);
    ValueErrorAt(declared, provided, n + a);
    ValueErrorAt(declared, provided, n + b);
  }

  /** Every declared variable with a bad value is reported among the value
      errors. */
  lemma TemplateVariableErrorsComplete(declared: map<string, string>, provided: Dict<string, Value>, i: nat)
    requires i < |provided| && BadValue(declared, provided[i])
    ensures exists a :: SetErrorCount(declared, provided) <= a < |ValidateTemplateVariables(declared, provided)|
              && ValidateTemplateVariables(declared, provided)[a] == InvalidValue(provided[i].0, CheckValue(provided[i].1).value)
  {
    var errors := ValidateTemplateVariables(declared, provided);
    var n := SetErrorCount(declared, provided);
    var values := ValueErrors(declared, provided);
    ValueErrorsComplete(declared, provided, i);
    var a :| 0 <= a < |values| && values[a] == InvalidValue(provided[i].0, CheckValue(provided[i].1).value);
    ValueErrorAt(declared, provided, n + a);
  }

  /** Each declared name produces at most one value error. */
  lemma TemplateVariableValueErrorsUnique(declared: map<string, string>, provided: Dict<string, Value>)
    ensures OneValueErrorPerName(ValidateTemplateVariables(declared, provided))
  {
    var n := SetErrorCount(declared, provided);
    var values := ValueErrors(declared, provided);
    ValueErrorsOncePerName(declared, provided);
    TemplateVariableErrorsGrouped(declared, provided);
    var errors := ValidateTemplateVariables(declared, provided);
    forall i, j | 0 <= i < j < |errors| && errors[i].InvalidValue? && errors[j].InvalidValue?
      ensures errors[i].name != errors[j].name
    {
      ValueErrorAt(declared, provided, i);
      ValueErrorAt(declared, provided, j);
    }
  }

  // ---------------------------------------------------------------------
  // Pagination.
  // ---------------------------------------------------------------------

  const SkipNegative := "Skip parameter must be non-negative"
  const LimitTooSmall := "Limit parameter must be at least 1"
  const LimitTooLarge := "Limit parameter cannot exceed 1000"

  function ValidatePaginationParams(skip: int, limit: int): (errors: seq<string>)
    ensures errors == [] <==> skip >= 0 && 1 <= limit <= 1000
    ensures (SkipNegative in errors) <==> skip < 0
    ensures (LimitTooSmall in errors) <==> limit < 1
    ensures (LimitTooLarge in errors) <==> limit > 1000
    ensures !(LimitTooSmall in errors && LimitTooLarge in errors)
    ensures |errors| <= 2
  {
    (if skip < 0 then [SkipNegative] else [])
      + (if limit < 1 then [LimitTooSmall] else [])
      + (if limit > 1000 then [LimitTooLarge] else [])
  }
}

=== FILE: wrappers.dfy ===
/** Option and Result: the shapes used throughout the model for Python's
    `Optional[...]` values and for operations that either return or raise. */
module Wrappers {

  /** `None` / a present value, as Python's `Optional[T]`. */
  datatype Option<+T> = None | Some(value: T) {

    /** The value, or `default` when absent (Python's `x or default` on optionals). */
    function GetOr(default: T): T {
      match this
      case Some(v) => v
      case None => default
    }
  }

  /** The outcome of a call that can raise: the returned value or the raised error. */
  datatype Result<+T, +E> = Ok(value: T) | Err(error: E) {

    predicate IsFailure() {
      Err?
    }

    function PropagateFailure<U>(): Result<U, E>
      requires Err?
    {
      Err(error)
    }

    function Extract(): T
      requires Ok?
    {
      value
    }
  }
}
